=== FILE: README.md ===
# ePortfolio ledger, modelled in Dafny

ePortfolio is a small Java desktop application that keeps an investment
portfolio. This project models its core: stocks and mutual funds (the
`Investment` record with its fee-aware book value and gain), the `Portfolio`
ledger (the investment list plus the keyword index `IndexofKeyword`, with
`buy`, `sell`, `update`, `getGain`, `getSingleGain`, `search`,
`findInvestment`, `getInvestment`, `getInvestListSize`, `printInvestments` and the
input checks), and the line-level logic of the save file written by
`writeInvestment` and read back by `readInvestments`.

Java keeps the list and the index in static fields and mutates them. Here
they travel together as one immutable `Ledger` value. Each operation returns
the new ledger together with a `Result` that names the outcome the Java code
reports as a message. Java doubles are `real`. `Double.toString` and
`Double.parseDouble` are function parameters. `Integer.toString` and
`Integer.parseInt` are modelled on decimal ASCII digits within the 32-bit range.

Modules, one per concern:

- `Wrappers` (`wrappers.dfy`): `Option` and `Result`.
- `Numerals` (`numerals.dfy`): `Integer.toString` and `Integer.parseInt`.
- `Text` (`text.dfy`): `trim`, `toLowerCase`, `split` on one character, the
  `\s` replacements, and the normalisations used for index words and search keys.
- `Investments` (`investment.dfy`): `Investment`, `Stock` and `MutualFund`.
- `KeywordIndex` (`keyword_index.dfy`): `addToKeywordIndex` and `removeFromkeyWordIndex`.
  It also holds the invariant that the index is the exact inversion of the names' words.
- `Portfolio` (`portfolio.dfy`): the ledger, its validity invariant, and the trades.
- `Search` (`search.dfy`): `search`.
- `Codec` (`codec.dfy`): `writeInvestment` and `readInvestments` over a sequence of lines.
- `Counterexamples` (`counterexamples.dfy`): the inputs behind the findings below.

The ledger invariant `Portfolio.Valid` has four parts:
- symbols are unique;
- quantities are positive;
- book values are non-negative;
- the index lists exactly the positions whose name holds each word, once each
  and in ascending order. `addToKeywordIndex` only appends the newest,
  largest position, and the removal keeps the order of what it leaves.

Where the documented intent and the code disagree, the model follows the code:

- Deleting an entry renumbers only the lists that held it, not every list
  (finding 1).
- A loaded record gets book value 0 from the constructor. The parsed book
  value is only checked, never stored.
- A malformed number sets its field to -1, and the record that field belongs
  to may not be the one it stops. A written record completes on its `Price`
  line, before its `BookValue` line is read.
  - A malformed quantity or price keeps its own record from completing. Its
    fields stay until the next record's lines overwrite them, so that record
    is lost.
  - A malformed book value does not stop its own record, which has already
    completed. It leaves the pending book value at -1.0. The next record then
    fails the `bookValue >= 0` test on its `Price` line and completes only on
    its own `BookValue` line, if that one parses.

## Model

| member | source | states |
|---|---|---|
| Investments.Create | src/ePortfolio/Investment.java:38-69 | A holding is built exactly when symbol and name are non-empty and quantity and price are positive. It starts with book value 0. Otherwise the first invalid field, in declaration order, is the error. |
| Investments.SettersChangeOnlyTheirField | src/ePortfolio/Investment.java:144-218 | Each setter sets its own field and leaves every other field as it was. |
| Investments.CalculateBookValue | src/ePortfolio/Stock.java:49-54 | A purchase raises book value by quantity × price plus the 9.99 commission for a stock (nothing extra for a fund). No other field changes. |
| Investments.Payment | src/ePortfolio/MutualFund.java:64-68 | Sale proceeds plus the sale fee (45.00 for a fund, 9.99 for a stock) equal quantity × price. |
| Investments.BValueSellC | src/ePortfolio/Investment.java:110-114 | The new book value × the old quantity equals the old book value × the current quantity. It is unchanged when the quantity is, 0 when nothing is left, and never negative for a non-negative start. |
| Investments.Gain | src/ePortfolio/Investment.java:122-126 | Gain plus book value plus the sale fee equals quantity × price. |
| Investments.EqualsIgnoresOnlyBookValue | src/ePortfolio/Investment.java:244-257 | `equals` holds exactly when the two records agree once their book values are ignored. |
| Investments.GainAfterOnePurchase | src/ePortfolio/Stock.java:49-68 | Right after one purchase at an unchanged price, the gain is minus both fees: -19.98 for a stock and -45.00 for a fund. |
| Investments.GainUnderRepricing | src/ePortfolio/Investment.java:122-126 | Repricing moves the gain by quantity × the price change. |
| Investments.StockPurchaseAndSale | src/ePortfolio/Stock.java:49-68 | 10 units of a stock at 100.0 cost 1009.99; selling them at 120.0 pays 1190.01. |
| Investments.FundTwoPurchases | src/ePortfolio/MutualFund.java:49-54 | 50 fund units at 20.0, then 50 at 22.0, give book value 1000.0, then 2100.0. |
| Numerals.FormatNat | src/ePortfolio/Portfolio.java:43 | The digits written for a natural number are non-empty decimal digits whose value is that number. |
| Numerals.FormatInt | src/ePortfolio/Portfolio.java:43 | The written integer is non-empty, consists of digits with at most a leading minus, and starts with a minus exactly when the number is negative. |
| Numerals.ParseInt | src/ePortfolio/Portfolio.java:100-107 | A parsed value lies in the 32-bit range and its text starts with an ASCII digit or a sign. The empty text and a lone sign do not parse. |
| Numerals.ParseFormatRoundTrip | src/ePortfolio/Portfolio.java:100-107 | Every 32-bit integer, written as its quantity line writes it, parses back to itself. |
| Text.Lower | src/ePortfolio/Portfolio.java:86 | Lower-casing keeps the length and maps each character through the ASCII case mapping. |
| Text.LowerKeepsNonLetters | src/ePortfolio/Portfolio.java:86 | Lower-casing introduces no character other than a lower-case letter, so a key holds `=` only if its text did. |
| Text.Trim | src/ePortfolio/Portfolio.java:72 | The trimmed text neither starts nor ends with a character up to U+0020, is no longer than the input, and text already in that form is left as it is. |
| Text.TrimIsSlice | src/ePortfolio/Portfolio.java:72 | The trimmed text is a slice of the input, and every character outside that slice is at most U+0020. With the contract of `Text.Trim` this fixes the result. |
| Text.CollapseSpaces | src/ePortfolio/Portfolio.java:549 | The text never grows, is empty exactly when the input is, and starts with a space exactly when the input starts with whitespace. `Text.CollapseRun` and `Text.CollapseSpaceFree` fix the result on every input. |
| Text.CollapseRun | src/ePortfolio/Portfolio.java:549 | A maximal whitespace run after a whitespace-free part becomes exactly one space; the part is kept and the rest is collapsed in turn. |
| Text.CollapseSpaceFree | src/ePortfolio/Portfolio.java:549 | Text without whitespace is left unchanged. |
| Text.CollapsedShape | src/ePortfolio/Portfolio.java:549 | The non-whitespace characters are kept in order. The only whitespace left is the plain space, and no two spaces are adjacent. |
| Text.DropSpacesKeepsText | src/ePortfolio/Portfolio.java:549 | Dropping a leading whitespace run keeps every other character in order. |
| Text.RemoveSpaces | src/ePortfolio/Portfolio.java:474 | A character occurs in the result exactly when it occurs in the input and is not whitespace. `Text.RemoveSpacesOne` and `Text.RemoveSpacesConcat` fix the result on every input. |
| Text.RemoveSpacesOne | src/ePortfolio/Portfolio.java:474 | One character is dropped exactly when it is whitespace, and kept otherwise. |
| Text.RemoveSpacesCons | src/ePortfolio/Portfolio.java:474 | Removing whitespace from a text keeps its first character exactly when that character is not whitespace, followed by the rest with whitespace removed. |
| Text.RemoveSpacesConcat | src/ePortfolio/Portfolio.java:474 | Removing whitespace from a concatenation removes it from each part, in order. |
| Text.RemoveChar | src/ePortfolio/Portfolio.java:87 | A character occurs in the result exactly when it occurs in the input and is not the removed one; the result is no longer. Removal distributes over concatenation (`Text.RemoveCharConcat`). |
| Text.RemoveCharConcat | src/ePortfolio/Portfolio.java:87 | Removing a character from a concatenation removes it from each part. |
| Text.JavaSplit | src/ePortfolio/Portfolio.java:80 | No piece holds the separator. A text without the separator is its own single piece. Otherwise no trailing empty piece is kept. With `Text.SplitJoinsBack` this fixes the pieces. |
| Text.SplitJoinsBack | src/ePortfolio/Portfolio.java:80 | The pieces, padded with empty ones for those dropped at the end, joined by the separator give the text back. |
| Text.JoinFields | src/ePortfolio/Portfolio.java:80 | Splitting loses nothing: the pieces joined by the separator give the text back. |
| Text.LastFieldNonEmpty | src/ePortfolio/Portfolio.java:80 | A text that does not end with the separator has a non-empty last piece, so `split` drops nothing at its end. |
| Text.SplitThreeWays | src/ePortfolio/Portfolio.java:80 | A text with two separators that does not end with one splits into the two pieces before them followed by the pieces after them: at least three. |
| Text.SplitInTwo | src/ePortfolio/Portfolio.java:80-81 | `a=b` with no separator on either side and a non-empty right side splits into exactly `[a, b]`. |
| Text.SplitOnlySeparators | src/ePortfolio/Portfolio.java:342 | A non-empty text made only of the separator splits into no pieces. |
| Text.Unquote | src/ePortfolio/Portfolio.java:87 | Removing the quotes from a quoted value without quotes gives the value back. |
| Text.NameWords | src/ePortfolio/Portfolio.java:546-552 | Every word a name is indexed under holds no whitespace and no upper-case letter. A blank name gives the one empty word, as `split` does. |
| Text.CleanInput | src/ePortfolio/Portfolio.java:473-475 | A search key holds no whitespace and no upper-case letter and is no longer than the keyword. A keyword already in that form is its own key. |
| Text.IndexWordIsOwnKey | src/ePortfolio/Portfolio.java:473-475 | Every word a name is indexed under, cleaned as a search keyword, is itself, so searching for an index word looks up its own list. |
| Text.PlainWordNormalises | src/ePortfolio/Portfolio.java:549-552 | A one-word lower-case name is indexed under itself alone and is its own search key. |
| KeywordIndex.AddPosition | src/ePortfolio/Portfolio.java:557-563 | The list gains the position if it lacked it and keeps its order. It never gets a duplicate. |
| KeywordIndex.AddToKeywordIndex | src/ePortfolio/Portfolio.java:546-568 | Every word of the name lists the position once. Words not in the name keep their lists unchanged. |
| KeywordIndex.AddingKeepsNoDuplicates | src/ePortfolio/Portfolio.java:561-563 | Adding a position never puts a duplicate into any list. |
| KeywordIndex.AddingKeepsAscending | src/ePortfolio/Portfolio.java:557-563 | Appending a position above every listed one keeps every list ascending. |
| KeywordIndex.AddingKeepsInverse | src/ePortfolio/Portfolio.java:546-568 | Indexing a new last name keeps the index the exact inversion of the extended name list, with every list ascending. |
| KeywordIndex.RemoveFirst | src/ePortfolio/Portfolio.java:514 | `remove(Object)` drops one occurrence of the position and keeps every other element. On a list without duplicates the position is then gone. |
| KeywordIndex.ShiftDown | src/ePortfolio/Portfolio.java:519-523 | Each element above the removed position moves down by one; the others stay. |
| KeywordIndex.RemoveFromKeywordIndex | src/ePortfolio/Portfolio.java:506-539 | A list holding the position is repaired and dropped once empty. A list not holding it is left exactly as it was, stale higher positions included. |
| KeywordIndex.RemovalRenumbersHolders | src/ePortfolio/Portfolio.java:514-523 | A list that held the position shrinks by one and keeps every other position it held, renumbered. |
| KeywordIndex.RemovalLeavesOnlyRenumbered | src/ePortfolio/Portfolio.java:514-523 | A repaired list holds nothing but the renumbered other positions it held. |
| KeywordIndex.RemovalKeepsNoDuplicates | src/ePortfolio/Portfolio.java:506-539 | The removal never creates a duplicate in any list. |
| KeywordIndex.RemovalKeepsAscending | src/ePortfolio/Portfolio.java:506-539 | The removal keeps every list ascending, repaired or not. |
| KeywordIndex.LastRemovalKeepsInverse | src/ePortfolio/Portfolio.java:506-539 | Deleting the last position keeps the index the exact inversion of the shortened name list, with every list ascending. |
| KeywordIndex.RemoveFromKeywordIndexEverywhere | src/ePortfolio/Portfolio.java:506-539 | The corrected repair renumbers every list: it keeps every other position, renumbered, and nothing else. |
| KeywordIndex.RenumberingEverywhereKeepsAscending | src/ePortfolio/Portfolio.java:506-539 | The corrected repair keeps every list ascending. |
| KeywordIndex.RenumberingEverywhereKeepsInverse | src/ePortfolio/Portfolio.java:506-539 | With every list renumbered, deleting any position keeps the index the exact inversion of the remaining names, with every list ascending. |
| Portfolio.FindInvestment | src/ePortfolio/Portfolio.java:455-465 | The least position holding the symbol, or -1 exactly when no position holds it. |
| Portfolio.IndexOf | src/ePortfolio/Portfolio.java:264 | `indexOf` finds the least position whose entry `equals` the argument, or -1 exactly when none does. |
| Portfolio.IndexOfSoldEqualsFound | src/ePortfolio/Portfolio.java:249-264 | In `sell`, `indexOf` of the updated entry finds the position `findInvestment` found. |
| Portfolio.JavaRemainder | src/ePortfolio/Portfolio.java:588 | Java's `%` agrees with the mathematical remainder for a non-negative dividend. For a negative dividend it is non-positive, above minus the divisor, and zero exactly when the division is exact. |
| Portfolio.GetInvestment | src/ePortfolio/Portfolio.java:577-592 | An entry comes back exactly when the list is non-empty and the index is non-negative or a multiple of the size. It is the entry at index mod size; otherwise the result is `null`. |
| Portfolio.ParseKind | src/ePortfolio/Portfolio.java:196-202 | The type names `stock` and `mutualfund`, in any case, pick the kind; any other name is refused. |
| Portfolio.Buy | src/ePortfolio/Portfolio.java:191-236 | Each refusal leaves the ledger unchanged: an invalid type, a failed construction (with the constructor's reason), or a held symbol of the other kind. Each is stated as an if-and-only-if of its cause, and no other refusal exists. A purchase succeeds exactly when the type is known, the constructor accepts the fields, and the symbol is new or held as the same kind. |
| Portfolio.Acquire | src/ePortfolio/Portfolio.java:207-235 | After validation, the only refusal is a held symbol of the other kind, which leaves the ledger unchanged. After a success the symbol is held, and the list has grown by one exactly when a new entry was opened. |
| Portfolio.BuyMergesIntoHeld | src/ePortfolio/Portfolio.java:209-223 | A valid purchase of a held symbol of the same kind adds the units to that entry in place, sets the new price and adds the purchase cost to book value. The index and every other entry are unchanged. |
| Portfolio.BuyOpensNewEntry | src/ePortfolio/Portfolio.java:226-235 | A valid purchase of a new symbol appends it with its purchase cost as book value and indexes its name at the new last position. |
| Portfolio.BuyValidatesBeforeLookup | src/ePortfolio/Portfolio.java:194-208 | A purchase with an empty name is refused even when the symbol is already held. |
| Portfolio.BuyPreservesValid | src/ePortfolio/Portfolio.java:191-236 | Every purchase keeps the ledger valid. In particular a held symbol never gets a second entry. |
| Portfolio.AppendKeepsValid | src/ePortfolio/Portfolio.java:226-232 | Appending a new symbol with a positive quantity and indexing its name keeps the ledger valid. |
| Portfolio.SellWith | src/ePortfolio/Portfolio.java:247-280 | An unknown symbol, or more units than held, is refused without effect; each refusal is stated as an if-and-only-if of its cause. A sale deletes the entry exactly when it sells every unit. |
| Portfolio.Sell | src/ePortfolio/Portfolio.java:247-280 | `sell` reports the same outcome and leaves the same list as the corrected sale; only the index can differ. A deletion repairs the index with `removeFromkeyWordIndex` at the found position. |
| Portfolio.SellRenumbered | src/ePortfolio/Portfolio.java:263-266 | A deletion renumbers every list of the index at the found position. |
| Portfolio.SellingAllDeletes | src/ePortfolio/Portfolio.java:257-271 | Selling every unit pays quantity × new price minus the sale fee. It removes the entry from the list and repairs the index at that position. |
| Portfolio.SellingPartKeeps | src/ePortfolio/Portfolio.java:257-271 | A partial sale keeps the entry in place with the new price and fewer units, and scales book value to the remaining units. The proceeds are the sold units at the new price less the fee. Index and other entries are unchanged. |
| Portfolio.SellPreservesValid | src/ePortfolio/Portfolio.java:247-280 | `sell` keeps the ledger valid unless it deletes an entry other than the last one. |
| Portfolio.SellRenumberedPreservesValid | src/ePortfolio/Portfolio.java:263-266 | With every list renumbered on deletion, every sale keeps the ledger valid. |
| Portfolio.Update | src/ePortfolio/Portfolio.java:290-296 | Only the price of the entry at index mod size changes, and that entry is returned. When `getInvestment` gives `null`, nothing changes. |
| Portfolio.UpdatePreservesValid | src/ePortfolio/Portfolio.java:290-296 | A price update keeps the ledger valid. |
| Portfolio.UpdateMovesTotalGain | src/ePortfolio/Portfolio.java:303-309 | After an update, the total gain moves by that entry's quantity × the price change. |
| Portfolio.ListSizeFollowsTrades | src/ePortfolio/Portfolio.java:600-602 | The list size grows by one when a purchase opens an entry and shrinks by one when a sale deletes one. Every other trade, update or refusal leaves it unchanged. |
| Portfolio.GetGainSign | src/ePortfolio/Portfolio.java:303-310 | The total gain is 0 for an empty list, and has the sign that every entry's gain shares. |
| Portfolio.GetGainSplits | src/ePortfolio/Portfolio.java:303-309 | The total gain of two lists joined is the sum of their totals. |
| Portfolio.GetSingleGain | src/ePortfolio/Portfolio.java:317-328 | One pair per entry, in list order, carrying that entry's symbol. |
| Portfolio.SingleGainsAddUpToTotal | src/ePortfolio/Portfolio.java:303-328 | The per-entry gains add up to the total gain. |
| Portfolio.PrintInvestments | src/ePortfolio/Portfolio.java:483-499 | The listing is a permutation of the entries: all stocks, then all funds, each part in list order. |
| Portfolio.OfKindInOrder | src/ePortfolio/Portfolio.java:487-496 | Filtering by kind keeps the list order. |
| Portfolio.KindsPartition | src/ePortfolio/Portfolio.java:483-499 | The stocks and the funds together are exactly the entries, as a multiset. |
| Portfolio.InputChecks | src/ePortfolio/Portfolio.java:396-447 | A string fails its check exactly when it is empty and required, and an empty numeric field passes exactly when optional. Every printed 32-bit integer passes the integer check; a text starting with neither an ASCII digit nor a sign fails it. |
| Search.Filter | src/ePortfolio/Portfolio.java:365-384 | The kept investments are exactly those that match the symbol (empty means any) and lie within the price bounds, as a subsequence of the list. |
| Search.Retain | src/ePortfolio/Portfolio.java:355 | `retainAll` keeps exactly the elements the other list holds, as a subsequence of the list. It adds no duplicate and keeps an ascending list ascending. |
| Search.Intersect | src/ePortfolio/Portfolio.java:351-357 | It succeeds exactly when every later key is indexed, yielding the first key's positions that every key lists. A missing key is the error. Only the first key's list is narrowed in place, staying ascending if it was; no other list changes. |
| Search.Collect | src/ePortfolio/Portfolio.java:366-384 | Reading the candidates succeeds exactly when every position is in range; otherwise an out-of-range position is the error. The answer holds exactly the candidates that pass the test. |
| Search.CollectRange | src/ePortfolio/Portfolio.java:358-384 | Reading every position in order is the filter of the whole list. |
| Search.Search | src/ePortfolio/Portfolio.java:339-387 | With no keywords, `search` answers with the matching investments and leaves the index alone. A string of only spaces throws. A missing key is one of the keywords. Only the first key's list may shrink, and answers are matching investments of the ledger. |
| Search.SearchWithoutKeywords | src/ePortfolio/Portfolio.java:358-363 | With no keywords, `search` is the symbol-and-price filter of the whole list, in list order. |
| Search.SearchOnlySpaces | src/ePortfolio/Portfolio.java:342-352 | A keyword string of only spaces throws on the first keyword and changes nothing. |
| Search.Chosen | src/ePortfolio/Portfolio.java:339-387 | The reference answer: the entries whose name holds every key and that pass the test, as a subsequence of the list. |
| Search.CollectAscending | src/ePortfolio/Portfolio.java:366-384 | Reading ascending positions that are exactly the positions whose name holds every key gives the reference answer. |
| Search.SearchInLedgerOrder | src/ePortfolio/Portfolio.java:339-387 | On a valid ledger a successful search answers exactly `Search.Chosen`: the investments, in ledger order and each once, whose name holds every key and that pass the symbol and price test. |
| Search.SearchSoundAndComplete | src/ePortfolio/Portfolio.java:339-387 | On a valid ledger a successful search returns an entry exactly when its name holds every keyword and it passes the symbol and price test. It returns each such entry once, in ledger order: it equals the reference answer `Search.Chosen`. The only failures are an empty split or a missing keyword. |
| Search.Narrow | src/ePortfolio/Portfolio.java:351-357 | The corrected intersection on a private copy: a failure names a missing key, and a success yields a subset of the first list. |
| Search.SearchFixed | src/ePortfolio/Portfolio.java:339-387 | The corrected search leaves the index as it was. |
| Search.IntersectAgrees | src/ePortfolio/Portfolio.java:351-357 | Narrowing in place and narrowing a copy yield the same positions. |
| Search.SearchFixedAgrees | src/ePortfolio/Portfolio.java:339-387 | The corrected search answers exactly as the original does and keeps a valid ledger valid. |
| Codec.Record | src/ePortfolio/Portfolio.java:40-45 | A record is six lines. |
| Codec.WriteInvestment | src/ePortfolio/Portfolio.java:36-46 | The file has six lines per entry and begins with the first entry's record. |
| Codec.DropFirstRecord | src/ePortfolio/Portfolio.java:36-46 | The lines after the first record are the file written for the remaining entries. |
| Codec.DropRecords | src/ePortfolio/Portfolio.java:36-46 | The lines from `6i` on are the file written for the entries from `i` on. |
| Codec.RecordAt | src/ePortfolio/Portfolio.java:36-46 | Lines `6i` to `6i + 5` of the file are the record of entry `i`, so the file lists the entries in order, one record each. |
| Codec.TypeNameParses | src/ePortfolio/Portfolio.java:40 | The written class name is read back as the same kind. |
| Codec.Assign | src/ePortfolio/Portfolio.java:90-127 | Each of the six keys sets its own field and no other. A quantity, price or book value that does not parse becomes -1. An unknown key changes nothing, and no key touches the ledger or the last built investment. |
| Codec.ReadyImpliesCreate | src/ePortfolio/Portfolio.java:131-149 | The completeness test lets through only fields the constructor accepts, so its exception branches never run. |
| Codec.Emit | src/ePortfolio/Portfolio.java:129-167 | An incomplete record changes nothing. A complete one resets the fields. A recognised type appends a new investment with book value 0; an unrecognised one appends the previous investment again, indexed under the new name. |
| Codec.EmitFixed | src/ePortfolio/Portfolio.java:129-167 | The corrected block drops a record of unknown type, leaving the ledger unchanged and clearing the stale investment. |
| Codec.Take | src/ePortfolio/Portfolio.java:129-167 | An incomplete record changes nothing. A complete one resets the fields and appends at most one investment, leaving the entries already held as they were. |
| Codec.EmitFixedAgrees | src/ePortfolio/Portfolio.java:129-167 | On a recognised type the corrected block does what the original does. |
| Codec.ParseLine | src/ePortfolio/Portfolio.java:72-87 | A blank line, or one without `=`, carries no key. A key and value carried hold no `=`, and the value holds no quote. |
| Codec.ReadLineExtends | src/ePortfolio/Portfolio.java:71-167 | One line either changes only the loop's fields or appends one investment; held entries never change. A line without a key changes nothing. |
| Codec.ReadAllExtends | src/ePortfolio/Portfolio.java:71-168 | Reading lines only appends, at most one investment per line, and keeps the entries already held as a prefix. |
| Codec.ReadInvestments | src/ePortfolio/Portfolio.java:62-176 | Loading keeps the ledger already held as the prefix of the result and appends at most one entry per line. |
| Codec.ReadInvestmentsFixed | src/ePortfolio/Portfolio.java:62-176 | The corrected loader too keeps the ledger already held as a prefix and appends at most one entry per line. |
| Codec.ReadAllConcat | src/ePortfolio/Portfolio.java:71 | Reading two runs of lines one after the other is reading their concatenation. |
| Codec.EqualsInValueSkipsLine | src/ePortfolio/Portfolio.java:72-84 | A written line whose value holds `=` splits into three or more pieces on `=`, so it carries no key and reading it changes nothing. |
| Codec.PendingBookValueStep | src/ePortfolio/Portfolio.java:116-132 | While the name is empty, a `BookValue` line only sets the book value, and nothing completes. |
| Codec.SplitKeyLine | src/ePortfolio/Portfolio.java:72-81 | A written line trims to itself and splits on `=` into exactly two pieces. |
| Codec.CleanKeyLine | src/ePortfolio/Portfolio.java:86-87 | The two pieces clean up to the lower-cased key and the bare value. |
| Codec.ReadKeyLine | src/ePortfolio/Portfolio.java:72-87 | A written line is read back as its own key, lower-cased, and its own value. |
| Codec.WrittenKeyReads | src/ePortfolio/Portfolio.java:90-116 | Each written key lower-cases to the key the reader's switch expects. |
| Codec.FormatIntQuotable | src/ePortfolio/Portfolio.java:43 | A written quantity holds no `=`, no quote and no line break. |
| Codec.ReadRecordLines | src/ePortfolio/Portfolio.java:62-167 | A written record completes on its `Price` line, before its book value is read. The loader ends between records again. |
| Codec.ReadRecord | src/ePortfolio/Portfolio.java:129-167 | What one written record appends: for a known type, the entry with book value 0, indexed under its name; for an unknown type, the previous investment again. |
| Codec.ReadStoredRecord | src/ePortfolio/Portfolio.java:36-167 | Reading back one written entry appends it with book value 0, indexed under its own name, and ends between records. |
| Codec.Reloaded | src/ePortfolio/Portfolio.java:133-149 | A reloaded entry is the saved one with book value 0. |
| Codec.AppendAll | src/ePortfolio/Portfolio.java:152-154 | Appending record by record extends the list by exactly those entries, in order. |
| Codec.AppendAllKeepsValid | src/ePortfolio/Portfolio.java:152-154 | Appending entries with new, distinct symbols and positive quantities keeps the ledger valid. |
| Codec.WriteReadFrom | src/ePortfolio/Portfolio.java:36-167 | From between records, reading back what was written appends the entries in order, each indexed under its own name. |
| Codec.WriteReadRoundTrip | src/ePortfolio/Portfolio.java:36-167 | Loading a saved file appends the same entries in the same order with book value 0. The corrected loader reads such a file the same way. |
| Codec.LoadIntoEmptyKeepsValid | src/ePortfolio/Portfolio.java:62-167 | Loading distinct symbols with positive quantities into an empty ledger gives a valid ledger. |
| Codec.LoadSavedKeepsValid | src/ePortfolio/Portfolio.java:36-167 | Saving a ledger with distinct symbols and loading it into an empty one gives a valid ledger holding the same entries, with book value 0. |
| Codec.ReadInvestmentsFixedKeepsIndex | src/ePortfolio/Portfolio.java:62-167 | Whatever the lines, the corrected loader keeps the index matching the names and only appends. |
| Counterexamples.BoughtValid | src/ePortfolio/Portfolio.java:226-232 | Buying entries with distinct symbols in turn from nothing gives a valid ledger holding them in order. |
| Counterexamples.StaleRenumbering | src/ePortfolio/Portfolio.java:506-539 | Selling all of the first of three entries leaves the second's name listing position 1 (now the third) and the third's listing position 2 (past the end). The index then no longer matches. |
| Counterexamples.SearchNarrowsIndex | src/ePortfolio/Portfolio.java:351-357 | Searching for two names narrows the first name's list in the index, so the index stops matching. The corrected search leaves it as it was. |
| Counterexamples.ReloadAsWritten | src/ePortfolio/Portfolio.java:131-158 | A record of unknown type after a valid one makes the loader append the valid entry a second time. |
| Counterexamples.ReloadSkipsBond | src/ePortfolio/Portfolio.java:131-158 | The corrected loader appends the valid entry once and drops the unknown record. |
| Counterexamples.SkippedNameRecord | src/ePortfolio/Portfolio.java:79-132 | A stored record whose name holds `=` appends nothing. Its quantity, price and book value stay pending while the name stays empty. |
| Counterexamples.PendingNumberLines | src/ePortfolio/Portfolio.java:100-132 | While the name is empty, the three number lines of a stored record only store their values. |
| Counterexamples.ShiftedRecord | src/ePortfolio/Portfolio.java:88-166 | With numbers pending and the name empty, a stored record completes on its own `Name` line with the pending quantity and price, then leaves its own numbers pending. |
| Counterexamples.ShiftedFrom | src/ePortfolio/Portfolio.java:71-168 | From that state, each stored record loads with its own kind, symbol and name and the quantity and price of the record before it. |
| Counterexamples.EqualsInNameShiftsLaterRecords | src/ePortfolio/Portfolio.java:36-168 | Saving entries whose first name holds `=` and loading them back gives one entry fewer. Each later entry carries the quantity and price of the one saved before it, with both loaders. |
| Counterexamples.ReloadRepeatsPrevious | src/ePortfolio/Portfolio.java:131-158 | The repeat gives the loaded ledger a duplicate symbol, which the corrected loader avoids. |

## Left out

- Window and launcher (`Gui.java`, `Main.java`), file opening, buffering and
  console messages: presentation and I/O. A file is modelled as its sequence
  of lines, and messages as the `Result` they report.
- `Double.toString`, `Double.parseDouble`, IEEE rounding, NaN and infinities:
  doubles are `real`. Formatting and parsing are parameters, and the round trip
  assumes `parseDouble(formatDouble(x)) == Some(x)` for the saved values.
- `toString`, `hashCode`, the copy constructors and the text layout of
  `getSingleGain`, `printInvestments` and `search`: only the data they lay out
  is modelled.
- `getFileName`: it returns a field this core never sets.
- Names or symbols holding `=`, `"`, `\n` or `\r` do not survive the save
  file. `readLine` ends a line at a line break, and every `"` is stripped from
  a value. The round trip lemmas (`Codec.ReadRecordLines`,
  `Codec.ReadRecord`, `Codec.ReadStoredRecord`, `Codec.WriteReadFrom`,
  `Codec.WriteReadRoundTrip`, `Codec.LoadSavedKeepsValid`) require `Quotable`
  text, which excludes all four characters.
- What `=` in a name or symbol does to the rest of the file:
  - `writeInvestment` does not escape it. The line then splits into three or
    more pieces on `=` and is skipped as malformed
    (`Codec.EqualsInValueSkipsLine`).
  - A skipped `Name` line leaves its record's quantity and price pending.
  - Each later record then completes on its own `Name` line with the previous
    record's quantity and price, and the last record's own numbers are lost
    (`Counterexamples.EqualsInNameShiftsLaterRecords`, for a first entry
    whose name holds `=`).
  - A skipped `Symbol` line works the same way, but each later record
    completes on its own `Symbol` line and also takes the previous record's
    name. No lemma states this case.
- A saved entry whose price is 0 or less is dropped on reload: the completeness
  test demands a positive price, and `sell` and `update` accept any price. The
  round trip lemmas require `Storable` entries, which have a positive price.
- Java object aliasing: the unknown-type branch of `readInvestments` adds the
  same `Investment` object twice. A later merge, update or sale through one
  slot then changes both, and a full sale through one slot deletes that slot
  and leaves a zero-quantity alias behind. The model's entries are values, so
  each slot changes on its own; its `Valid` ledgers hold no such duplicate.
- Portfolio.Buy: does not model 32-bit overflow of the merged quantity `quantity + held`.
- Portfolio.SellWith: requires every held quantity to be positive. A zero
  quantity would make Java divide a double by zero. The trades never create one
  on a value ledger; in Java an aliased entry left by a loaded record of unknown
  type can have one.
- Portfolio.SellWith: does not model 32-bit wrap-around of `oldQuantity - quantity`.
  A negative `quantity` below `oldQuantity - 2147483647` overflows in Java; the
  model computes the exact difference.
- Portfolio.Sell: same requirement as `SellWith`.
- Portfolio.SellPreservesValid: proved only when no entry other than the last
  is deleted, because `removeFromkeyWordIndex` breaks the index otherwise (finding 1).
- Text.Lower: lower-cases ASCII letters only. Java's `toLowerCase` and
  `equalsIgnoreCase` also map non-ASCII letters, with locale rules
  (`"ſtock".equalsIgnoreCase("stock")` holds in Java), so `Portfolio.ParseKind`,
  `Text.NameWords` and `Text.CleanInput` treat non-ASCII letters as themselves.
- Numerals.ParseInt: accepts ASCII digits only. Java's `Integer.parseInt` also
  accepts other Unicode decimal digits, such as Arabic-Indic ones.
- Portfolio.InputChecks: its "a non-digit start fails" clause holds for ASCII
  digits only. A text starting with a non-ASCII Unicode digit passes Java's
  `checkifInt`.
- Investments.BValueSellC: requires a non-zero old quantity, because Java's
  double division by zero has no `real` counterpart.
- Portfolio.GetInvestListSize has no contract of its own; `Portfolio.ListSizeFollowsTrades` states it.

## Findings

| source | as written | input that shows it | evidently intended | confidence | as-written member | corrected member |
|---|---|---|---|---|---|---|
| src/ePortfolio/Portfolio.java:514-523 | `removeFromkeyWordIndex` decrements positions only in lists that held the deleted one | three entries with distinct one-word names; sell every unit of the first | every position above the deleted one moves down in every list, so the index keeps matching the list | not executed | Counterexamples.StaleRenumbering | Portfolio.SellRenumberedPreservesValid |
| src/ePortfolio/Portfolio.java:352-355 | `search` calls `retainAll` on the list stored in the index, narrowing it for good | two entries with distinct one-word names; search for both names | intersect a copy, leaving the index unchanged | not executed | Counterexamples.SearchNarrowsIndex | Search.SearchFixedAgrees |
| src/ePortfolio/Portfolio.java:133-154 | a complete record whose type is neither `stock` nor `mutualfund` re-appends the last investment built | a valid record followed by one with `Type = "Bond"` | skip the unknown record | not executed | Counterexamples.ReloadAsWritten | Counterexamples.ReloadSkipsBond |

=== FILE: codec.dfy ===
/** The save file, at line level. `writeInvestment` writes six `Key = "value"`
    lines per entry; `readInvestments` scans lines one at a time,
    accumulating fields until a record is complete and then appending it.
    File opening, buffering and console warnings are not modelled: a file is
    its sequence of lines. `Double.toString` and `Double.parseDouble` are
    library calls and appear as the parameters `formatDouble` and
    `parseDouble`. */
module Codec {
  import opened Wrappers
  import opened Text
  import opened Numerals
  import opened Investments
  import opened KeywordIndex
  import opened Portfolio

  // ---------------------------------------------------------------------------
  // writeInvestment
  // ---------------------------------------------------------------------------

  /** One line as written: the key, ` = `, and the value in double quotes. */
  function KeyLine(key: string, value: string): string
  {
    key + " = \"" + value + "\""
  }

  /** The class name written on the `Type` line. */
  function TypeName(kind: Kind): string
  {
    if kind == Stock then "Stock" else "MutualFund"
  }

  /** The written class name is a quotable word read back as the same kind. */
  lemma TypeNameParses(kind: Kind)
    ensures ParseKind(TypeName(kind)) == Some(kind)
    ensures TypeName(kind) != "" && Quotable(TypeName(kind))
  {
    var t := TypeName(kind);
    assert forall i :: 0 <= i < |t| ==> t[i] != '=' && t[i] != '"' && t[i] != '\n' && t[i] != '\r';
  }

  /** The six lines of one record, under an arbitrary type name. */
  function Record(typeName: string, inv: Investment, formatDouble: real -> string): (r: seq<string>)
    ensures |r| == 6
  {
    [ KeyLine(WrittenKey(TypeField), typeName),
      KeyLine(WrittenKey(SymbolField), inv.symbol),
      KeyLine(WrittenKey(NameField), inv.name),
      KeyLine(WrittenKey(QuantityField), FormatInt(inv.quantity)),
      KeyLine(WrittenKey(PriceField), formatDouble(inv.price)),
      KeyLine(WrittenKey(BookValueField), formatDouble(inv.bookValue)) ]
  }

  /** `writeInvestment`: one six-line record per entry, in list order. */
  function WriteInvestment(invs: seq<Investment>, formatDouble: real -> string): (r: seq<string>)
    ensures |r| == 6 * |invs|
    ensures invs != [] ==> r[..6] == Record(TypeName(invs[0].kind), invs[0], formatDouble)
  {
    if invs == [] then []
    else Record(TypeName(invs[0].kind), invs[0], formatDouble) + WriteInvestment(invs[1..], formatDouble)
  }

  /** Lines `6 * i` to `6 * i + 5` of the file are the record of entry `i`. */
  lemma RecordAt(invs: seq<Investment>, formatDouble: real -> string, i: nat)
    requires i < |invs|
    ensures 6 * i + 6 <= |WriteInvestment(invs, formatDouble)|
    ensures WriteInvestment(invs, formatDouble)[6 * i..6 * i + 6] == Record(TypeName(invs[i].kind), invs[i], formatDouble)
  {
    DropRecords(invs, formatDouble, i);
    TakeOfDrop(WriteInvestment(invs, formatDouble), 6 * i, 6);
    assert invs[i..][0] == invs[i];
  }

  /** The lines from `6 * i` on are the file of the entries from `i` on. */
  lemma {:induction false} DropRecords(invs: seq<Investment>, formatDouble: real -> string, i: nat)
    requires i <= |invs|
    ensures 6 * i <= |WriteInvestment(invs, formatDouble)|
    ensures WriteInvestment(invs, formatDouble)[6 * i..] == WriteInvestment(invs[i..], formatDouble)
    decreases i
  {
    if i > 0 {
      DropRecords(invs[1..], formatDouble, i - 1);
      assert invs[1..][i - 1..] == invs[i..];
      DropFirstRecord(invs, formatDouble);
      DropDrop(WriteInvestment(invs, formatDouble), 6, 6 * (i - 1));
    }
  }

  /** The lines after the first record are the file of the later entries. */
  lemma DropFirstRecord(invs: seq<Investment>, formatDouble: real -> string)
    requires invs != []
    ensures WriteInvestment(invs, formatDouble)[6..] == WriteInvestment(invs[1..], formatDouble)
  {
  }

  /** Slicing helpers over plain line lists. */
  lemma TakeOfDrop(s: seq<string>, a: nat, n: nat)
    requires a + n <= |s|
    ensures s[a..a + n] == s[a..][..n]
  {
  }

  lemma DropDrop(s: seq<string>, a: nat, b: nat)
    requires a + b <= |s|
    ensures s[a..][b..] == s[a + b..]
  {
  }

  // ---------------------------------------------------------------------------
  // readInvestments
  // ---------------------------------------------------------------------------

  /** The local variables of the reading loop. `investment` is the last
      investment built, never cleared. */
  datatype Loader = Loader(
    ledger: Ledger,
    investment: Option<Investment>,
    typeName: string,
    symbol: string,
    name: string,
    quantity: int,
    price: real,
    bookValue: real)

  /** The loop's state before the first line, reading into `l`. */
  function Start(l: Ledger): Loader
  {
    Loader(l, None, "", "", "", 0, 0.0, 0.0)
  }

  /** The `switch` on the key: each known key sets its field; an unparsable
      quantity, price or book value becomes -1; an unknown key changes nothing. */
  function Assign(s: Loader, key: string, value: string, parseDouble: string -> Option<real>): (r: Loader)
    ensures r.ledger == s.ledger && r.investment == s.investment
    ensures key == "type" ==> r == s.(typeName := value)
    ensures key == "symbol" ==> r == s.(symbol := value)
    ensures key == "name" ==> r == s.(name := value)
    ensures key == "quantity" ==>
      r == s.(quantity := if ParseInt(value).Some? then ParseInt(value).value else -1)
    ensures key == "price" ==>
      r == s.(price := if parseDouble(value).Some? then parseDouble(value).value else -1.0)
    ensures key == "bookvalue" ==>
      r == s.(bookValue := if parseDouble(value).Some? then parseDouble(value).value else -1.0)
    ensures key !in ["type", "symbol", "name", "quantity", "price", "bookvalue"] ==> r == s
  {
    if key == "type" then s.(typeName := value)
    else if key == "symbol" then s.(symbol := value)
    else if key == "name" then s.(name := value)
    else if key == "quantity" then s.(quantity := match ParseInt(value) case Some(q) => q case None => -1)
    else if key == "price" then s.(price := match parseDouble(value) case Some(p) => p case None => -1.0)
    else if key == "bookvalue" then s.(bookValue := match parseDouble(value) case Some(b) => b case None => -1.0)
    else s
  }

  /** The completeness test run after every accepted line. */
  predicate Ready(s: Loader)
  {
    s.typeName != "" && s.symbol != "" && s.name != "" && s.quantity > 0 && s.price > 0.0 && s.bookValue >= 0.0
  }

  /** The ready test lets through only fields the constructor accepts, so the
      two `catch` branches around `new Stock` and `new MutualFund` never run. */
  lemma ReadyImpliesCreate(s: Loader, kind: Kind)
    requires Ready(s)
    ensures Create(kind, s.symbol, s.name, s.quantity, s.price)
      == Success(Investment(kind, s.symbol, s.name, s.quantity, s.price, 0.0))
  {
  }

  /** The fields emptied again after a record is taken. */
  predicate Blank(s: Loader)
  {
    s.typeName == "" && s.symbol == "" && s.name == "" && s.quantity == 0 && s.price == 0.0
  }

  /** The block run when the record is complete. A recognised type builds a
      new investment with book value 0, since the parsed book value is only
      checked; an unrecognised type leaves `investment` as it was, so the
      previous investment is appended again. The name indexed is always the
      current record's. The fields are then reset. */
  function Emit(s: Loader): (r: Loader)
    ensures !Ready(s) ==> r == s
    ensures Ready(s) ==> Blank(r) && r.bookValue == 0.0
    ensures Ready(s) && ParseKind(s.typeName).Some? ==>
      var inv := Investment(ParseKind(s.typeName).value, s.symbol, s.name, s.quantity, s.price, 0.0);
      r.investment == Some(inv) && r.ledger == Append(s.ledger, inv, s.name)
    ensures Ready(s) && ParseKind(s.typeName).None? ==>
      && r.investment == s.investment
      && r.ledger == (if s.investment.Some? then Append(s.ledger, s.investment.value, s.name) else s.ledger)
  {
    if !Ready(s) then s
    else
      var kind := ParseKind(s.typeName);
      var created := if kind.Some? then Create(kind.value, s.symbol, s.name, s.quantity, s.price).ToOption() else None;
      if kind.Some? && created.None? then s
      else
        var investment := if kind.Some? then created else s.investment;
        var ledger := if investment.Some? then Append(s.ledger, investment.value, s.name) else s.ledger;
        Loader(ledger, investment, "", "", "", 0, 0.0, 0.0)
  }

  /** The completion block as evidently intended: a record whose type is
      neither `stock` nor `mutualfund` is dropped, so nothing is appended for
      it and no stale investment is carried forward; the fields are reset
      either way. */
  function EmitFixed(s: Loader): (r: Loader)
    ensures !Ready(s) ==> r == s
    ensures Ready(s) ==> Blank(r) && r.bookValue == 0.0
    ensures Ready(s) && ParseKind(s.typeName).None? ==> r.ledger == s.ledger && r.investment == None
  {
    if !Ready(s) then s
    else
      match ParseKind(s.typeName)
      case None => Loader(s.ledger, None, "", "", "", 0, 0.0, 0.0)
      case Some(kind) =>
        var inv := Investment(kind, s.symbol, s.name, s.quantity, s.price, 0.0);
        Loader(Append(s.ledger, inv, inv.name), Some(inv), "", "", "", 0, 0.0, 0.0)
  }

  /** On a recognised type the corrected block does what the original does. */
  lemma EmitFixedAgrees(s: Loader)
    requires ParseKind(s.typeName).Some?
    ensures EmitFixed(s) == Emit(s)
  {
  }

  /** The completion block: the original's, or the corrected one. */
  function Take(s: Loader, skipUnknown: bool): (r: Loader)
    ensures !Ready(s) ==> r == s
    ensures Ready(s) ==> Blank(r) && r.bookValue == 0.0
    ensures |s.ledger.investments| <= |r.ledger.investments| <= |s.ledger.investments| + 1
    ensures r.ledger.investments[..|s.ledger.investments|] == s.ledger.investments
  {
    if skipUnknown then EmitFixed(s) else Emit(s)
  }

  /** The key and value a line carries: the line is trimmed; a blank line, or
      one that does not split into exactly two pieces on `=`, carries none.
      The key is trimmed and lower-cased, the value trimmed and stripped of
      every double quote. */
  function ParseLine(line: string): (r: Option<(string, string)>)
    ensures Trim(line) == "" || '=' !in line ==> r.None?
    ensures r.Some? ==> '=' !in r.value.0 && '=' !in r.value.1 && '"' !in r.value.1
  {
    var t := Trim(line);
    if t == "" then None
    else
      TrimKeepsChars(line);
      var parts := JavaSplit(t, '=');
      if |parts| != 2 then None
      else
        TrimKeepsChars(parts[0]);
        TrimKeepsChars(parts[1]);
        var key := Lower(Trim(parts[0]));
        assert '=' !in key by {
          if '=' in key {
            LowerKeepsNonLetters(Trim(parts[0]), '=');
          }
        }
        Some((key, RemoveChar(Trim(parts[1]), '"')))
  }

  /** One pass of the loop: a line without a key is skipped; otherwise the
      field is assigned and the record taken if complete. `skipUnknown`
      selects the corrected completion block. */
  function ReadLine(s: Loader, line: string, parseDouble: string -> Option<real>, skipUnknown: bool): (r: Loader)
  {
    match ParseLine(line)
    case None => s
    case Some((key, value)) => Take(Assign(s, key, value, parseDouble), skipUnknown)
  }

  /** The loop over all lines. */
  function ReadAll(s: Loader, lines: seq<string>, parseDouble: string -> Option<real>, skipUnknown: bool): Loader
    decreases |lines|
  {
    if lines == [] then s
    else ReadAll(ReadLine(s, lines[0], parseDouble, skipUnknown), lines[1..], parseDouble, skipUnknown)
  }

  /** A line changes nothing but the loop's fields, or appends one investment
      to the list; entries already held are never changed or removed. */
  lemma ReadLineExtends(s: Loader, line: string, parseDouble: string -> Option<real>, skipUnknown: bool)
    ensures var r := ReadLine(s, line, parseDouble, skipUnknown);
      && |s.ledger.investments| <= |r.ledger.investments| <= |s.ledger.investments| + 1
      && r.ledger.investments[..|s.ledger.investments|] == s.ledger.investments
    ensures ParseLine(line).None? ==> ReadLine(s, line, parseDouble, skipUnknown) == s
  {
  }

  /** Reading lines only appends, at most one investment per line. */
  lemma {:induction false} ReadAllExtends(s: Loader, lines: seq<string>, parseDouble: string -> Option<real>, skipUnknown: bool)
    ensures var r := ReadAll(s, lines, parseDouble, skipUnknown);
      && |s.ledger.investments| <= |r.ledger.investments| <= |s.ledger.investments| + |lines|
      && r.ledger.investments[..|s.ledger.investments|] == s.ledger.investments
    decreases |lines|
  {
    if lines != [] {
      var next := ReadLine(s, lines[0], parseDouble, skipUnknown);
      ReadLineExtends(s, lines[0], parseDouble, skipUnknown);
      ReadAllExtends(next, lines[1..], parseDouble, skipUnknown);
      var r := ReadAll(next, lines[1..], parseDouble, skipUnknown);
      PrefixOfPrefix(s.ledger.investments, next.ledger.investments, r.ledger.investments);
    }
  }

  lemma PrefixOfPrefix(a: seq<Investment>, b: seq<Investment>, c: seq<Investment>)
    requires |a| <= |b| <= |c| && b[..|a|] == a && c[..|b|] == b
    ensures c[..|a|] == a
  {
    assert c[..|a|] == c[..|b|][..|a|];
  }

  /** `readInvestments`: the ledger after reading every line, appended to the
      ledger already held, which it keeps as its prefix. */
  function ReadInvestments(l: Ledger, lines: seq<string>, parseDouble: string -> Option<real>): (r: Ledger)
    ensures |l.investments| <= |r.investments| <= |l.investments| + |lines|
    ensures r.investments[..|l.investments|] == l.investments
  {
    ReadAllExtends(Start(l), lines, parseDouble, false);
    ReadAll(Start(l), lines, parseDouble, false).ledger
  }

  /** `readInvestments` with records of unknown type skipped; it too keeps the
      ledger already held as its prefix. */
  function ReadInvestmentsFixed(l: Ledger, lines: seq<string>, parseDouble: string -> Option<real>): (r: Ledger)
    ensures |l.investments| <= |r.investments| <= |l.investments| + |lines|
    ensures r.investments[..|l.investments|] == l.investments
  {
    ReadAllExtends(Start(l), lines, parseDouble, true);
    ReadAll(Start(l), lines, parseDouble, true).ledger
  }

  /** Reading a concatenation is reading one part after the other. */
  lemma {:induction false} ReadAllConcat(s: Loader, a: seq<string>, b: seq<string>,
                                         parseDouble: string -> Option<real>, skip: bool)
    ensures ReadAll(s, a + b, parseDouble, skip) == ReadAll(ReadAll(s, a, parseDouble, skip), b, parseDouble, skip)
    decreases |a|
  {
    if a != [] {
      assert (a + b)[0] == a[0];
      assert (a + b)[1..] == a[1..] + b;
      ReadAllConcat(ReadLine(s, a[0], parseDouble, skip), a[1..], b, parseDouble, skip);
    } else {
      assert a + b == b;
    }
  }

  // ---------------------------------------------------------------------------
  // Reading back what was written
  // ---------------------------------------------------------------------------

  /** A key as written: a word that trims to itself and holds no `=`. */
  predicate PlainKey(key: string)
  {
    key != [] && key[0] > ' ' && key[|key| - 1] > ' ' && '=' !in key
  }

  /** A value that can sit between the quotes and come back on its own line:
      no `=`, no `"`, and neither of the characters at which `readLine` ends a
      line. */
  predicate Quotable(value: string)
  {
    '=' !in value && '"' !in value && '\n' !in value && '\r' !in value
  }

  /** A written line trims to itself and splits on `=` into the key with its
      trailing blank and the quoted value with its leading blank. */
  lemma SplitKeyLine(key: string, value: string)
    requires PlainKey(key) && Quotable(value)
    ensures KeyLine(key, value) != "" && Trim(KeyLine(key, value)) == KeyLine(key, value)
    ensures JavaSplit(KeyLine(key, value), '=') == [key + " ", " \"" + value + "\""]
  {
    var line := KeyLine(key, value);
    assert |line| > 0;
    var left := key + " ";
    var right := " \"" + value + "\"";
    assert line == left + ['='] + right;
    assert line[0] == key[0] && line[|line| - 1] == '"';
    assert '=' !in left by {
      assert forall i :: 0 <= i < |key| ==> left[i] == key[i];
    }
    assert '=' !in right by {
      assert forall i :: 1 < i < |right| - 1 ==> right[i] == value[i - 2];
    }
    SplitInTwo(left, '=', right);
  }
  /** A written line whose value holds `=` splits into three or more pieces
      on `=`, so the loop skips it as malformed and nothing changes. */
  lemma EqualsInValueSkipsLine(s: Loader, key: string, before: string, after: string,
                               parseDouble: string -> Option<real>, skip: bool)
    requires PlainKey(key) && '=' !in before
    ensures ParseLine(KeyLine(key, before + "=" + after)) == None
    ensures ReadLine(s, KeyLine(key, before + "=" + after), parseDouble, skip) == s
  {
    var line := KeyLine(key, before + "=" + after);
    var left, mid, right := key + " ", " \"" + before, after + "\"";
    KeyLineWithEquals(key, before, after);
    NoEqualsBefore(key, " ");
    NoEqualsBefore(" \"", before);
    SplitThreeWays(left, mid, right, '=');
    SkippedLine(line);
  }

  /** The written line cut at the `=` after the key and at the first `=` of the value. */
  lemma KeyLineWithEquals(key: string, before: string, after: string)
    ensures KeyLine(key, before + "=" + after)
      == (key + " ") + ['='] + (" \"" + before) + ['='] + (after + "\"")
  {
  }

  lemma NoEqualsBefore(a: string, b: string)
    requires '=' !in a && '=' !in b
    ensures '=' !in a + b
  {
  }

  /** A line that is already trimmed and splits into three or more pieces on
      `=` carries no key. */
  lemma SkippedLine(line: string)
    requires line != [] && line[0] > ' ' && line[|line| - 1] > ' '
    requires |JavaSplit(line, '=')| >= 3
    ensures ParseLine(line) == None
  {
  }


  /** The two pieces clean up to the key, lower-cased, and the bare value. */
  lemma CleanKeyLine(key: string, value: string)
    requires PlainKey(key) && Quotable(value)
    ensures Lower(Trim(key + " ")) == Lower(key)
    ensures RemoveChar(Trim(" \"" + value + "\""), '"') == value
  {
    TrimTrailingBlank(key);
    TrimQuoted(value);
    Unquote(value);
  }

  /** The right-hand side of a written line, leading blank included, trims to the quoted value. */
  lemma TrimQuoted(value: string)
    ensures Trim(" \"" + value + "\"") == "\"" + value + "\""
  {
    var quoted := "\"" + value + "\"";
    assert quoted[0] == '"' && quoted[|quoted| - 1] == '"';
    assert " \"" + value + "\"" == " " + quoted;
    TrimLeadingBlank(quoted);
  }

  /** A written line is read back as its own key, lower-cased, and its own value. */
  lemma ReadKeyLine(key: string, value: string)
    requires PlainKey(key) && Quotable(value)
    ensures ParseLine(KeyLine(key, value)) == Some((Lower(key), value))
  {
    SplitKeyLine(key, value);
    CleanKeyLine(key, value);
  }

  /** A written field line assigns that field; the record is then taken if complete. */
  lemma ReadFieldLine(s: Loader, f: Field, value: string, parseDouble: string -> Option<real>, skip: bool)
    requires Quotable(value)
    ensures ReadLine(s, KeyLine(WrittenKey(f), value), parseDouble, skip)
      == Take(Assign(s, ReadKey(f), value, parseDouble), skip)
  {
    WrittenKeyReads(f);
    ReadKeyLine(WrittenKey(f), value);
  }

  /** Every character of a formatted integer is a digit or a leading minus
      sign, so it is quotable. */
  lemma FormatIntQuotable(n: int)
    ensures Quotable(FormatInt(n))
  {
    var r := FormatInt(n);
    assert forall i :: 0 <= i < |r| ==> r[i] != '=' && r[i] != '"' && r[i] != '\n' && r[i] != '\r';
  }

  /** The six fields of a record. */
  datatype Field = TypeField | SymbolField | NameField | QuantityField | PriceField | BookValueField

  /** The key as written. */
  function WrittenKey(f: Field): string
  {
    match f
    case TypeField => "Type"
    case SymbolField => "Symbol"
    case NameField => "Name"
    case QuantityField => "Quantity"
    case PriceField => "Price"
    case BookValueField => "BookValue"
  }

  /** The key as the reader's `switch` spells it. */
  function ReadKey(f: Field): string
  {
    match f
    case TypeField => "type"
    case SymbolField => "symbol"
    case NameField => "name"
    case QuantityField => "quantity"
    case PriceField => "price"
    case BookValueField => "bookvalue"
  }

  /** Every written key is a plain word that lower-cases to the reader's key. */
  lemma WrittenKeyReads(f: Field)
    ensures PlainKey(WrittenKey(f)) && Lower(WrittenKey(f)) == ReadKey(f)
  {
    match f
    case TypeField => LowerPointwise("Type", "type");
    case SymbolField => LowerPointwise("Symbol", "symbol");
    case NameField => LowerPointwise("Name", "name");
    case QuantityField => LowerPointwise("Quantity", "quantity");
    case PriceField => LowerPointwise("Price", "price");
    case BookValueField => LowerPointwise("BookValue", "bookvalue");
  }

  /** What a record needs to survive the file: both texts non-empty and
      quotable, a positive 32-bit quantity, a positive price, a non-negative
      book value, and `Double.toString` output that `Double.parseDouble` reads
      back exactly. */
  predicate Storable(inv: Investment, formatDouble: real -> string, parseDouble: string -> Option<real>)
  {
    && inv.symbol != "" && inv.name != "" && Quotable(inv.symbol) && Quotable(inv.name)
    && 0 < inv.quantity <= INT_MAX && inv.price > 0.0 && inv.bookValue >= 0.0
    && Quotable(formatDouble(inv.price)) && parseDouble(formatDouble(inv.price)) == Some(inv.price)
    && Quotable(formatDouble(inv.bookValue)) && parseDouble(formatDouble(inv.bookValue)) == Some(inv.bookValue)
  }

  /** Between records: the text and number fields are empty and the book
      value left over from the last record passes the ready test. */
  predicate BetweenRecords(s: Loader)
  {
    Blank(s) && s.bookValue >= 0.0
  }

  /** The field a reader's key selects, set from its value text. */
  function SetField(s: Loader, f: Field, value: string, parseDouble: string -> Option<real>): Loader
  {
    match f
    case TypeField => s.(typeName := value)
    case SymbolField => s.(symbol := value)
    case NameField => s.(name := value)
    case QuantityField => s.(quantity := match ParseInt(value) case Some(q) => q case None => -1)
    case PriceField => s.(price := match parseDouble(value) case Some(p) => p case None => -1.0)
    case BookValueField => s.(bookValue := match parseDouble(value) case Some(b) => b case None => -1.0)
  }

  /** The `switch` sends each reader's key to its own field. */
  lemma AssignSetsField(s: Loader, f: Field, value: string, parseDouble: string -> Option<real>)
    ensures Assign(s, ReadKey(f), value, parseDouble) == SetField(s, f, value, parseDouble)
  {
  }

  /** A field line assigns its field and runs the completion block. */
  lemma FieldLineStep(s: Loader, f: Field, value: string, lines: seq<string>,
                      parseDouble: string -> Option<real>, skip: bool, r: Loader)
    requires lines != [] && lines[0] == KeyLine(WrittenKey(f), value) && Quotable(value)
    requires r == SetField(s, f, value, parseDouble)
    ensures ReadAll(s, lines, parseDouble, skip) == ReadAll(Take(r, skip), lines[1..], parseDouble, skip)
  {
    ReadFieldLine(s, f, value, parseDouble, skip);
    AssignSetsField(s, f, value, parseDouble);
    ReadAllStep(s, lines, parseDouble, skip, Take(r, skip));
  }

  /** A field line that leaves the record incomplete only assigns its field. */
  lemma FieldStep(s: Loader, f: Field, value: string, lines: seq<string>,
                  parseDouble: string -> Option<real>, skip: bool, r: Loader)
    requires lines != [] && lines[0] == KeyLine(WrittenKey(f), value) && Quotable(value)
    requires r == SetField(s, f, value, parseDouble) && !Ready(r)
    ensures ReadAll(s, lines, parseDouble, skip) == ReadAll(r, lines[1..], parseDouble, skip)
  {
    FieldLineStep(s, f, value, lines, parseDouble, skip, r);
  }

  /** The `Price` line of a stored record sets the price and runs the
      completion block. */
  lemma PriceStep(s: Loader, price: real, lines: seq<string>,
                  formatDouble: real -> string, parseDouble: string -> Option<real>, skip: bool)
    requires lines != [] && lines[0] == KeyLine(WrittenKey(PriceField), formatDouble(price))
    requires Quotable(formatDouble(price)) && parseDouble(formatDouble(price)) == Some(price)
    ensures ReadAll(s, lines, parseDouble, skip) == ReadAll(Take(s.(price := price), skip), lines[1..], parseDouble, skip)
  {
    FieldLineStep(s, PriceField, formatDouble(price), lines, parseDouble, skip, s.(price := price));
  }

  /** The loop takes one line at a time. */
  lemma ReadAllStep(s: Loader, lines: seq<string>, parseDouble: string -> Option<real>, skip: bool, next: Loader)
    requires lines != [] && ReadLine(s, lines[0], parseDouble, skip) == next
    ensures ReadAll(s, lines, parseDouble, skip) == ReadAll(next, lines[1..], parseDouble, skip)
  {
  }

  /** The `Quantity` line of a stored record reads back its quantity. */
  lemma QuantityStep(s: Loader, quantity: int, lines: seq<string>, parseDouble: string -> Option<real>, skip: bool)
    requires lines != [] && lines[0] == KeyLine(WrittenKey(QuantityField), FormatInt(quantity))
    requires INT_MIN <= quantity <= INT_MAX && s.price == 0.0
    ensures ReadAll(s, lines, parseDouble, skip) == ReadAll(s.(quantity := quantity), lines[1..], parseDouble, skip)
  {
    FormatIntQuotable(quantity);
    ParseFormatRoundTrip(quantity);
    FieldStep(s, QuantityField, FormatInt(quantity), lines, parseDouble, skip, s.(quantity := quantity));
  }

  /** The `BookValue` line after a record was taken only sets the leftover book value. */
  lemma BookValueStep(s: Loader, bookValue: real, lines: seq<string>,
                      formatDouble: real -> string, parseDouble: string -> Option<real>, skip: bool)
    requires lines != [] && lines[0] == KeyLine(WrittenKey(BookValueField), formatDouble(bookValue))
    requires Quotable(formatDouble(bookValue)) && parseDouble(formatDouble(bookValue)) == Some(bookValue)
    requires Blank(s)
    ensures ReadAll(s, lines, parseDouble, skip) == ReadAll(s.(bookValue := bookValue), lines[1..], parseDouble, skip)
  {
    FieldStep(s, BookValueField, formatDouble(bookValue), lines, parseDouble, skip, s.(bookValue := bookValue));
  }

  /** The `BookValue` line of a record that cannot complete only sets the book value. */
  lemma PendingBookValueStep(s: Loader, bookValue: real, lines: seq<string>,
                             formatDouble: real -> string, parseDouble: string -> Option<real>, skip: bool)
    requires lines != [] && lines[0] == KeyLine(WrittenKey(BookValueField), formatDouble(bookValue))
    requires Quotable(formatDouble(bookValue)) && parseDouble(formatDouble(bookValue)) == Some(bookValue)
    requires s.name == ""
    ensures ReadAll(s, lines, parseDouble, skip) == ReadAll(s.(bookValue := bookValue), lines[1..], parseDouble, skip)
  {
    FieldStep(s, BookValueField, formatDouble(bookValue), lines, parseDouble, skip, s.(bookValue := bookValue));
  }

  /** The record taken on the `Price` line. */
  function Taken(s: Loader, typeName: string, inv: Investment, skip: bool): Loader
  {
    Take(Loader(s.ledger, s.investment, typeName, inv.symbol, inv.name, inv.quantity, inv.price, s.bookValue), skip)
  }

  /** The three text lines of a record only fill in its text fields. */
  lemma ReadTextLines(s: Loader, typeName: string, inv: Investment, lines: seq<string>,
                      parseDouble: string -> Option<real>, skip: bool)
    requires BetweenRecords(s) && typeName != "" && Quotable(typeName)
    requires inv.symbol != "" && Quotable(inv.symbol) && Quotable(inv.name)
    requires |lines| >= 3
    requires lines[0] == KeyLine(WrittenKey(TypeField), typeName)
    requires lines[1] == KeyLine(WrittenKey(SymbolField), inv.symbol)
    requires lines[2] == KeyLine(WrittenKey(NameField), inv.name)
    ensures ReadAll(s, lines, parseDouble, skip)
      == ReadAll(s.(typeName := typeName, symbol := inv.symbol, name := inv.name), lines[3..], parseDouble, skip)
  {
    var s1 := s.(typeName := typeName);
    FieldStep(s, TypeField, typeName, lines, parseDouble, skip, s1);
    var s2 := s1.(symbol := inv.symbol);
    FieldStep(s1, SymbolField, inv.symbol, lines[1..], parseDouble, skip, s2);
    var s3 := s2.(name := inv.name);
    FieldStep(s2, NameField, inv.name, lines[1..][1..], parseDouble, skip, s3);
    assert lines[1..][1..][1..] == lines[3..];
  }

  /** Reading one record from between records: the record completes on its
      `Price` line, before its book value is read, and the loader ends between
      records again with that book value left over. */
  lemma ReadRecordLines(s: Loader, typeName: string, inv: Investment,
                        formatDouble: real -> string, parseDouble: string -> Option<real>, skip: bool)
    requires BetweenRecords(s) && Storable(inv, formatDouble, parseDouble)
    requires typeName != "" && Quotable(typeName)
    ensures ReadAll(s, Record(typeName, inv, formatDouble), parseDouble, skip)
      == Taken(s, typeName, inv, skip).(bookValue := inv.bookValue)
  {
    var lines := Record(typeName, inv, formatDouble);
    ReadTextLines(s, typeName, inv, lines, parseDouble, skip);
    ReadNumberLines(s, typeName, inv, lines[3..], formatDouble, parseDouble, skip);
  }

  /** The three number lines of a record, read once its text fields are in:
      the record is taken on the `Price` line and the book value is left over. */
  lemma ReadNumberLines(s: Loader, typeName: string, inv: Investment, lines: seq<string>,
                        formatDouble: real -> string, parseDouble: string -> Option<real>, skip: bool)
    requires BetweenRecords(s) && Storable(inv, formatDouble, parseDouble) && typeName != ""
    requires |lines| == 3
    requires lines[0] == KeyLine(WrittenKey(QuantityField), FormatInt(inv.quantity))
    requires lines[1] == KeyLine(WrittenKey(PriceField), formatDouble(inv.price))
    requires lines[2] == KeyLine(WrittenKey(BookValueField), formatDouble(inv.bookValue))
    ensures ReadAll(s.(typeName := typeName, symbol := inv.symbol, name := inv.name), lines, parseDouble, skip)
      == Taken(s, typeName, inv, skip).(bookValue := inv.bookValue)
  {
    var s3 := s.(typeName := typeName, symbol := inv.symbol, name := inv.name);
    QuantityStep(s3, inv.quantity, lines, parseDouble, skip);
    var s4 := s3.(quantity := inv.quantity);
    PriceStep(s4, inv.price, lines[1..], formatDouble, parseDouble, skip);
    var s5 := Taken(s, typeName, inv, skip);
    assert Take(s4.(price := inv.price), skip) == s5;
    assert Blank(s5);
    BookValueStep(s5, inv.bookValue, lines[1..][1..], formatDouble, parseDouble, skip);
    assert lines[1..][1..][1..] == [];
  }

  /** What the record taken on the `Price` line appends. A recognised type
      appends a new investment with book value 0; an unrecognised one appends
      the previous investment again, if any. Either way the new name is indexed. */
  lemma ReadRecord(s: Loader, typeName: string, inv: Investment,
                   formatDouble: real -> string, parseDouble: string -> Option<real>)
    requires BetweenRecords(s) && Storable(inv, formatDouble, parseDouble)
    requires typeName != "" && Quotable(typeName)
    ensures var r := ReadAll(s, Record(typeName, inv, formatDouble), parseDouble, false);
      && BetweenRecords(r)
      && r.bookValue == inv.bookValue
      && r.ledger == (match ParseKind(typeName)
           case Some(kind) => Append(s.ledger, Investment(kind, inv.symbol, inv.name, inv.quantity, inv.price, 0.0), inv.name)
           case None => (if s.investment.Some? then Append(s.ledger, s.investment.value, inv.name) else s.ledger))
      && r.investment == (match ParseKind(typeName)
           case Some(kind) => Some(Investment(kind, inv.symbol, inv.name, inv.quantity, inv.price, 0.0))
           case None => s.investment)
  {
    ReadRecordLines(s, typeName, inv, formatDouble, parseDouble, false);
  }

  /** The entries a round trip yields: the same, with book value 0. */
  function Reloaded(invs: seq<Investment>): (r: seq<Investment>)
    ensures |r| == |invs|
    ensures forall i :: 0 <= i < |invs| ==> r[i] == invs[i].(bookValue := 0.0)
    ensures invs != [] ==> r[0] == invs[0].(bookValue := 0.0) && r[1..] == Reloaded(invs[1..])
  {
    seq(|invs|, i requires 0 <= i < |invs| => invs[i].(bookValue := 0.0))
  }

  /** Appends `inv` and indexes it under the words of its own name as
      `words` splits it. */
  function AppendOne(l: Ledger, inv: Investment, words: string -> seq<string>): Ledger
  {
    Ledger(l.investments + [inv], AddToKeywordIndex(l.index, words(inv.name), |l.investments|))
  }

  /** Appending entries one by one, each indexed under its own name: the list
      grows by exactly those entries, in order. The round trip uses it with
      `NameWords`. */
  function AppendAll(l: Ledger, invs: seq<Investment>, words: string -> seq<string>): (r: Ledger)
    ensures r.investments == l.investments + invs
    decreases |invs|
  {
    if invs == [] then l else AppendAll(AppendOne(l, invs[0], words), invs[1..], words)
  }

  /** Appending under the entry's own name splits it by `NameWords`. */
  lemma AppendOneByName(l: Ledger, inv: Investment)
    ensures AppendOne(l, inv, NameWords) == Append(l, inv, inv.name)
  {
  }

  /** With all symbols distinct, the next entry's symbol is new to the list
      before it, and the symbols stay distinct once it moves across. */
  lemma NextSymbolNew(held: seq<Investment>, invs: seq<Investment>)
    requires invs != [] && SymbolsUnique(held + invs)
    ensures FindInvestment(held, invs[0].symbol) == -1
    ensures SymbolsUnique((held + [invs[0]]) + invs[1..])
  {
    var all := held + invs;
    forall i | 0 <= i < |held|
      ensures held[i].symbol != invs[0].symbol
    {
      assert all[i] == held[i] && all[|held|] == invs[0];
    }
    assert (held + [invs[0]]) + invs[1..] == all by {
      assert invs == [invs[0]] + invs[1..];
    }
  }

  /** Appending entries whose symbols are new and distinct, with positive
      quantities and non-negative book values, keeps a ledger valid. */
  lemma {:induction false} AppendAllKeepsValid(l: Ledger, invs: seq<Investment>)
    requires Valid(l) && SymbolsUnique(l.investments + invs)
    requires forall i :: 0 <= i < |invs| ==> invs[i].quantity > 0 && invs[i].bookValue >= 0.0
    ensures Valid(AppendAll(l, invs, NameWords))
    decreases |invs|
  {
    if invs != [] {
      var next := AppendFirstKeepsValid(l, invs);
      AppendAllKeepsValid(next, invs[1..]);
    }
  }

  /** The first step of `AppendAllKeepsValid`: the ledger after the first entry
      is valid and the remaining symbols are still new to it. */
  lemma AppendFirstKeepsValid(l: Ledger, invs: seq<Investment>) returns (next: Ledger)
    requires Valid(l) && SymbolsUnique(l.investments + invs)
    requires invs != [] && invs[0].quantity > 0 && invs[0].bookValue >= 0.0
    ensures next == AppendOne(l, invs[0], NameWords)
    ensures Valid(next) && SymbolsUnique(next.investments + invs[1..])
  {
    NextSymbolNew(l.investments, invs);
    AppendKeepsValid(l, invs[0]);
    AppendOneByName(l, invs[0]);
    next := AppendOne(l, invs[0], NameWords);
  }

  /** A record written by `writeInvestment` loads as the same entry with book
      value 0, indexed under its own name, whichever completion block runs. */
  lemma ReadStoredRecord(s: Loader, inv: Investment, formatDouble: real -> string,
                         parseDouble: string -> Option<real>, skip: bool)
    requires BetweenRecords(s) && Storable(inv, formatDouble, parseDouble)
    ensures var r := ReadAll(s, Record(TypeName(inv.kind), inv, formatDouble), parseDouble, skip);
      BetweenRecords(r) && r.ledger == AppendOne(s.ledger, inv.(bookValue := 0.0), NameWords)
  {
    var typeName := TypeName(inv.kind);
    TypeNameParses(inv.kind);
    ReadRecord(s, typeName, inv, formatDouble, parseDouble);
    ReadRecordLines(s, typeName, inv, formatDouble, parseDouble, false);
    ReadRecordLines(s, typeName, inv, formatDouble, parseDouble, skip);
    EmitFixedAgrees(Loader(s.ledger, s.investment, typeName, inv.symbol, inv.name, inv.quantity, inv.price, s.bookValue));
  }

  /** Writing storable entries and reading the lines back, from between
      records, appends them in order with book value 0, each indexed under its
      own name. */
  lemma {:induction false} WriteReadFrom(s: Loader, invs: seq<Investment>, formatDouble: real -> string,
                                         parseDouble: string -> Option<real>, skip: bool)
    requires BetweenRecords(s)
    requires forall i :: 0 <= i < |invs| ==> Storable(invs[i], formatDouble, parseDouble)
    ensures ReadAll(s, WriteInvestment(invs, formatDouble), parseDouble, skip).ledger
      == AppendAll(s.ledger, Reloaded(invs), NameWords)
    decreases |invs|
  {
    if invs != [] {
      var s' := WriteReadFirst(s, invs, formatDouble, parseDouble, skip);
      WriteReadFrom(s', invs[1..], formatDouble, parseDouble, skip);
      AppendAllReloadedStep(s.ledger, invs);
    }
  }

  /** The first written record is read back on its own, and the rest of the
      file continues from where it leaves the loader. */
  lemma WriteReadFirst(s: Loader, invs: seq<Investment>, formatDouble: real -> string,
                       parseDouble: string -> Option<real>, skip: bool) returns (s': Loader)
    requires BetweenRecords(s) && invs != [] && Storable(invs[0], formatDouble, parseDouble)
    ensures BetweenRecords(s') && s'.ledger == AppendOne(s.ledger, invs[0].(bookValue := 0.0), NameWords)
    ensures ReadAll(s, WriteInvestment(invs, formatDouble), parseDouble, skip)
      == ReadAll(s', WriteInvestment(invs[1..], formatDouble), parseDouble, skip)
  {
    var first := Record(TypeName(invs[0].kind), invs[0], formatDouble);
    var rest := WriteInvestment(invs[1..], formatDouble);
    assert WriteInvestment(invs, formatDouble) == first + rest;
    ReadAllConcat(s, first, rest, parseDouble, skip);
    ReadStoredRecord(s, invs[0], formatDouble, parseDouble, skip);
    s' := ReadAll(s, first, parseDouble, skip);
  }

  /** Appending reloaded entries appends the first, then the rest. */
  lemma AppendAllReloadedStep(l: Ledger, invs: seq<Investment>)
    requires invs != []
    ensures AppendAll(l, Reloaded(invs), NameWords)
      == AppendAll(AppendOne(l, invs[0].(bookValue := 0.0), NameWords), Reloaded(invs[1..]), NameWords)
  {
    var r := Reloaded(invs);
    assert r != [] && r[0] == invs[0].(bookValue := 0.0) && r[1..] == Reloaded(invs[1..]);
  }

  /** The round trip: reading back what `writeInvestment` wrote appends the
      same entries in the same order, book values reset to 0, and indexes each
      under its own name. Such a file names only known types, so the corrected
      loader reads it the same way. */
  lemma WriteReadRoundTrip(l: Ledger, invs: seq<Investment>,
                           formatDouble: real -> string, parseDouble: string -> Option<real>)
    requires forall i :: 0 <= i < |invs| ==> Storable(invs[i], formatDouble, parseDouble)
    ensures ReadInvestments(l, WriteInvestment(invs, formatDouble), parseDouble) == AppendAll(l, Reloaded(invs), NameWords)
    ensures ReadInvestments(l, WriteInvestment(invs, formatDouble), parseDouble).investments
      == l.investments + Reloaded(invs)
    ensures ReadInvestmentsFixed(l, WriteInvestment(invs, formatDouble), parseDouble)
      == ReadInvestments(l, WriteInvestment(invs, formatDouble), parseDouble)
  {
    WriteReadFrom(Start(l), invs, formatDouble, parseDouble, false);
    WriteReadFrom(Start(l), invs, formatDouble, parseDouble, true);
  }

  /** Appending entries with distinct symbols and positive quantities to an
      empty ledger, book values reset to 0, gives a valid ledger. */
  lemma LoadIntoEmptyKeepsValid(saved: seq<Investment>, empty: Ledger)
    requires SymbolsUnique(saved) && QuantitiesPositive(saved)
    requires empty.investments == [] && empty.index == map[]
    ensures Valid(AppendAll(empty, Reloaded(saved), NameWords))
  {
    var invs := Reloaded(saved);
    assert Valid(empty) by {
      assert Names(empty.investments) == [];
    }
    assert SymbolsUnique(empty.investments + invs) by {
      assert empty.investments + invs == invs;
      forall i, j | 0 <= i < j < |invs|
        ensures invs[i].symbol != invs[j].symbol
      {
        assert invs[i].symbol == saved[i].symbol && invs[j].symbol == saved[j].symbol;
      }
    }
    AppendAllKeepsValid(empty, invs);
  }

  /** Saving entries with distinct symbols and positive quantities, as every
      valid ledger holds, and loading the file into an empty ledger gives a
      valid ledger holding the same entries, book values reset to 0. */
  lemma LoadSavedKeepsValid(saved: Ledger, empty: Ledger,
                            formatDouble: real -> string, parseDouble: string -> Option<real>)
    requires SymbolsUnique(saved.investments) && QuantitiesPositive(saved.investments)
    requires empty.investments == [] && empty.index == map[]
    requires forall i :: 0 <= i < |saved.investments| ==> Storable(saved.investments[i], formatDouble, parseDouble)
    ensures var loaded := ReadInvestments(empty, WriteInvestment(saved.investments, formatDouble), parseDouble);
      && Valid(loaded)
      && loaded.investments == Reloaded(saved.investments)
  {
    var loaded := ReadInvestments(empty, WriteInvestment(saved.investments, formatDouble), parseDouble);
    var reloaded := AppendAll(empty, Reloaded(saved.investments), NameWords);
    assert loaded == reloaded by {
      WriteReadRoundTrip(empty, saved.investments, formatDouble, parseDouble);
    }
    LoadIntoEmptyKeepsValid(saved.investments, empty);
  }

  /** The corrected block only ever appends an entry indexed under its own
      name, so it keeps the index the inversion of the names, and it only
      appends. */
  lemma EmitFixedKeepsIndex(s: Loader)
    requires IndexMatches(s.ledger)
    ensures IndexMatches(EmitFixed(s).ledger)
    ensures s.ledger.investments <= EmitFixed(s).ledger.investments
  {
    if Ready(s) && ParseKind(s.typeName).Some? {
      var inv := Investment(ParseKind(s.typeName).value, s.symbol, s.name, s.quantity, s.price, 0.0);
      NamesOfAppend(s.ledger.investments, inv);
      AddingKeepsInverse(s.ledger.index, Names(s.ledger.investments), inv.name, NameWords);
    }
  }

  /** One line read by the corrected loader keeps the index the inversion of
      the names and only appends. */
  lemma ReadLineFixedKeepsIndex(s: Loader, line: string, parseDouble: string -> Option<real>)
    requires IndexMatches(s.ledger)
    ensures IndexMatches(ReadLine(s, line, parseDouble, true).ledger)
    ensures s.ledger.investments <= ReadLine(s, line, parseDouble, true).ledger.investments
  {
    match ParseLine(line) {
      case None =>
      case Some((key, value)) =>
        var a := Assign(s, key, value, parseDouble);
        EmitFixedKeepsIndex(a);
    }
  }

  /** Whatever the lines hold, the corrected loader keeps the index the
      inversion of the names and never removes or changes an entry already held. */
  lemma {:induction false} ReadAllFixedKeepsIndex(s: Loader, lines: seq<string>, parseDouble: string -> Option<real>)
    requires IndexMatches(s.ledger)
    ensures IndexMatches(ReadAll(s, lines, parseDouble, true).ledger)
    ensures s.ledger.investments <= ReadAll(s, lines, parseDouble, true).ledger.investments
    decreases |lines|
  {
    if lines != [] {
      var next := ReadLine(s, lines[0], parseDouble, true);
      ReadLineFixedKeepsIndex(s, lines[0], parseDouble);
      ReadAllFixedKeepsIndex(next, lines[1..], parseDouble);
    }
  }

  /** Loading any file with the corrected loader into a ledger whose index
      matches its names keeps them matching. */
  lemma ReadInvestmentsFixedKeepsIndex(l: Ledger, lines: seq<string>, parseDouble: string -> Option<real>)
    requires IndexMatches(l)
    ensures IndexMatches(ReadInvestmentsFixed(l, lines, parseDouble))
    ensures l.investments <= ReadInvestmentsFixed(l, lines, parseDouble).investments
  {
    ReadAllFixedKeepsIndex(Start(l), lines, parseDouble);
  }
}

=== FILE: counterexamples.dfy ===
/** Inputs on which the ledger as written departs from what it evidently
    intends, each set beside the corrected member that the rest of the model
    proves its properties about. */
module Counterexamples {
  import opened Wrappers
  import opened Text
  import opened Investments
  import opened KeywordIndex
  import opened Portfolio
  import opened Search
  import opened Codec
  import opened Numerals

  /** A new entry a valid ledger can take: a positive quantity, a
      non-negative book value, and a name that is one plain word. */
  predicate Entry(inv: Investment)
  {
    inv.quantity > 0 && inv.bookValue >= 0.0 && PlainWord(inv.name)
  }

  /** Entries with pairwise different symbols and pairwise different names. */
  predicate Apart(invs: seq<Investment>)
  {
    forall i, j :: 0 <= i < j < |invs| ==> invs[i].symbol != invs[j].symbol && invs[i].name != invs[j].name
  }

  /** The ledger that buying each entry in turn builds from nothing. */
  function Bought(invs: seq<Investment>): Ledger
  {
    AppendAll(EMPTY_LEDGER, invs, NameWords)
  }

  /** Buying entries with different symbols, positive quantities and
      non-negative book values gives a valid ledger holding them in order. */
  lemma BoughtValid(invs: seq<Investment>)
    requires Apart(invs) && forall i :: 0 <= i < |invs| ==> Entry(invs[i])
    ensures Valid(Bought(invs)) && Bought(invs).investments == invs
  {
    assert Names([]) == [];
    assert EMPTY_LEDGER.investments + invs == invs;
    AppendAllKeepsValid(EMPTY_LEDGER, invs);
  }

  /** A matching index lists the position of a plain-word name under that name. */
  lemma ListedAt(l: Ledger, p: int)
    requires IndexMatches(l) && 0 <= p < |l.investments| && PlainWord(l.investments[p].name)
    ensures var w := l.investments[p].name;
      w in l.index && p in l.index[w]
  {
    var names := Names(l.investments);
    PlainWordNormalises(names[p]);
    assert names[p] in NameWords(names[p]);
  }

  /** A matching index lists a position holding a plain-word name under that
      name only. */
  lemma ListedOnlyAt(l: Ledger, w: string, q: int)
    requires IndexMatches(l) && w in l.index && q in l.index[w]
    requires 0 <= q < |l.investments| && PlainWord(l.investments[q].name)
    ensures l.investments[q].name == w
  {
    var names := Names(l.investments);
    assert w in NameWords(names[q]);
    PlainWordNormalises(names[q]);
  }

  /** An index listing a position past the end of the list does not match it. */
  lemma ListedPastEnd(l: Ledger, w: string, p: int)
    requires w in l.index && p in l.index[w] && p >= |l.investments|
    ensures !IndexMatches(l)
  {
    assert !Sound(l.index, Names(l.investments), NameWords);
  }

  /** An index missing the position of a name holding `w` does not match it. */
  lemma UnlistedName(l: Ledger, w: string, p: int)
    requires 0 <= p < |l.investments| && w in NameWords(l.investments[p].name)
    requires w in l.index && p !in l.index[w]
    ensures !IndexMatches(l)
  {
    assert w in NameWords(Names(l.investments)[p]);
    assert !Complete(l.index, Names(l.investments), NameWords);
  }

  /** `removeFromkeyWordIndex` leaves lists that did not hold the deleted
      position unrenumbered: in a ledger whose index matches it, holding three
      entries whose names are distinct plain words (`Bought` builds one),
      selling all of the first leaves the second's name listing position 1,
      where the third now is, and the third's listing position 2, past the
      end of the list.
      `SellRenumbered` keeps the index exact. */
  lemma StaleRenumbering(l: Ledger, a: Investment, b: Investment, c: Investment, price: real)
    requires IndexMatches(l) && QuantitiesPositive(l.investments) && l.investments == [a, b, c]
    requires a.name != b.name && b.name != c.name && c.name != a.name
    requires PlainWord(a.name) && PlainWord(b.name) && PlainWord(c.name)
    ensures var r := Sell(l, a.symbol, a.quantity, price);
      && r.1.Success? && r.1.value.removed
      && r.0.investments == [b, c]
      && b.name in r.0.index && 1 in r.0.index[b.name] && r.0.investments[1].name != b.name
      && c.name in r.0.index && 2 in r.0.index[c.name]
      && !IndexMatches(r.0)
  {
    LaterListed(l, a, b, c);
    StaleAfterSale(l, a, b, c, price);
  }

  /** The sale of the first of three entries, from the lists the second and
      third names hold. */
  lemma StaleAfterSale(l: Ledger, a: Investment, b: Investment, c: Investment, price: real)
    requires QuantitiesPositive(l.investments) && l.investments == [a, b, c] && b.name != c.name
    requires b.name in l.index && 1 in l.index[b.name] && 0 !in l.index[b.name]
    requires c.name in l.index && 2 in l.index[c.name] && 0 !in l.index[c.name]
    ensures var r := Sell(l, a.symbol, a.quantity, price);
      && r.1.Success? && r.1.value.removed
      && r.0.investments == [b, c]
      && b.name in r.0.index && 1 in r.0.index[b.name] && r.0.investments[1].name != b.name
      && c.name in r.0.index && 2 in r.0.index[c.name]
      && !IndexMatches(r.0)
  {
    SellFirst(l, a, [b, c], price);
    var r := Sell(l, a.symbol, a.quantity, price);
    ListedPastEnd(r.0, c.name, 2);
  }

  /** In a valid ledger of three entries whose names are distinct plain
      words, the second and third names list their own positions and not
      the first's. */
  lemma LaterListed(l: Ledger, a: Investment, b: Investment, c: Investment)
    requires IndexMatches(l) && l.investments == [a, b, c]
    requires a.name != b.name && b.name != c.name && c.name != a.name
    requires PlainWord(a.name) && PlainWord(b.name) && PlainWord(c.name)
    ensures b.name in l.index && 1 in l.index[b.name] && 0 !in l.index[b.name]
    ensures c.name in l.index && 2 in l.index[c.name] && 0 !in l.index[c.name]
  {
    ListedAt(l, 1);
    ListedAt(l, 2);
    if 0 in l.index[b.name] {
      ListedOnlyAt(l, b.name, 0);
    }
    if 0 in l.index[c.name] {
      ListedOnlyAt(l, c.name, 0);
    }
  }

  /** Selling every unit of the first entry deletes it and repairs the index
      with `removeFromkeyWordIndex` at position 0. */
  lemma SellFirst(l: Ledger, a: Investment, rest: seq<Investment>, price: real)
    requires QuantitiesPositive(l.investments) && l.investments == [a] + rest
    ensures var r := Sell(l, a.symbol, a.quantity, price);
      && r.1.Success? && r.1.value.removed
      && r.0.investments == rest
      && r.0.index == RemoveFromKeywordIndex(l.index, 0)
  {
    assert FindInvestment(l.investments, a.symbol) == 0;
    SellingAllDeletes(l, a.symbol, a.quantity, price, false);
    assert l.investments[1..] == rest;
  }

  /** Two plain words joined by a space are looked up as those two keys. */
  lemma TwoKeys(x: string, z: string)
    requires PlainWord(x) && PlainWord(z)
    ensures JavaSplit(x + " " + z, ' ') != [] && CleanAll(JavaSplit(x + " " + z, ' ')) == [x, z]
  {
    assert JavaSplit(x + " " + z, ' ') == [x, z] by {
      assert x + [' '] + z == x + " " + z;
      SplitInTwo(x, ' ', z);
    }
    var r := CleanAll([x, z]);
    assert r[0] == x by { PlainWordNormalises(x); }
    assert r[1] == z by { PlainWordNormalises(z); }
  }

  /** Narrowing the list of `x`, holding 0, by `z`, not holding it, succeeds
      and leaves the list of `x` without 0. */
  lemma NarrowedApart(idx: Index, x: string, z: string)
    requires x in idx && z in idx && 0 !in idx[z]
    ensures var r := Intersect(idx, x, [z]);
      r.1.Success? && 0 !in r.0[x]
  {
    assert !ListedUnderAll(idx, [z], 0);
  }

  /** With a first key the index holds, `search` leaves the index as the
      narrowing by the later keys leaves it, and succeeds when that does and
      every surviving position is in range. */
  lemma SearchByNarrowing(l: Ledger, symbol: string, keywordString: string, priceLow: real, priceHigh: real)
    requires keywordString != "" && JavaSplit(keywordString, ' ') != []
    requires CleanAll(JavaSplit(keywordString, ' '))[0] in l.index
    ensures var keys := CleanAll(JavaSplit(keywordString, ' '));
      var narrowed := Intersect(l.index, keys[0], keys[1..]);
      var r := Search.Search(l, symbol, keywordString, priceLow, priceHigh);
      && r.0 == narrowed.0
      && (narrowed.1.Success? && (forall p :: p in narrowed.1.value ==> 0 <= p < |l.investments|) ==> r.1.Success?)
  {
  }

  /** `search` narrows the stored list of its first keyword in place: in a
      valid ledger of two entries whose names are distinct plain words,
      asking for the first name, a space and the second succeeds, but
      leaves the first name no longer listing position 0, where that name
      is, so a later search for it misses the entry. The corrected search
      leaves the index as it was. */
  lemma SearchNarrowsIndex(l: Ledger, x: Investment, z: Investment, symbol: string, priceLow: real, priceHigh: real)
    requires Valid(l) && l.investments == [x, z]
    requires x.name != z.name && PlainWord(x.name) && PlainWord(z.name)
    ensures var r := Search.Search(l, symbol, x.name + " " + z.name, priceLow, priceHigh);
      && r.1.Success?
      && x.name in r.0 && 0 !in r.0[x.name]
      && !IndexMatches(Ledger(l.investments, r.0))
      && SearchFixed(l, symbol, x.name + " " + z.name, priceLow, priceHigh).0 == l.index
  {
    ListedAt(l, 0);
    ListedAt(l, 1);
    assert 0 !in l.index[z.name] by {
      if 0 in l.index[z.name] {
        ListedOnlyAt(l, z.name, 0);
      }
    }
    var keywords := x.name + " " + z.name;
    TwoKeys(x.name, z.name);
    var keys := CleanAll(JavaSplit(keywords, ' '));
    assert keys[0] == x.name && keys[1..] == [z.name];
    NarrowedApart(l.index, x.name, z.name);
    var narrowed := Intersect(l.index, x.name, [z.name]);
    assert forall p :: p in narrowed.1.value ==> 0 <= p < |l.investments| by {
      assert forall p :: p in narrowed.1.value ==> p in l.index[x.name];
      assert Sound(l.index, Names(l.investments), NameWords);
    }
    SearchByNarrowing(l, symbol, keywords, priceLow, priceHigh);
    PlainWordNormalises(x.name);
    UnlistedName(Ledger(l.investments, narrowed.0), x.name, 0);
  }

  /** `ParseKind` recognises neither spelling in `Bond`. */
  lemma BondUnknown()
    ensures ParseKind("Bond") == None && Quotable("Bond")
  {
    assert forall i :: 0 <= i < |"Bond"| ==> "Bond"[i] != '=' && "Bond"[i] != '"';
  }

  /** A stored entry's lines followed by a record of type `Bond`. */
  function StoredThenBond(first: Investment, second: Investment, formatDouble: real -> string): seq<string>
  {
    WriteInvestment([first], formatDouble) + Record("Bond", second, formatDouble)
  }

  /** The stored lines of one entry are its record. */
  lemma StoredOne(first: Investment, second: Investment, formatDouble: real -> string)
    ensures StoredThenBond(first, second, formatDouble)
      == Record(TypeName(first.kind), first, formatDouble) + Record("Bond", second, formatDouble)
  {
    assert [first][1..] == [];
  }

  /** Loading a stored entry from the start appends it with book value 0 and
      keeps it as the last investment built. */
  lemma FirstLoaded(l: Ledger, first: Investment, formatDouble: real -> string, parseDouble: string -> Option<real>)
    requires Storable(first, formatDouble, parseDouble)
    ensures var s1 := ReadAll(Start(l), Record(TypeName(first.kind), first, formatDouble), parseDouble, false);
      && BetweenRecords(s1)
      && s1.investment == Some(first.(bookValue := 0.0))
      && s1.ledger.investments == l.investments + [first.(bookValue := 0.0)]
  {
    TypeNameParses(first.kind);
    ReadRecord(Start(l), TypeName(first.kind), first, formatDouble, parseDouble);
  }

  /** As written, a complete `Bond` record appends the last investment built
      once more. */
  lemma BondRepeats(s: Loader, second: Investment, formatDouble: real -> string, parseDouble: string -> Option<real>)
    requires BetweenRecords(s) && s.investment.Some? && Storable(second, formatDouble, parseDouble)
    ensures ReadAll(s, Record("Bond", second, formatDouble), parseDouble, false).ledger.investments
      == s.ledger.investments + [s.investment.value]
  {
    BondUnknown();
    ReadRecord(s, "Bond", second, formatDouble, parseDouble);
    var r := ReadAll(s, Record("Bond", second, formatDouble), parseDouble, false);
    assert r.ledger == Append(s.ledger, s.investment.value, second.name);
  }

  /** As written, the `Bond` record appends the entry loaded before it a
      second time. */
  lemma ReloadAsWritten(l: Ledger, first: Investment, second: Investment,
                        formatDouble: real -> string, parseDouble: string -> Option<real>)
    requires Storable(first, formatDouble, parseDouble) && Storable(second, formatDouble, parseDouble)
    ensures ReadInvestments(l, StoredThenBond(first, second, formatDouble), parseDouble).investments
      == l.investments + [first.(bookValue := 0.0), first.(bookValue := 0.0)]
  {
    var s0 := Start(l);
    var record := Record(TypeName(first.kind), first, formatDouble);
    var bond := Record("Bond", second, formatDouble);
    var s1 := ReadAll(s0, record, parseDouble, false);
    var f0 := first.(bookValue := 0.0);
    assert ReadInvestments(l, StoredThenBond(first, second, formatDouble), parseDouble)
        == ReadAll(s1, bond, parseDouble, false).ledger by {
      StoredOne(first, second, formatDouble);
      ReadAllConcat(s0, record, bond, parseDouble, false);
    }
    assert BetweenRecords(s1) && s1.investment == Some(f0) && s1.ledger.investments == l.investments + [f0] by {
      FirstLoaded(l, first, formatDouble, parseDouble);
    }
    BondRepeats(s1, second, formatDouble, parseDouble);
    assert l.investments + [f0] + [f0] == l.investments + [f0, f0];
  }

  /** Corrected, the `Bond` record is dropped. */
  lemma ReloadSkipsBond(l: Ledger, first: Investment, second: Investment,
                        formatDouble: real -> string, parseDouble: string -> Option<real>)
    requires Storable(first, formatDouble, parseDouble) && Storable(second, formatDouble, parseDouble)
    ensures ReadInvestmentsFixed(l, StoredThenBond(first, second, formatDouble), parseDouble).investments
      == l.investments + [first.(bookValue := 0.0)]
  {
    var s0 := Start(l);
    var record := Record(TypeName(first.kind), first, formatDouble);
    var bond := Record("Bond", second, formatDouble);
    StoredOne(first, second, formatDouble);
    ReadAllConcat(s0, record, bond, parseDouble, true);
    ReadStoredRecord(s0, first, formatDouble, parseDouble, true);
    var t1 := ReadAll(s0, record, parseDouble, true);
    BondUnknown();
    ReadRecordLines(t1, "Bond", second, formatDouble, parseDouble, true);
    var ready := Loader(t1.ledger, t1.investment, "Bond", second.symbol, second.name, second.quantity, second.price, t1.bookValue);
    assert Ready(ready);
    assert EmitFixed(ready).ledger == t1.ledger;
  }

  /** `readInvestments` keeps the previous investment when a complete record
      names an unknown type, and appends it again: a stored entry followed by
      a `Bond` record loads the first entry twice, breaking symbol uniqueness.
      The corrected loader skips the `Bond` record. */
  lemma ReloadRepeatsPrevious(l: Ledger, first: Investment, second: Investment,
                              formatDouble: real -> string, parseDouble: string -> Option<real>)
    requires Storable(first, formatDouble, parseDouble) && Storable(second, formatDouble, parseDouble)
    ensures var lines := StoredThenBond(first, second, formatDouble);
      var loaded := ReadInvestments(l, lines, parseDouble);
      && loaded.investments == l.investments + [first.(bookValue := 0.0), first.(bookValue := 0.0)]
      && !SymbolsUnique(loaded.investments)
      && ReadInvestmentsFixed(l, lines, parseDouble).investments == l.investments + [first.(bookValue := 0.0)]
  {
    ReloadAsWritten(l, first, second, formatDouble, parseDouble);
    ReloadSkipsBond(l, first, second, formatDouble, parseDouble);
    var invs := ReadInvestments(l, StoredThenBond(first, second, formatDouble), parseDouble).investments;
    assert invs[|l.investments|] == invs[|l.investments| + 1];
  }

  // ---------------------------------------------------------------------------
  // A name holding `=`
  // ---------------------------------------------------------------------------

  /** Everything `Storable` asks of an entry except of its name. */
  predicate StorableApartFromName(inv: Investment, formatDouble: real -> string, parseDouble: string -> Option<real>)
  {
    && inv.symbol != "" && Quotable(inv.symbol)
    && 0 < inv.quantity <= INT_MAX && inv.price > 0.0 && inv.bookValue >= 0.0
    && Quotable(formatDouble(inv.price)) && parseDouble(formatDouble(inv.price)) == Some(inv.price)
    && Quotable(formatDouble(inv.bookValue)) && parseDouble(formatDouble(inv.bookValue)) == Some(inv.bookValue)
  }

  /** The loop's state once a record's `Name` line was skipped: its numbers
      are pending and the name is empty, so nothing completes before the next
      record's `Name` line. */
  predicate AwaitingName(s: Loader)
  {
    s.name == "" && s.quantity > 0 && s.price > 0.0 && s.bookValue >= 0.0
  }

  /** What the loop appends from then on: each record keeps its own kind,
      symbol and name but takes the quantity and price of the record before it. */
  function Shifted(quantity: int, price: real, invs: seq<Investment>): (r: seq<Investment>)
    ensures |r| == |invs|
    decreases |invs|
  {
    if invs == [] then []
    else
      var first := Investment(invs[0].kind, invs[0].symbol, invs[0].name, quantity, price, 0.0);
      [first] + Shifted(invs[0].quantity, invs[0].price, invs[1..])
  }

  /** A record whose name holds `=` appends nothing and leaves its numbers pending. */
  lemma SkippedNameRecord(s: Loader, inv: Investment, before: string, after: string,
                          formatDouble: real -> string, parseDouble: string -> Option<real>, skip: bool)
    requires BetweenRecords(s) && StorableApartFromName(inv, formatDouble, parseDouble)
    requires inv.name == before + "=" + after && '=' !in before
    ensures var r := ReadAll(s, Record(TypeName(inv.kind), inv, formatDouble), parseDouble, skip);
      && AwaitingName(r) && r.ledger == s.ledger
      && r.quantity == inv.quantity && r.price == inv.price
  {
    var typeName := TypeName(inv.kind);
    TypeNameParses(inv.kind);
    var lines := Record(typeName, inv, formatDouble);
    SkippedNameTextLines(s, typeName, inv, before, after, lines, parseDouble, skip);
    PendingNumberLines(s.(typeName := typeName, symbol := inv.symbol), inv, lines[3..], formatDouble, parseDouble, skip);
  }

  /** From a state awaiting a name, a stored record completes on its own
      `Name` line with the pending numbers, and leaves its own numbers pending. */
  lemma ShiftedRecord(s: Loader, inv: Investment,
                      formatDouble: real -> string, parseDouble: string -> Option<real>, skip: bool)
    requires AwaitingName(s) && Storable(inv, formatDouble, parseDouble)
    ensures var r := ReadAll(s, Record(TypeName(inv.kind), inv, formatDouble), parseDouble, skip);
      && AwaitingName(r)
      && r.quantity == inv.quantity && r.price == inv.price
      && r.ledger == Append(s.ledger, Investment(inv.kind, inv.symbol, inv.name, s.quantity, s.price, 0.0), inv.name)
  {
    var typeName := TypeName(inv.kind);
    TypeNameParses(inv.kind);
    var lines := Record(typeName, inv, formatDouble);
    ShiftedTextLines(s, typeName, inv, lines, parseDouble, skip);
    var ready := s.(typeName := typeName, symbol := inv.symbol, name := inv.name);
    var t := Take(ready, skip);
    assert Blank(t) && t.ledger == Append(s.ledger, Investment(inv.kind, inv.symbol, inv.name, s.quantity, s.price, 0.0), inv.name) by {
      assert Ready(ready);
      EmitFixedAgrees(ready);
    }
    PendingNumberLines(t, inv, lines[3..], formatDouble, parseDouble, skip);
  }

  /** From a state awaiting a name, every stored record after it loads with
      the quantity and price of the record before it. */
  lemma {:induction false} ShiftedFrom(s: Loader, invs: seq<Investment>, formatDouble: real -> string,
                                       parseDouble: string -> Option<real>, skip: bool)
    requires AwaitingName(s)
    requires forall i :: 0 <= i < |invs| ==> Storable(invs[i], formatDouble, parseDouble)
    ensures ReadAll(s, WriteInvestment(invs, formatDouble), parseDouble, skip).ledger.investments
      == s.ledger.investments + Shifted(s.quantity, s.price, invs)
    decreases |invs|
  {
    if invs != [] {
      var first := Record(TypeName(invs[0].kind), invs[0], formatDouble);
      var rest := WriteInvestment(invs[1..], formatDouble);
      var next := ReadAll(s, first, parseDouble, skip);
      var added := Investment(invs[0].kind, invs[0].symbol, invs[0].name, s.quantity, s.price, 0.0);
      assert AwaitingName(next) && next.quantity == invs[0].quantity && next.price == invs[0].price
          && next.ledger.investments == s.ledger.investments + [added] by {
        ShiftedRecord(s, invs[0], formatDouble, parseDouble, skip);
      }
      assert ReadAll(s, WriteInvestment(invs, formatDouble), parseDouble, skip) == ReadAll(next, rest, parseDouble, skip) by {
        assert WriteInvestment(invs, formatDouble) == first + rest;
        ReadAllConcat(s, first, rest, parseDouble, skip);
      }
      var later := Shifted(invs[0].quantity, invs[0].price, invs[1..]);
      assert ReadAll(next, rest, parseDouble, skip).ledger.investments == s.ledger.investments + [added] + later by {
        ShiftedFrom(next, invs[1..], formatDouble, parseDouble, skip);
      }
      assert s.ledger.investments + [added] + later == s.ledger.investments + Shifted(s.quantity, s.price, invs) by {
        ShiftedStep(s.quantity, s.price, invs);
        AppendOneThenRest(s.ledger.investments, added, later);
      }
    }
  }

  lemma ShiftedStep(quantity: int, price: real, invs: seq<Investment>)
    requires invs != []
    ensures Shifted(quantity, price, invs)
      == [Investment(invs[0].kind, invs[0].symbol, invs[0].name, quantity, price, 0.0)]
        + Shifted(invs[0].quantity, invs[0].price, invs[1..])
  {
  }

  lemma AppendOneThenRest(held: seq<Investment>, added: Investment, later: seq<Investment>)
    ensures held + [added] + later == held + ([added] + later)
  {
  }

  /** A saved file whose first entry's name holds `=` does not reload as
      saved: that record's `Name` line is skipped, each later record completes
      on its own `Name` line with the quantity and price of the record before
      it, and the last record's own numbers are never used. Both loaders do
      this, and one entry fewer than saved is loaded. */
  lemma EqualsInNameShiftsLaterRecords(l: Ledger, first: Investment, rest: seq<Investment>,
                                       before: string, after: string,
                                       formatDouble: real -> string, parseDouble: string -> Option<real>)
    requires StorableApartFromName(first, formatDouble, parseDouble)
    requires first.name == before + "=" + after && '=' !in before
    requires forall i :: 0 <= i < |rest| ==> Storable(rest[i], formatDouble, parseDouble)
    ensures ReadInvestments(l, WriteInvestment([first] + rest, formatDouble), parseDouble).investments
      == l.investments + Shifted(first.quantity, first.price, rest)
    ensures ReadInvestmentsFixed(l, WriteInvestment([first] + rest, formatDouble), parseDouble).investments
      == l.investments + Shifted(first.quantity, first.price, rest)
  {
    var invs := [first] + rest;
    var head := Record(TypeName(first.kind), first, formatDouble);
    assert WriteInvestment(invs, formatDouble) == head + WriteInvestment(rest, formatDouble) by {
      assert invs[0] == first && invs[1..] == rest;
    }
    forall skip: bool
      ensures ReadAll(Start(l), WriteInvestment(invs, formatDouble), parseDouble, skip).ledger.investments
        == l.investments + Shifted(first.quantity, first.price, rest)
    {
      ReadAllConcat(Start(l), head, WriteInvestment(rest, formatDouble), parseDouble, skip);
      SkippedNameRecord(Start(l), first, before, after, formatDouble, parseDouble, skip);
      ShiftedFrom(ReadAll(Start(l), head, parseDouble, skip), rest, formatDouble, parseDouble, skip);
    }
  }

  /** The text lines of a record whose name holds `=`: the `Name` line is skipped. */
  lemma SkippedNameTextLines(s: Loader, typeName: string, inv: Investment, before: string, after: string,
                             lines: seq<string>, parseDouble: string -> Option<real>, skip: bool)
    requires BetweenRecords(s) && typeName != "" && Quotable(typeName)
    requires inv.symbol != "" && Quotable(inv.symbol)
    requires inv.name == before + "=" + after && '=' !in before
    requires |lines| >= 3
    requires lines[0] == KeyLine(WrittenKey(TypeField), typeName)
    requires lines[1] == KeyLine(WrittenKey(SymbolField), inv.symbol)
    requires lines[2] == KeyLine(WrittenKey(NameField), inv.name)
    ensures ReadAll(s, lines, parseDouble, skip)
      == ReadAll(s.(typeName := typeName, symbol := inv.symbol), lines[3..], parseDouble, skip)
  {
    var s1 := s.(typeName := typeName);
    FieldStep(s, TypeField, typeName, lines, parseDouble, skip, s1);
    var s2 := s1.(symbol := inv.symbol);
    FieldStep(s1, SymbolField, inv.symbol, lines[1..], parseDouble, skip, s2);
    EqualsInValueSkipsLine(s2, WrittenKey(NameField), before, after, parseDouble, skip);
    ReadAllStep(s2, lines[1..][1..], parseDouble, skip, s2);
    assert lines[1..][1..][1..] == lines[3..];
  }

  /** The text lines of a stored record read while awaiting a name: the
      record completes on its `Name` line. */
  lemma ShiftedTextLines(s: Loader, typeName: string, inv: Investment,
                         lines: seq<string>, parseDouble: string -> Option<real>, skip: bool)
    requires AwaitingName(s) && typeName != "" && Quotable(typeName)
    requires inv.symbol != "" && Quotable(inv.symbol) && inv.name != "" && Quotable(inv.name)
    requires |lines| >= 3
    requires lines[0] == KeyLine(WrittenKey(TypeField), typeName)
    requires lines[1] == KeyLine(WrittenKey(SymbolField), inv.symbol)
    requires lines[2] == KeyLine(WrittenKey(NameField), inv.name)
    ensures ReadAll(s, lines, parseDouble, skip)
      == ReadAll(Take(s.(typeName := typeName, symbol := inv.symbol, name := inv.name), skip), lines[3..], parseDouble, skip)
  {
    var s1 := s.(typeName := typeName);
    FieldStep(s, TypeField, typeName, lines, parseDouble, skip, s1);
    var s2 := s1.(symbol := inv.symbol);
    FieldStep(s1, SymbolField, inv.symbol, lines[1..], parseDouble, skip, s2);
    FieldLineStep(s2, NameField, inv.name, lines[1..][1..], parseDouble, skip, s2.(name := inv.name));
    assert lines[1..][1..][1..] == lines[3..];
  }

  /** The number lines of a record read while the name is empty: the numbers
      are only stored, and nothing completes. */
  lemma PendingNumberLines(s: Loader, inv: Investment, lines: seq<string>,
                           formatDouble: real -> string, parseDouble: string -> Option<real>, skip: bool)
    requires s.name == "" && s.price == 0.0 && StorableApartFromName(inv, formatDouble, parseDouble)
    requires |lines| == 3
    requires lines[0] == KeyLine(WrittenKey(QuantityField), FormatInt(inv.quantity))
    requires lines[1] == KeyLine(WrittenKey(PriceField), formatDouble(inv.price))
    requires lines[2] == KeyLine(WrittenKey(BookValueField), formatDouble(inv.bookValue))
    ensures ReadAll(s, lines, parseDouble, skip)
      == s.(quantity := inv.quantity, price := inv.price, bookValue := inv.bookValue)
  {
    var s1 := s.(quantity := inv.quantity);
    var s2 := s1.(price := inv.price);
    var s3 := s2.(bookValue := inv.bookValue);
    assert ReadAll(s, lines, parseDouble, skip) == ReadAll(s1, lines[1..], parseDouble, skip) by {
      QuantityStep(s, inv.quantity, lines, parseDouble, skip);
    }
    assert ReadAll(s1, lines[1..], parseDouble, skip) == ReadAll(s2, lines[2..], parseDouble, skip) by {
      PriceStep(s1, inv.price, lines[1..], formatDouble, parseDouble, skip);
      assert Take(s2, skip) == s2;
      assert lines[1..][1..] == lines[2..];
    }
    assert ReadAll(s2, lines[2..], parseDouble, skip) == s3 by {
      PendingBookValueStep(s2, inv.bookValue, lines[2..], formatDouble, parseDouble, skip);
      assert lines[2..][1..] == [];
    }
  }
}

=== FILE: investment.dfy ===
/** One holding and its fee-aware valuation. Java's abstract class `Investment`
    with the subclasses `Stock` and `MutualFund` becomes one record with a
    `Kind` tag; the subclasses differ only in their fee constants. Prices and
    book values are Java doubles, modelled as `real` (rounding is abstracted
    away). */
module Investments {
  import opened Wrappers

  datatype Kind = Stock | MutualFund

  /** Charged by a stock on every purchase and on every sale. */
  const COMMISSION: real := 9.99
  /** Charged by a mutual fund on every sale; purchases are free. */
  const REDEMPTION_FEE: real := 45.00

  datatype Investment = Investment(
    kind: Kind,
    symbol: string,
    name: string,
    quantity: int,
    price: real,
    bookValue: real)

  /** The constructor's four rejections, one per field, in the order it checks them. */
  datatype CreateError = EmptySymbol | EmptyName | NonPositiveQuantity | NonPositivePrice

  /** The constructor `Investment(symbol, name, quantity, price)` as reached through
      `new Stock(..)` or `new MutualFund(..)`: the first invalid field, in
      declaration order, names the error; a valid holding starts with book value 0. */
  function Create(kind: Kind, symbol: string, name: string, quantity: int, price: real): (r: Result<Investment, CreateError>)
    ensures r.Success? <==> symbol != "" && name != "" && quantity > 0 && price > 0.0
    ensures r.Success? ==> r.value == Investment(kind, symbol, name, quantity, price, 0.0)
    ensures r == Failure(EmptySymbol) <==> symbol == ""
    ensures r == Failure(EmptyName) <==> symbol != "" && name == ""
    ensures r == Failure(NonPositiveQuantity) <==> symbol != "" && name != "" && quantity <= 0
    ensures r == Failure(NonPositivePrice) <==> symbol != "" && name != "" && quantity > 0 && price <= 0.0
  {
    if symbol == "" then Failure(EmptySymbol)
    else if name == "" then Failure(EmptyName)
    else if quantity <= 0 then Failure(NonPositiveQuantity)
    else if price <= 0.0 then Failure(NonPositivePrice)
    else Success(Investment(kind, symbol, name, quantity, price, 0.0))
  }

  /** The fee a purchase adds to book value. */
  function PurchaseFee(kind: Kind): real
  {
    if kind == Stock then COMMISSION else 0.0
  }

  /** The fee a sale deducts from the proceeds. */
  function SaleFee(kind: Kind): real
  {
    if kind == Stock then COMMISSION else REDEMPTION_FEE
  }

  // ---------------------------------------------------------------------------
  // Setters (Java mutates one field; here each returns the updated value)
  // ---------------------------------------------------------------------------

  function SetSymbol(inv: Investment, symbol: string): Investment { inv.(symbol := symbol) }
  function SetName(inv: Investment, name: string): Investment { inv.(name := name) }
  function SetQuantity(inv: Investment, quantity: int): Investment { inv.(quantity := quantity) }
  function SetPrice(inv: Investment, price: real): Investment { inv.(price := price) }
  function SetBookValue(inv: Investment, bookValue: real): Investment { inv.(bookValue := bookValue) }

  /** Each setter changes its own field and no other. */
  lemma SettersChangeOnlyTheirField(inv: Investment, s: string, q: int, x: real)
    ensures SetSymbol(inv, s).symbol == s && SetSymbol(inv, s).(symbol := inv.symbol) == inv
    ensures SetName(inv, s).name == s && SetName(inv, s).(name := inv.name) == inv
    ensures SetQuantity(inv, q).quantity == q && SetQuantity(inv, q).(quantity := inv.quantity) == inv
    ensures SetPrice(inv, x).price == x && SetPrice(inv, x).(price := inv.price) == inv
    ensures SetBookValue(inv, x).bookValue == x && SetBookValue(inv, x).(bookValue := inv.bookValue) == inv
  {
  }

  // ---------------------------------------------------------------------------
  // Valuation
  // ---------------------------------------------------------------------------

  /** `calculateBookValue(quantity, price)`: a purchase adds its cost, plus the
      commission for a stock, to book value and changes nothing else. */
  function CalculateBookValue(inv: Investment, quantity: int, price: real): (r: Investment)
    ensures r.(bookValue := inv.bookValue) == inv
    ensures r.bookValue - inv.bookValue == quantity as real * price + PurchaseFee(inv.kind)
    ensures inv.kind == MutualFund ==> r.bookValue == inv.bookValue + quantity as real * price
  {
    SetBookValue(inv, inv.bookValue + (quantity as real * price + PurchaseFee(inv.kind)))
  }

  /** `payment(quantity)`: the proceeds of selling `quantity` units at the
      current price, net of the sale fee. */
  function Payment(inv: Investment, quantity: int): (r: real)
    ensures r + SaleFee(inv.kind) == quantity as real * inv.price
  {
    quantity as real * inv.price - SaleFee(inv.kind)
  }

  /** `bValueSellC(quantityOld)`: once the quantity has dropped from
      `quantityOld` to its current value, book value shrinks in the same
      proportion. Java divides a double by zero when `quantityOld` is 0, which
      `real` cannot express, hence the precondition. */
  function BValueSellC(inv: Investment, quantityOld: int): (r: Investment)
    requires quantityOld != 0
    ensures r.(bookValue := inv.bookValue) == inv
    ensures r.bookValue * quantityOld as real == inv.bookValue * inv.quantity as real
    ensures inv.quantity == quantityOld ==> r == inv
    ensures inv.quantity == 0 ==> r.bookValue == 0.0
    ensures inv.bookValue >= 0.0 && inv.quantity >= 0 && quantityOld > 0 ==> r.bookValue >= 0.0
  {
    SetBookValue(inv, inv.bookValue * inv.quantity as real / quantityOld as real)
  }

  /** `Gain()`: what liquidating the whole position at the current price would
      pay, net of the sale fee, minus book value. */
  function Gain(inv: Investment): (r: real)
    ensures r + inv.bookValue + SaleFee(inv.kind) == inv.quantity as real * inv.price
  {
    Payment(inv, inv.quantity) - inv.bookValue
  }

  /** `equals`: same class, symbol, name, quantity and price; book value is ignored. */
  predicate Equals(a: Investment, b: Investment)
  {
    a.kind == b.kind && a.symbol == b.symbol && a.name == b.name
    && a.quantity == b.quantity && a.price == b.price
  }

  /** `equals` is equality up to book value. */
  lemma EqualsIgnoresOnlyBookValue(a: Investment, b: Investment)
    ensures Equals(a, b) <==> a.(bookValue := 0.0) == b.(bookValue := 0.0)
  {
  }

  // ---------------------------------------------------------------------------
  // Consequences of the fee policy
  // ---------------------------------------------------------------------------

  /** Right after one purchase, with the price unchanged, the gain is minus both
      fees: -19.98 for a stock (commission in and out), -45.00 for a fund. */
  lemma GainAfterOnePurchase(kind: Kind, symbol: string, name: string, quantity: int, price: real)
    requires Create(kind, symbol, name, quantity, price).Success?
    ensures var inv := CalculateBookValue(Create(kind, symbol, name, quantity, price).value, quantity, price);
      Gain(inv) == -(PurchaseFee(kind) + SaleFee(kind))
    ensures var inv := CalculateBookValue(Create(kind, symbol, name, quantity, price).value, quantity, price);
      Gain(inv) == if kind == Stock then -19.98 else -45.00
  {
  }

  /** Repricing moves the gain by the quantity times the price change. */
  lemma GainUnderRepricing(inv: Investment, price: real)
    ensures Gain(SetPrice(inv, price)) - Gain(inv) == inv.quantity as real * (price - inv.price)
  {
  }

  /** A stock bought as 10 units at 100.0 has book value 1009.99; repriced to
      120.0, selling all 10 pays 1190.01. */
  lemma StockPurchaseAndSale()
    ensures Create(Stock, "IBM", "Intl Business Machines", 10, 100.0).Success?
    ensures var bought := CalculateBookValue(Create(Stock, "IBM", "Intl Business Machines", 10, 100.0).value, 10, 100.0);
      bought.bookValue == 1009.99 && Payment(SetPrice(bought, 120.0), 10) == 1190.01
  {
  }

  /** A fund bought as 50 units at 20.0 and then 50 at 22.0 has book value 2100.0. */
  lemma FundTwoPurchases()
    ensures Create(MutualFund, "FID", "Fidelity Growth", 50, 20.0).Success?
    ensures var first := CalculateBookValue(Create(MutualFund, "FID", "Fidelity Growth", 50, 20.0).value, 50, 20.0);
      first.bookValue == 1000.0 && CalculateBookValue(first, 50, 22.0).bookValue == 2100.0
  {
  }
}

=== FILE: keyword_index.dfy ===
/** The inverted keyword index `IndexofKeyword`: each normalised name word maps
    to the list of ledger positions whose name holds it. Positions are plain
    offsets into the investment sequence, so a deletion from the sequence must
    renumber them. */
module KeywordIndex {

  type Index = map<string, seq<int>>

  /** `getOrDefault(word, new ArrayList<>())`. */
  function Positions(idx: Index, w: string): seq<int>
  {
    if w in idx then idx[w] else []
  }

  predicate NoDuplicates(s: seq<int>)
  {
    forall i, j :: 0 <= i < j < |s| ==> s[i] != s[j]
  }

  ghost predicate ListsHaveNoDuplicates(idx: Index)
  {
    forall w :: w in idx ==> NoDuplicates(idx[w])
  }

  /** Strictly increasing positions: the ledger order. */
  predicate Ascending(s: seq<int>)
  {
    forall i, j :: 0 <= i < j < |s| ==> s[i] < s[j]
  }

  ghost predicate ListsAscending(idx: Index)
  {
    forall w :: w in idx ==> Ascending(idx[w])
  }

  /** Every listed position exists and the words of its name hold the word
      under which it is listed. `names[p]` is the name at ledger position `p`
      and `words` the normalisation that splits a name into index words. */
  ghost predicate Sound(idx: Index, names: seq<string>, words: string -> seq<string>)
  {
    forall w, p {:trigger p in idx[w]} :: w in idx && p in idx[w] ==> 0 <= p < |names| && w in words(names[p])
  }

  /** Every word of every name is listed under that word at the name's position. */
  ghost predicate Complete(idx: Index, names: seq<string>, words: string -> seq<string>)
  {
    forall p, w {:trigger w in words(names[p])} :: 0 <= p < |names| && w in words(names[p]) ==> w in idx && p in idx[w]
  }

  /** `idx` is exactly the inversion of the names' words, each list holding
      its positions once and in ledger order. `addToKeywordIndex` only ever
      appends the newest, largest position, and the removal keeps the order of
      the positions it leaves. */
  ghost predicate Inverts(idx: Index, names: seq<string>, words: string -> seq<string>)
  {
    Sound(idx, names, words) && Complete(idx, names, words) && ListsHaveNoDuplicates(idx) && ListsAscending(idx)
  }

  // ---------------------------------------------------------------------------
  // addToKeywordIndex
  // ---------------------------------------------------------------------------

  /** The body of the loop in `addToKeywordIndex`: append `pos` unless it is
      already listed, so a list never holds a position twice. */
  function AddPosition(locs: seq<int>, pos: int): (r: seq<int>)
    ensures forall x :: x in r <==> x in locs || x == pos
    ensures |locs| <= |r| <= |locs| + 1 && r[..|locs|] == locs
    ensures NoDuplicates(locs) ==> NoDuplicates(r)
  {
    if pos in locs then locs else locs + [pos]
  }

  /** `addToKeywordIndex`: `pos` is recorded under every word, once, and no
      other list changes. A word repeated in the name is recorded once. */
  function AddToKeywordIndex(idx: Index, words: seq<string>, pos: int): (r: Index)
    ensures forall w :: w in r <==> w in idx || w in words
    ensures forall w :: Positions(r, w) == if w in words then AddPosition(Positions(idx, w), pos) else Positions(idx, w)
    decreases |words|
  {
    if |words| == 0 then idx
    else
      var w0 := words[0];
      var idx1 := idx[w0 := AddPosition(Positions(idx, w0), pos)];
      var r := AddToKeywordIndex(idx1, words[1..], pos);
      assert forall w :: Positions(r, w) == if w in words then AddPosition(Positions(idx, w), pos) else Positions(idx, w) by {
        forall w
          ensures Positions(r, w) == if w in words then AddPosition(Positions(idx, w), pos) else Positions(idx, w)
        {
          assert w in words <==> w == w0 || w in words[1..];
          if w == w0 {
            assert AddPosition(Positions(idx1, w0), pos) == Positions(idx1, w0);
          } else {
            assert Positions(idx1, w) == Positions(idx, w);
          }
        }
      }
      assert forall w :: w in words <==> w == w0 || w in words[1..];
      r
  }

  lemma AddingKeepsNoDuplicates(idx: Index, words: seq<string>, pos: int)
    requires ListsHaveNoDuplicates(idx)
    ensures ListsHaveNoDuplicates(AddToKeywordIndex(idx, words, pos))
  {
    var r := AddToKeywordIndex(idx, words, pos);
    forall w | w in r
      ensures NoDuplicates(r[w])
    {
      assert r[w] == Positions(r, w);
      assert NoDuplicates(Positions(idx, w));
    }
  }

  /** Appending a position above every listed one keeps each list ascending. */
  lemma AddingKeepsAscending(idx: Index, words: seq<string>, pos: int)
    requires ListsAscending(idx)
    requires forall w, p :: w in idx && p in idx[w] ==> p < pos
    ensures ListsAscending(AddToKeywordIndex(idx, words, pos))
  {
    var r := AddToKeywordIndex(idx, words, pos);
    forall w | w in r
      ensures Ascending(r[w])
    {
      assert r[w] == Positions(r, w);
      if w in words {
        AddPositionKeepsAscending(Positions(idx, w), pos);
      }
    }
  }

  lemma AddPositionKeepsAscending(locs: seq<int>, pos: int)
    requires Ascending(locs) && forall x :: x in locs ==> x < pos
    ensures Ascending(AddPosition(locs, pos))
  {
    if pos !in locs {
      var r := locs + [pos];
      forall i, j | 0 <= i < j < |r|
        ensures r[i] < r[j]
      {
        if j == |locs| {
          assert r[i] == locs[i] && locs[i] in locs;
        }
      }
    }
  }

  /** Indexing the words of a new last name keeps the index the inversion of
      the extended name list. */
  lemma AddingKeepsInverse(idx: Index, names: seq<string>, name: string, words: string -> seq<string>)
    requires Inverts(idx, names, words)
    ensures Inverts(AddToKeywordIndex(idx, words(name), |names|), names + [name], words)
  {
    AddingKeepsNoDuplicates(idx, words(name), |names|);
    AddingKeepsAscending(idx, words(name), |names|);
    AddingKeepsSound(idx, names, name, words);
    AddingKeepsComplete(idx, names, name, words);
  }

  lemma AddingKeepsSound(idx: Index, names: seq<string>, name: string, words: string -> seq<string>)
    requires Sound(idx, names, words)
    ensures Sound(AddToKeywordIndex(idx, words(name), |names|), names + [name], words)
  {
    var r := AddToKeywordIndex(idx, words(name), |names|);
    forall w, p {:trigger p in r[w]} | w in r && p in r[w]
      ensures 0 <= p < |names + [name]| && w in words((names + [name])[p])
    {
      AddedEntrySound(idx, names, name, words, w, p);
    }
  }

  lemma AddedEntrySound(idx: Index, names: seq<string>, name: string, words: string -> seq<string>, w: string, p: int)
    requires Sound(idx, names, words)
    requires w in AddToKeywordIndex(idx, words(name), |names|) && p in AddToKeywordIndex(idx, words(name), |names|)[w]
    ensures 0 <= p < |names| + 1 && w in words((names + [name])[p])
  {
    var n := |names|;
    var r := AddToKeywordIndex(idx, words(name), n);
    assert p in Positions(r, w);
    if p != n {
      assert p in Positions(idx, w);
      assert w in idx && p in idx[w];
      assert (names + [name])[p] == names[p];
    } else {
      assert w in words(name);
    }
  }

  lemma AddingKeepsComplete(idx: Index, names: seq<string>, name: string, words: string -> seq<string>)
    requires Complete(idx, names, words)
    ensures Complete(AddToKeywordIndex(idx, words(name), |names|), names + [name], words)
  {
    var n := |names|;
    var r := AddToKeywordIndex(idx, words(name), n);
    var names' := names + [name];
    forall p, w {:trigger w in words(names'[p])} | 0 <= p < |names'| && w in words(names'[p])
      ensures w in r && p in r[w]
    {
      if p < n {
        assert names'[p] == names[p];
        assert p in Positions(idx, w);
      }
      assert p in Positions(r, w);
    }
  }

  // ---------------------------------------------------------------------------
  // removeFromkeyWordIndex
  // ---------------------------------------------------------------------------

  /** `ArrayList.remove(Object)`: the first occurrence of `x` goes, the order of
      the rest is kept. */
  function RemoveFirst(s: seq<int>, x: int): (r: seq<int>)
    ensures x in s ==> |r| == |s| - 1
    ensures x !in s ==> r == s
    ensures forall y :: y in r ==> y in s
    ensures forall y :: y in s && y != x ==> y in r
    ensures NoDuplicates(s) ==> NoDuplicates(r) && x !in r
  {
    if |s| == 0 then []
    else if s[0] == x then s[1..]
    else
      var rest := RemoveFirst(s[1..], x);
      assert NoDuplicates(s) ==> NoDuplicates(s[1..]) && s[0] !in s[1..];
      [s[0]] + rest
  }

  /** Removing an element keeps a list ascending. */
  lemma {:induction false} RemoveFirstKeepsAscending(s: seq<int>, x: int)
    requires Ascending(s)
    ensures Ascending(RemoveFirst(s, x))
  {
    if |s| > 0 && s[0] != x {
      RemoveFirstKeepsAscending(s[1..], x);
      var rest := RemoveFirst(s[1..], x);
      assert RemoveFirst(s, x) == [s[0]] + rest;
      assert forall i :: 0 <= i < |rest| ==> rest[i] in s[1..];
    }
  }

  /** Where position `p` moves when position `pos` is deleted from the ledger. */
  function Renumber(p: int, pos: int): int
  {
    if p > pos then p - 1 else p
  }

  /** The decrement loop of `removeFromkeyWordIndex`, applied to one list. */
  function ShiftDown(s: seq<int>, pos: int): (r: seq<int>)
    ensures |r| == |s|
    ensures forall i :: 0 <= i < |s| ==> r[i] == Renumber(s[i], pos)
  {
    seq(|s|, i requires 0 <= i < |s| => Renumber(s[i], pos))
  }

  /** Renumbering is injective away from the deleted position. */
  lemma ShiftDownKeepsNoDuplicates(s: seq<int>, pos: int)
    requires NoDuplicates(s) && pos !in s
    ensures NoDuplicates(ShiftDown(s, pos))
  {
    var r := ShiftDown(s, pos);
    forall i, j | 0 <= i < j < |r|
      ensures r[i] != r[j]
    {
      assert s[i] != pos && s[j] != pos;
    }
  }

  /** Renumbering is monotone away from the deleted position. */
  lemma ShiftDownKeepsAscending(s: seq<int>, pos: int)
    requires Ascending(s) && pos !in s
    ensures Ascending(ShiftDown(s, pos))
  {
    var r := ShiftDown(s, pos);
    forall i, j | 0 <= i < j < |r|
      ensures r[i] < r[j]
    {
      assert s[i] < s[j] && s[i] != pos && s[j] != pos;
    }
  }

  /** Repairing a list keeps it ascending. */
  lemma RepairKeepsAscending(s: seq<int>, pos: int)
    requires Ascending(s)
    ensures Ascending(ShiftDown(RemoveFirst(s, pos), pos))
  {
    RemoveFirstKeepsAscending(s, pos);
    assert NoDuplicates(s);
    ShiftDownKeepsAscending(RemoveFirst(s, pos), pos);
  }

  /** A position other than `pos` survives the removal of `pos` from its list,
      renumbered. */
  lemma ShiftDownKeeps(s: seq<int>, pos: int, p: int)
    requires p in s && p != pos
    ensures Renumber(p, pos) in ShiftDown(RemoveFirst(s, pos), pos)
    ensures pos in s ==> |s| > 1
  {
    if pos in s && |s| <= 1 {
      assert s[0] == p;
    }
    var t := RemoveFirst(s, pos);
    var i :| 0 <= i < |t| && t[i] == p;
    assert ShiftDown(t, pos)[i] == Renumber(p, pos);
  }

  /** Every position left after removing `pos` from a list without duplicates
      is the renumbering of another position of that list. */
  lemma ShiftDownOrigin(s: seq<int>, pos: int, x: int)
    requires NoDuplicates(s)
    requires x in ShiftDown(RemoveFirst(s, pos), pos)
    ensures exists p :: p in s && p != pos && x == Renumber(p, pos)
  {
    var t := RemoveFirst(s, pos);
    var i :| 0 <= i < |t| && ShiftDown(t, pos)[i] == x;
    assert t[i] in s && t[i] != pos;
  }

  /** `removeFromkeyWordIndex(pos)`: a list holding `pos` loses it, has its
      later positions moved down by one, and is dropped when that leaves it
      empty; a list not holding `pos` is left exactly as it was, whatever
      positions it holds. */
  function RemoveFromKeywordIndex(idx: Index, pos: int): (r: Index)
    ensures forall w :: w in r ==> w in idx
    ensures forall w :: w in idx && pos !in idx[w] ==> w in r && r[w] == idx[w]
    ensures forall w :: w in idx && pos in idx[w] ==> (w in r <==> |idx[w]| > 1)
    ensures forall w :: w in r ==> r[w] == RepairList(idx[w], pos)
  {
    map w | w in idx && (pos !in idx[w] || |idx[w]| > 1) :: RepairList(idx[w], pos)
  }

  /** A list that held `pos` loses exactly that entry and keeps every other
      position, renumbered. */
  lemma RemovalRenumbersHolders(idx: Index, pos: int)
    ensures var r := RemoveFromKeywordIndex(idx, pos);
      forall w :: w in r && pos in idx[w] ==> |r[w]| == |idx[w]| - 1
    ensures var r := RemoveFromKeywordIndex(idx, pos);
      forall w, p :: w in idx && pos in idx[w] && p in idx[w] && p != pos ==> w in r && Renumber(p, pos) in r[w]
  {
    var r := RemoveFromKeywordIndex(idx, pos);
    forall w | w in r && pos in idx[w]
      ensures |r[w]| == |idx[w]| - 1
    {
      RepairListShrinks(idx[w], pos);
    }
    forall w, p | w in idx && pos in idx[w] && p in idx[w] && p != pos
      ensures w in r && Renumber(p, pos) in r[w]
    {
      RepairListKeeps(idx[w], pos, p);
    }
  }

  /** The repair of one list: a list holding `pos` loses it and has its later
      positions moved down; any other list is kept. */
  function RepairList(s: seq<int>, pos: int): seq<int>
  {
    if pos in s then ShiftDown(RemoveFirst(s, pos), pos) else s
  }

  lemma RepairListShrinks(s: seq<int>, pos: int)
    requires pos in s
    ensures |RepairList(s, pos)| == |s| - 1
  {
  }

  lemma RepairListKeeps(s: seq<int>, pos: int, p: int)
    requires pos in s && p in s && p != pos
    ensures |s| > 1 && Renumber(p, pos) in RepairList(s, pos)
  {
    ShiftDownKeeps(s, pos, p);
  }

  /** Together with the contract of `RemoveFromKeywordIndex`: a list that held
      `pos` keeps nothing but the renumbered other positions it held. */
  lemma RemovalLeavesOnlyRenumbered(idx: Index, pos: int)
    requires ListsHaveNoDuplicates(idx)
    ensures var r := RemoveFromKeywordIndex(idx, pos);
      forall w, x :: w in r && pos in idx[w] && x in r[w] ==> exists p :: p in idx[w] && p != pos && x == Renumber(p, pos)
  {
    var r := RemoveFromKeywordIndex(idx, pos);
    forall w, x | w in r && pos in idx[w] && x in r[w]
      ensures exists p :: p in idx[w] && p != pos && x == Renumber(p, pos)
    {
      ShiftDownOrigin(idx[w], pos, x);
    }
  }

  /** No list gains a duplicate position through a removal. */
  lemma RemovalKeepsNoDuplicates(idx: Index, pos: int)
    requires ListsHaveNoDuplicates(idx)
    ensures ListsHaveNoDuplicates(RemoveFromKeywordIndex(idx, pos))
  {
    var r := RemoveFromKeywordIndex(idx, pos);
    forall w | w in r
      ensures NoDuplicates(r[w])
    {
      if pos in idx[w] {
        ShiftDownKeepsNoDuplicates(RemoveFirst(idx[w], pos), pos);
      }
    }
  }

  lemma RemovalKeepsAscending(idx: Index, pos: int)
    requires ListsAscending(idx)
    ensures ListsAscending(RemoveFromKeywordIndex(idx, pos))
  {
    var r := RemoveFromKeywordIndex(idx, pos);
    forall w | w in r
      ensures Ascending(r[w])
    {
      if pos in idx[w] {
        RepairKeepsAscending(idx[w], pos);
      }
    }
  }

  /** Deleting the last position keeps the index the inversion of the shortened
      name list: no listed position lies above it. */
  lemma LastRemovalKeepsInverse(idx: Index, names: seq<string>, words: string -> seq<string>)
    requires Inverts(idx, names, words) && |names| > 0
    ensures Inverts(RemoveFromKeywordIndex(idx, |names| - 1), names[..|names| - 1], words)
  {
    RemovalKeepsNoDuplicates(idx, |names| - 1);
    RemovalKeepsAscending(idx, |names| - 1);
    LastRemovalKeepsSound(idx, names, words);
    LastRemovalKeepsComplete(idx, names, words);
  }

  lemma LastRemovalKeepsSound(idx: Index, names: seq<string>, words: string -> seq<string>)
    requires Sound(idx, names, words) && ListsHaveNoDuplicates(idx) && |names| > 0
    ensures Sound(RemoveFromKeywordIndex(idx, |names| - 1), names[..|names| - 1], words)
  {
    var i := |names| - 1;
    var r := RemoveFromKeywordIndex(idx, i);
    var names' := names[..i];
    forall w, x {:trigger x in r[w]} | w in r && x in r[w]
      ensures 0 <= x < |names'| && w in words(names'[x])
    {
      if i in idx[w] {
        ShiftDownOrigin(idx[w], i, x);
        var p :| p in idx[w] && p != i && x == Renumber(p, i);
        assert names'[x] == names[p];
      } else {
        assert x in idx[w];
        assert names'[x] == names[x];
      }
    }
  }

  lemma LastRemovalKeepsComplete(idx: Index, names: seq<string>, words: string -> seq<string>)
    requires Complete(idx, names, words) && |names| > 0
    ensures Complete(RemoveFromKeywordIndex(idx, |names| - 1), names[..|names| - 1], words)
  {
    var i := |names| - 1;
    var r := RemoveFromKeywordIndex(idx, i);
    var names' := names[..i];
    forall x, w {:trigger w in words(names'[x])} | 0 <= x < |names'| && w in words(names'[x])
      ensures w in r && x in r[w]
    {
      assert names'[x] == names[x];
      assert Renumber(x, i) == x;
    }
  }

  /** The renumbering the deletion of a ledger position calls for: `pos` leaves
      every list, every later position in every list moves down by one, and
      lists left empty are dropped. */
  function RemoveFromKeywordIndexEverywhere(idx: Index, pos: int): (r: Index)
    ensures forall w :: w in r ==> w in idx && r[w] != []
    ensures forall w, p :: w in idx && p in idx[w] && p != pos ==> w in r && Renumber(p, pos) in r[w]
    ensures ListsHaveNoDuplicates(idx) ==>
      forall w, x :: w in r && x in r[w] ==> exists p :: p in idx[w] && p != pos && x == Renumber(p, pos)
  {
    var r := map w | w in idx && ShiftDown(RemoveFirst(idx[w], pos), pos) != [] ::
      ShiftDown(RemoveFirst(idx[w], pos), pos);
    assert forall w, p :: w in idx && p in idx[w] && p != pos ==> w in r && Renumber(p, pos) in r[w] by {
      forall w, p | w in idx && p in idx[w] && p != pos
        ensures w in r && Renumber(p, pos) in r[w]
      {
        ShiftDownKeeps(idx[w], pos, p);
      }
    }
    assert ListsHaveNoDuplicates(idx) ==>
      forall w, x :: w in r && x in r[w] ==> exists p :: p in idx[w] && p != pos && x == Renumber(p, pos) by {
      if ListsHaveNoDuplicates(idx) {
        forall w, x | w in r && x in r[w]
          ensures exists p :: p in idx[w] && p != pos && x == Renumber(p, pos)
        {
          ShiftDownOrigin(idx[w], pos, x);
        }
      }
    }
    r
  }

  lemma RenumberingEverywhereKeepsNoDuplicates(idx: Index, pos: int)
    requires ListsHaveNoDuplicates(idx)
    ensures ListsHaveNoDuplicates(RemoveFromKeywordIndexEverywhere(idx, pos))
  {
    var r := RemoveFromKeywordIndexEverywhere(idx, pos);
    forall w | w in r
      ensures NoDuplicates(r[w])
    {
      ShiftDownKeepsNoDuplicates(RemoveFirst(idx[w], pos), pos);
    }
  }

  lemma RenumberingEverywhereKeepsAscending(idx: Index, pos: int)
    requires ListsAscending(idx)
    ensures ListsAscending(RemoveFromKeywordIndexEverywhere(idx, pos))
  {
    var r := RemoveFromKeywordIndexEverywhere(idx, pos);
    forall w | w in r
      ensures Ascending(r[w])
    {
      RepairKeepsAscending(idx[w], pos);
    }
  }

  /** Deleting any position while renumbering every list keeps the index the
      inversion of the name list without that position. */
  lemma RenumberingEverywhereKeepsInverse(idx: Index, names: seq<string>, words: string -> seq<string>, i: int)
    requires Inverts(idx, names, words) && 0 <= i < |names|
    ensures Inverts(RemoveFromKeywordIndexEverywhere(idx, i), names[..i] + names[i + 1..], words)
  {
    RenumberingEverywhereKeepsNoDuplicates(idx, i);
    RenumberingEverywhereKeepsAscending(idx, i);
    RenumberingEverywhereKeepsSound(idx, names, words, i);
    RenumberingEverywhereKeepsComplete(idx, names, words, i);
  }

  lemma RenumberingEverywhereKeepsSound(idx: Index, names: seq<string>, words: string -> seq<string>, i: int)
    requires Sound(idx, names, words) && ListsHaveNoDuplicates(idx) && 0 <= i < |names|
    ensures Sound(RemoveFromKeywordIndexEverywhere(idx, i), names[..i] + names[i + 1..], words)
  {
    var r := RemoveFromKeywordIndexEverywhere(idx, i);
    var names' := names[..i] + names[i + 1..];
    forall w, x {:trigger x in r[w]} | w in r && x in r[w]
      ensures 0 <= x < |names'| && w in words(names'[x])
    {
      RenumberedEntrySound(idx, names, words, i, w, x);
    }
  }

  lemma RenumberedEntrySound(idx: Index, names: seq<string>, words: string -> seq<string>, i: int, w: string, x: int)
    requires Sound(idx, names, words) && ListsHaveNoDuplicates(idx) && 0 <= i < |names|
    requires w in RemoveFromKeywordIndexEverywhere(idx, i) && x in RemoveFromKeywordIndexEverywhere(idx, i)[w]
    ensures 0 <= x < |names| - 1 && w in words((names[..i] + names[i + 1..])[x])
  {
    var p :| p in idx[w] && p != i && x == Renumber(p, i);
    assert 0 <= p < |names| && w in words(names[p]);
    SkipOneIndex(names, i, p);
  }

  /** Removing position `i` moves the name at every other position `p` to `Renumber(p, i)`. */
  lemma SkipOneIndex(names: seq<string>, i: int, p: int)
    requires 0 <= i < |names| && 0 <= p < |names| && p != i
    ensures 0 <= Renumber(p, i) < |names| - 1 && (names[..i] + names[i + 1..])[Renumber(p, i)] == names[p]
  {
  }

  lemma RenumberingEverywhereKeepsComplete(idx: Index, names: seq<string>, words: string -> seq<string>, i: int)
    requires Complete(idx, names, words) && 0 <= i < |names|
    ensures Complete(RemoveFromKeywordIndexEverywhere(idx, i), names[..i] + names[i + 1..], words)
  {
    var names' := names[..i] + names[i + 1..];
    forall x, w {:trigger w in words(names'[x])} | 0 <= x < |names'| && w in words(names'[x])
      ensures w in RemoveFromKeywordIndexEverywhere(idx, i) && x in RemoveFromKeywordIndexEverywhere(idx, i)[w]
    {
      RenumberedEntryComplete(idx, names, words, i, x, w);
    }
  }

  lemma RenumberedEntryComplete(idx: Index, names: seq<string>, words: string -> seq<string>, i: int, x: int, w: string)
    requires Complete(idx, names, words) && 0 <= i < |names|
    requires 0 <= x < |names| - 1 && w in words((names[..i] + names[i + 1..])[x])
    ensures w in RemoveFromKeywordIndexEverywhere(idx, i) && x in RemoveFromKeywordIndexEverywhere(idx, i)[w]
  {
    var p := if x < i then x else x + 1;
    assert (names[..i] + names[i + 1..])[x] == names[p];
    assert w in words(names[p]);
    assert Renumber(p, i) == x;
  }
}

=== FILE: numerals.dfy ===
/** `Integer.parseInt` and `Integer.toString` on decimal ASCII digits, within
    Java's 32-bit `int` range. */
module Numerals {
  import opened Wrappers

  const INT_MIN: int := -0x8000_0000
  const INT_MAX: int := 0x7fff_ffff

  predicate IsDigit(c: char)
  {
    '0' <= c <= '9'
  }

  predicate AllDigits(s: string)
  {
    forall i :: 0 <= i < |s| ==> IsDigit(s[i])
  }

  function DigitValue(c: char): nat
    requires IsDigit(c)
  {
    c as int - '0' as int
  }

  function DigitChar(d: nat): (c: char)
    requires d < 10
    ensures IsDigit(c) && DigitValue(c) == d
  {
    ('0' as int + d) as char
  }

  /** The value of a run of decimal digits, most significant first. */
  function DigitsValue(s: string): nat
    requires AllDigits(s)
    decreases |s|
  {
    if |s| == 0 then 0 else DigitsValue(s[..|s| - 1]) * 10 + DigitValue(s[|s| - 1])
  }

  /** The decimal digits of a natural number, without leading zeros; reading
      them back gives the number. */
  function FormatNat(n: nat): (r: string)
    ensures r != [] && AllDigits(r)
    ensures DigitsValue(r) == n
    decreases n
  {
    if n < 10 then [DigitChar(n)]
    else
      var r := FormatNat(n / 10) + [DigitChar(n % 10)];
      assert r[..|r| - 1] == FormatNat(n / 10);
      r
  }

  /** `Integer.toString`: a minus sign for negative numbers, then the digits. */
  function FormatInt(n: int): (r: string)
    ensures r != []
    ensures forall i :: 0 <= i < |r| ==> IsDigit(r[i]) || (i == 0 && r[i] == '-')
    ensures r[0] == '-' <==> n < 0
  {
    if n < 0 then "-" + FormatNat(-n) else FormatNat(n)
  }

  /** `Integer.parseInt`: an optional `-` or `+`, then at least one decimal digit,
      and a value inside the 32-bit range; anything else is a
      `NumberFormatException`, here `None`. */
  function ParseInt(s: string): (r: Option<int>)
    ensures r.Some? ==> INT_MIN <= r.value <= INT_MAX
    ensures r.Some? ==> s != [] && (IsDigit(s[0]) || s[0] == '-' || s[0] == '+')
    ensures s == [] || s == "-" || s == "+" ==> r == None
  {
    if |s| == 0 then None
    else
      var digits := if s[0] == '-' || s[0] == '+' then s[1..] else s;
      if |digits| == 0 || !AllDigits(digits) then None
      else
        var magnitude: int := DigitsValue(digits);
        var v := if s[0] == '-' then -magnitude else magnitude;
        if INT_MIN <= v <= INT_MAX then Some(v) else None
  }

  /** Every 32-bit integer survives `Integer.toString` followed by `Integer.parseInt`. */
  lemma ParseFormatRoundTrip(n: int)
    requires INT_MIN <= n <= INT_MAX
    ensures ParseInt(FormatInt(n)) == Some(n)
  {
    var s := FormatInt(n);
    if n < 0 {
      assert s[1..] == FormatNat(-n);
    } else {
      assert IsDigit(s[0]);
    }
  }
}

=== FILE: portfolio.dfy ===
/** The ledger of `Portfolio`. Java keeps the investment list and the keyword
    index in two static fields and mutates them in place; here they travel
    together as one `Ledger` value and every operation returns the new ledger
    alongside its answer. Messages that Java builds for display are replaced
    by the structured outcome they report. */
module Portfolio {
  import opened Wrappers
  import opened Text
  import opened Numerals
  import opened Investments
  import opened KeywordIndex

  datatype Ledger = Ledger(investments: seq<Investment>, index: Index)

  const EMPTY_LEDGER: Ledger := Ledger([], map[])

  /** Every way a ledger operation can refuse or throw. */
  datatype LedgerError =
    | InvalidType(typeName: string)
    | CreateFailed(reason: CreateError)
    | TypeConflict(symbol: string)
    | NotFound(symbol: string)
    | InsufficientQuantity(requested: int, held: int)
    | NoInvestment
    | NoKeywords
    | KeywordMissing(keyword: string)
    | PositionOutOfRange(position: int)

  // ---------------------------------------------------------------------------
  // Lookups
  // ---------------------------------------------------------------------------

  function FindFrom(invs: seq<Investment>, symbol: string, from: nat): (r: int)
    requires from <= |invs|
    ensures r == -1 || from <= r < |invs|
    ensures r == -1 ==> forall i :: from <= i < |invs| ==> invs[i].symbol != symbol
    ensures r != -1 ==> invs[r].symbol == symbol && forall i :: from <= i < r ==> invs[i].symbol != symbol
    decreases |invs| - from
  {
    if from == |invs| then -1
    else if invs[from].symbol == symbol then from
    else FindFrom(invs, symbol, from + 1)
  }

  /** `findInvestment`: the least position whose symbol equals `symbol`, or -1
      when there is none. */
  function FindInvestment(invs: seq<Investment>, symbol: string): (r: int)
    ensures -1 <= r < |invs|
    ensures r == -1 <==> forall i :: 0 <= i < |invs| ==> invs[i].symbol != symbol
    ensures r != -1 ==> invs[r].symbol == symbol && forall i :: 0 <= i < r ==> invs[i].symbol != symbol
  {
    FindFrom(invs, symbol, 0)
  }

  function IndexOfFrom(invs: seq<Investment>, x: Investment, from: nat): (r: int)
    requires from <= |invs|
    ensures r == -1 || from <= r < |invs|
    ensures r == -1 ==> forall i :: from <= i < |invs| ==> !Equals(invs[i], x)
    ensures r != -1 ==> Equals(invs[r], x) && forall i :: from <= i < r ==> !Equals(invs[i], x)
    decreases |invs| - from
  {
    if from == |invs| then -1
    else if Equals(invs[from], x) then from
    else IndexOfFrom(invs, x, from + 1)
  }

  /** `ArrayList.indexOf`: the least position `equals` to `x`, or -1. */
  function IndexOf(invs: seq<Investment>, x: Investment): (r: int)
    ensures -1 <= r < |invs|
    ensures r == -1 <==> forall i :: 0 <= i < |invs| ==> !Equals(invs[i], x)
    ensures r != -1 ==> Equals(invs[r], x) && forall i :: 0 <= i < r ==> !Equals(invs[i], x)
  {
    IndexOfFrom(invs, x, 0)
  }

  /** In `sell`, `indexOf` of the entry just updated in place finds the position
      `findInvestment` found: `equals` needs equal symbols, and no earlier
      entry has that symbol. */
  lemma IndexOfSoldEqualsFound(invs: seq<Investment>, symbol: string, sold: Investment)
    requires FindInvestment(invs, symbol) != -1
    requires sold.symbol == symbol
    ensures IndexOf(invs[FindInvestment(invs, symbol) := sold], sold) == FindInvestment(invs, symbol)
  {
    var i := FindInvestment(invs, symbol);
    var updated := invs[i := sold];
    assert Equals(updated[i], sold);
    assert forall j :: 0 <= j < i ==> !Equals(updated[j], sold);
  }

  /** Java's `%` on `int`: the remainder takes the sign of the dividend. */
  function JavaRemainder(a: int, b: int): (r: int)
    requires b > 0
    ensures a >= 0 ==> r == a % b
    ensures a < 0 ==> -b < r <= 0 && (r == 0 <==> a % b == 0)
  {
    if a >= 0 then a % b
    else
      NegatedRemainder(-a, b);
      -((-a) % b)
  }

  /** Negating a positive dividend keeps a zero remainder zero and turns a
      nonzero remainder `k` into `b - k`. */
  lemma NegatedRemainder(m: int, b: int)
    requires m > 0 && b > 0
    ensures m % b == 0 <==> (-m) % b == 0
  {
    var q, k := m / b, m % b;
    assert m == q * b + k;
    if k == 0 {
      assert -m == (-q) * b;
      RemainderOfMultiple(-q, b);
    } else {
      assert -m == (-q - 1) * b + (b - k);
      RemainderUnique(-m, b, -q - 1, b - k);
    }
  }

  lemma RemainderOfMultiple(q: int, b: int)
    requires b > 0
    ensures (q * b) % b == 0
  {
    RemainderUnique(q * b, b, q, 0);
  }

  /** Euclidean division has one remainder. */
  lemma RemainderUnique(a: int, b: int, q: int, k: int)
    requires b > 0 && 0 <= k < b && a == q * b + k
    ensures a % b == k
  {
    var q', k' := a / b, a % b;
    assert a == q' * b + k';
    if q > q' {
      MultipleDifference(q, q', b);
    } else if q < q' {
      MultipleDifference(q', q, b);
    }
  }

  lemma MultipleDifference(x: int, y: int, b: int)
    requires x > y && b > 0
    ensures x * b >= y * b + b
    decreases x - y
  {
    if x - 1 > y {
      MultipleDifference(x - 1, y, b);
    }
    assert x * b == (x - 1) * b + b;
  }

  /** `getInvestment(index)`. On an empty list it tries `new Stock("-", "-", 0, 0)`,
      whose quantity check always throws, and returns `null`; otherwise it
      returns element `index % size`, and a negative remainder makes
      `ArrayList.get` throw, which is caught and also gives `null`. */
  function GetInvestment(invs: seq<Investment>, index: int): (r: Option<Investment>)
    ensures r.Some? <==> |invs| > 0 && (index >= 0 || index % |invs| == 0)
    ensures r.Some? ==> r.value == invs[index % |invs|]
  {
    if |invs| == 0 then Create(Stock, "-", "-", 0, 0.0).ToOption()
    else
      var k := JavaRemainder(index, |invs|);
      if 0 <= k then Some(invs[k]) else None
  }

  // ---------------------------------------------------------------------------
  // Ledger invariants
  // ---------------------------------------------------------------------------

  ghost predicate SymbolsUnique(invs: seq<Investment>)
  {
    forall i, j :: 0 <= i < j < |invs| ==> invs[i].symbol != invs[j].symbol
  }

  predicate QuantitiesPositive(invs: seq<Investment>)
  {
    forall i :: 0 <= i < |invs| ==> invs[i].quantity > 0
  }

  ghost predicate BookValuesNonNegative(invs: seq<Investment>)
  {
    forall i :: 0 <= i < |invs| ==> invs[i].bookValue >= 0.0
  }

  /** The name at every position. */
  function Names(invs: seq<Investment>): (r: seq<string>)
    ensures |r| == |invs| && forall p :: 0 <= p < |invs| ==> r[p] == invs[p].name
  {
    seq(|invs|, p requires 0 <= p < |invs| => invs[p].name)
  }

  lemma NamesOfAppend(invs: seq<Investment>, inv: Investment)
    ensures Names(invs + [inv]) == Names(invs) + [inv.name]
  {
  }

  lemma NamesOfRenamedNothing(invs: seq<Investment>, i: int, x: Investment)
    requires 0 <= i < |invs| && x.name == invs[i].name
    ensures Names(invs[i := x]) == Names(invs)
  {
  }

  lemma NamesOfDeletion(invs: seq<Investment>, i: int)
    requires 0 <= i < |invs|
    ensures Names(invs[..i] + invs[i + 1..]) == Names(invs)[..i] + Names(invs)[i + 1..]
  {
  }

  /** The index lists exactly the positions whose name holds each word, each once. */
  ghost predicate IndexMatches(l: Ledger)
  {
    Inverts(l.index, Names(l.investments), NameWords)
  }

  ghost predicate Valid(l: Ledger)
  {
    && SymbolsUnique(l.investments)
    && QuantitiesPositive(l.investments)
    && BookValuesNonNegative(l.investments)
    && IndexMatches(l)
  }

  /** Replacing an entry by one with the same symbol and name, a positive
      quantity and a non-negative book value keeps the ledger valid. */
  lemma ReplaceKeepsValid(l: Ledger, i: int, x: Investment)
    requires Valid(l) && 0 <= i < |l.investments|
    requires x.symbol == l.investments[i].symbol && x.name == l.investments[i].name
    requires x.quantity > 0 && x.bookValue >= 0.0
    ensures Valid(Ledger(l.investments[i := x], l.index))
  {
    var invs := l.investments[i := x];
    NamesOfRenamedNothing(l.investments, i, x);
    assert forall p :: 0 <= p < |invs| ==> invs[p].symbol == l.investments[p].symbol;
  }

  /** Appending a new symbol with a positive quantity and a non-negative book
      value, indexed under its own name, keeps the ledger valid. */
  lemma AppendKeepsValid(l: Ledger, inv: Investment)
    requires Valid(l) && FindInvestment(l.investments, inv.symbol) == -1
    requires inv.quantity > 0 && inv.bookValue >= 0.0
    ensures Valid(Append(l, inv, inv.name))
  {
    AppendKeepsIndexMatches(l, inv);
    AppendKeepsEntries(l.investments, inv);
  }

  /** Indexing the appended entry under its own name keeps the index the
      inversion of the names. */
  lemma AppendKeepsIndexMatches(l: Ledger, inv: Investment)
    requires IndexMatches(l)
    ensures IndexMatches(Append(l, inv, inv.name))
  {
    NamesOfAppend(l.investments, inv);
    AddingKeepsInverse(l.index, Names(l.investments), inv.name, NameWords);
  }

  /** Appending a new symbol with a positive quantity and a non-negative book
      value keeps symbols unique, quantities positive and book values non-negative. */
  lemma AppendKeepsEntries(invs: seq<Investment>, inv: Investment)
    requires SymbolsUnique(invs) && QuantitiesPositive(invs) && BookValuesNonNegative(invs)
    requires FindInvestment(invs, inv.symbol) == -1
    requires inv.quantity > 0 && inv.bookValue >= 0.0
    ensures var r := invs + [inv];
      SymbolsUnique(r) && QuantitiesPositive(r) && BookValuesNonNegative(r)
  {
    var r := invs + [inv];
    assert forall i :: 0 <= i < |invs| ==> r[i] == invs[i];
    assert r[|invs|] == inv;
  }

  /** Deleting an entry keeps symbols unique, quantities positive and book
      values non-negative. */
  lemma DeletionKeepsEntries(invs: seq<Investment>, i: int)
    requires SymbolsUnique(invs) && QuantitiesPositive(invs) && BookValuesNonNegative(invs)
    requires 0 <= i < |invs|
    ensures var rest := invs[..i] + invs[i + 1..];
      SymbolsUnique(rest) && QuantitiesPositive(rest) && BookValuesNonNegative(rest)
  {
    var rest := invs[..i] + invs[i + 1..];
    assert forall p :: 0 <= p < |rest| ==> rest[p] == invs[if p < i then p else p + 1];
  }

  // ---------------------------------------------------------------------------
  // buy
  // ---------------------------------------------------------------------------

  /** The type test of `buy` and `readInvestments`: `equalsIgnoreCase` against
      "stock", then against "mutualfund". */
  function ParseKind(typeName: string): (r: Option<Kind>)
    ensures r == Some(Stock) <==> EqualsIgnoreCase(typeName, "stock")
    ensures r == Some(MutualFund) <==> EqualsIgnoreCase(typeName, "mutualfund")
    ensures r == None <==> !EqualsIgnoreCase(typeName, "stock") && !EqualsIgnoreCase(typeName, "mutualfund")
  {
    if EqualsIgnoreCase(typeName, "stock") then Some(Stock)
    else if EqualsIgnoreCase(typeName, "mutualfund") then Some(MutualFund)
    else None
  }

  /** Appends `inv` and indexes the words of `indexedName` at its new position:
      the common tail of a first purchase and of a loaded record. */
  function Append(l: Ledger, inv: Investment, indexedName: string): Ledger
  {
    Ledger(l.investments + [inv], AddToKeywordIndex(l.index, NameWords(indexedName), |l.investments|))
  }

  /** What a successful `buy` did, and at which position. */
  datatype Purchase = Merged(position: nat) | Opened(position: nat)

  /** `buy(type, symbol, name, quantity, price)`. The candidate is built, and so
      validated, before the symbol is looked up; a held symbol of the same kind
      is merged into, one of the other kind is refused, and a new symbol is
      appended and indexed. Every refusal leaves the ledger as it was. */
  function Buy(l: Ledger, typeName: string, symbol: string, name: string, quantity: int, price: real)
    : (r: (Ledger, Result<Purchase, LedgerError>))
    ensures r.1.Failure? ==> r.0 == l
    ensures r.1 == Failure(InvalidType(typeName)) <==> ParseKind(typeName) == None
    ensures (r.1.Failure? && r.1.error.CreateFailed?) <==>
      ParseKind(typeName).Some? && Create(ParseKind(typeName).value, symbol, name, quantity, price).Failure?
    ensures r.1.Failure? && r.1.error.CreateFailed? ==>
      r.1.error.reason == Create(ParseKind(typeName).value, symbol, name, quantity, price).error
    ensures r.1 == Failure(TypeConflict(symbol)) <==>
      && ParseKind(typeName).Some?
      && Create(ParseKind(typeName).value, symbol, name, quantity, price).Success?
      && FindInvestment(l.investments, symbol) != -1
      && l.investments[FindInvestment(l.investments, symbol)].kind != ParseKind(typeName).value
    ensures r.1.Success? <==>
      && ParseKind(typeName).Some?
      && Create(ParseKind(typeName).value, symbol, name, quantity, price).Success?
      && (FindInvestment(l.investments, symbol) == -1
          || l.investments[FindInvestment(l.investments, symbol)].kind == ParseKind(typeName).value)
    ensures r.1.Failure? ==> r.1.error.InvalidType? || r.1.error.CreateFailed? || r.1.error.TypeConflict?
  {
    match ParseKind(typeName)
    case None => (l, Failure(InvalidType(typeName)))
    case Some(kind) =>
      match Create(kind, symbol, name, quantity, price)
      case Failure(e) => (l, Failure(CreateFailed(e)))
      case Success(candidate) => Acquire(l, candidate)
  }

  /** The part of `buy` after validation: merge into the held entry of the
      same symbol, refuse one of the other kind, or append a new entry. Only
      the kind conflict is refused, and afterwards the symbol is held. */
  function Acquire(l: Ledger, candidate: Investment): (r: (Ledger, Result<Purchase, LedgerError>))
    ensures r.1.Failure? <==>
      FindInvestment(l.investments, candidate.symbol) != -1
      && l.investments[FindInvestment(l.investments, candidate.symbol)].kind != candidate.kind
    ensures r.1.Failure? ==> r.0 == l && r.1.error == TypeConflict(candidate.symbol)
    ensures r.1.Success? ==> FindInvestment(r.0.investments, candidate.symbol) != -1
    ensures r.1.Success? ==> |r.0.investments| == |l.investments| + (if r.1.value.Opened? then 1 else 0)
  {
    var i := FindInvestment(l.investments, candidate.symbol);
    if i != -1 then
      var held := l.investments[i];
      if held.kind != candidate.kind then (l, Failure(TypeConflict(candidate.symbol)))
      else
        var merged := CalculateBookValue(SetPrice(SetQuantity(held, candidate.quantity + held.quantity), candidate.price), candidate.quantity, candidate.price);
        FoundWhenHeld(l.investments[i := merged], i, candidate.symbol);
        (l.(investments := l.investments[i := merged]), Success(Merged(i)))
    else
      var added := CalculateBookValue(candidate, candidate.quantity, candidate.price);
      FoundWhenHeld(l.investments + [added], |l.investments|, candidate.symbol);
      (Append(l, added, candidate.name), Success(Opened(|l.investments|)))
  }

  /** A symbol held at some position is found. */
  lemma FoundWhenHeld(invs: seq<Investment>, j: int, symbol: string)
    requires 0 <= j < |invs| && invs[j].symbol == symbol
    ensures FindInvestment(invs, symbol) != -1
  {
  }

  /** A purchase of a held symbol of the same kind updates that entry in place:
      more units, the new price, the purchase cost (and a stock's commission)
      added to book value; nothing else changes. */
  lemma BuyMergesIntoHeld(l: Ledger, typeName: string, symbol: string, name: string, quantity: int, price: real)
    requires ParseKind(typeName).Some? && Create(ParseKind(typeName).value, symbol, name, quantity, price).Success?
    requires FindInvestment(l.investments, symbol) != -1
    requires l.investments[FindInvestment(l.investments, symbol)].kind == ParseKind(typeName).value
    ensures var r := Buy(l, typeName, symbol, name, quantity, price);
      var i := FindInvestment(l.investments, symbol);
      var held, now := l.investments[i], r.0.investments[i];
      && r.1.value == Merged(i)
      && r.0 == Ledger(l.investments[i := now], l.index)
      && now.kind == held.kind == ParseKind(typeName).value
      && now.symbol == held.symbol && now.name == held.name
      && now.quantity == held.quantity + quantity
      && now.price == price
      && now.bookValue == held.bookValue + quantity as real * price + PurchaseFee(held.kind)
  {
  }

  /** A purchase of a new symbol appends it, with its purchase cost as book
      value, and indexes the words of its name at the new last position. */
  lemma BuyOpensNewEntry(l: Ledger, typeName: string, symbol: string, name: string, quantity: int, price: real)
    requires ParseKind(typeName).Some? && Create(ParseKind(typeName).value, symbol, name, quantity, price).Success?
    requires FindInvestment(l.investments, symbol) == -1
    ensures var r := Buy(l, typeName, symbol, name, quantity, price);
      var kind := ParseKind(typeName).value;
      && r.1.value == Opened(|l.investments|)
      && r.0 == Append(l, Investment(kind, symbol, name, quantity, price, quantity as real * price + PurchaseFee(kind)), name)
  {
  }

  /** Whatever it does, `buy` keeps the ledger valid; in particular it never
      creates a second entry for a held symbol. */
  lemma BuyPreservesValid(l: Ledger, typeName: string, symbol: string, name: string, quantity: int, price: real)
    requires Valid(l)
    ensures Valid(Buy(l, typeName, symbol, name, quantity, price).0)
  {
    var r := Buy(l, typeName, symbol, name, quantity, price);
    if r.1.Success? {
      var kind := ParseKind(typeName).value;
      assert quantity > 0 && price > 0.0;
      PositiveCost(kind, quantity, price);
      var i := FindInvestment(l.investments, symbol);
      if i != -1 {
        BuyMergesIntoHeld(l, typeName, symbol, name, quantity, price);
        ReplaceKeepsValid(l, i, r.0.investments[i]);
      } else {
        BuyOpensNewEntry(l, typeName, symbol, name, quantity, price);
        var inv := Investment(kind, symbol, name, quantity, price, quantity as real * price + PurchaseFee(kind));
        assert inv.bookValue >= 0.0;
        AppendKeepsValid(l, inv);
      }
    }
  }

  /** A valid purchase costs more than nothing, fee included. */
  lemma PositiveCost(kind: Kind, quantity: int, price: real)
    requires quantity > 0 && price > 0.0
    ensures quantity as real * price > 0.0
    ensures quantity as real * price + PurchaseFee(kind) > 0.0
  {
  }

  /** Validation comes first: even a purchase that would merge into a held
      symbol is refused when the name is empty. */
  lemma BuyValidatesBeforeLookup(l: Ledger, typeName: string, symbol: string, quantity: int, price: real)
    requires ParseKind(typeName).Some? && symbol != ""
    requires FindInvestment(l.investments, symbol) != -1
    ensures Buy(l, typeName, symbol, "", quantity, price) == (l, Failure(CreateFailed(EmptyName)))
  {
  }

  // ---------------------------------------------------------------------------
  // sell
  // ---------------------------------------------------------------------------

  /** What a successful `sell` reports: the proceeds at the new price, and
      whether the entry was deleted. */
  datatype Sale = Sale(proceeds: real, removed: bool)

  /** The entry `sell` leaves at the found position: the new price, `quantity`
      fewer units, book value scaled to the remaining units. */
  function SoldEntry(held: Investment, quantity: int, price: real): Investment
    requires held.quantity != 0
  {
    BValueSellC(SetQuantity(SetPrice(held, price), held.quantity - quantity), held.quantity)
  }

  /** `sell(symbol, quantity, price)`, with the index repair on deletion left as
      a choice: `renumberEverywhere` false is ePortfolio's
      `removeFromkeyWordIndex`, true renumbers every list. An unknown symbol or
      more units than held is refused without effect. ePortfolio's `sell`
      requires nothing of `quantity`: a negative one adds units. */
  function SellWith(l: Ledger, symbol: string, quantity: int, price: real, renumberEverywhere: bool)
    : (r: (Ledger, Result<Sale, LedgerError>))
    requires QuantitiesPositive(l.investments)
    ensures r.1.Failure? ==> r.0 == l
    ensures r.1 == Failure(NotFound(symbol)) <==> FindInvestment(l.investments, symbol) == -1
    ensures FindInvestment(l.investments, symbol) != -1 ==>
      var held := l.investments[FindInvestment(l.investments, symbol)];
      (r.1 == Failure(InsufficientQuantity(quantity, held.quantity)) <==> quantity > held.quantity)
    ensures r.1.Success? ==>
      var i := FindInvestment(l.investments, symbol);
      && 0 <= i < |l.investments|
      && quantity <= l.investments[i].quantity
      && (r.1.value.removed <==> quantity == l.investments[i].quantity)
  {
    var i := FindInvestment(l.investments, symbol);
    if i == -1 then (l, Failure(NotFound(symbol)))
    else
      var held := l.investments[i];
      if held.quantity >= quantity then
        var sold := SoldEntry(held, quantity, price);
        var invs := l.investments[i := sold];
        var receipt := Sale(Payment(sold, quantity), sold.quantity == 0);
        if sold.quantity == 0 then
          IndexOfSoldEqualsFound(l.investments, symbol, sold);
          var position := IndexOf(invs, sold);
          var index := if renumberEverywhere then RemoveFromKeywordIndexEverywhere(l.index, position)
                       else RemoveFromKeywordIndex(l.index, position);
          (Ledger(invs[..i] + invs[i + 1..], index), Success(receipt))
        else
          (Ledger(invs, l.index), Success(receipt))
      else
        (l, Failure(InsufficientQuantity(quantity, held.quantity)))
  }

  /** ePortfolio's `sell`: a deletion repairs the index with
      `removeFromkeyWordIndex` at the found position. Outcome and list are
      those of the corrected sale; only the index can differ. */
  function Sell(l: Ledger, symbol: string, quantity: int, price: real): (r: (Ledger, Result<Sale, LedgerError>))
    requires QuantitiesPositive(l.investments)
    ensures r.1 == SellRenumbered(l, symbol, quantity, price).1
    ensures r.0.investments == SellRenumbered(l, symbol, quantity, price).0.investments
    ensures r.1.Success? && r.1.value.removed ==>
      r.0.index == RemoveFromKeywordIndex(l.index, FindInvestment(l.investments, symbol))
  {
    var r := SellWith(l, symbol, quantity, price, false);
    if r.1.Success? && r.1.value.removed then
      SellingAllDeletes(l, symbol, quantity, price, false);
      r
    else r
  }

  /** `sell` with every list renumbered on deletion. */
  function SellRenumbered(l: Ledger, symbol: string, quantity: int, price: real): (r: (Ledger, Result<Sale, LedgerError>))
    requires QuantitiesPositive(l.investments)
    ensures r.1.Success? && r.1.value.removed ==>
      r.0.index == RemoveFromKeywordIndexEverywhere(l.index, FindInvestment(l.investments, symbol))
  {
    var r := SellWith(l, symbol, quantity, price, true);
    if r.1.Success? && r.1.value.removed then
      SellingAllDeletes(l, symbol, quantity, price, true);
      r
    else r
  }

  /** A sale of every unit held pays `payment(quantity)` at the new price and
      deletes the entry from the list and, by the chosen repair, from the index. */
  lemma SellingAllDeletes(l: Ledger, symbol: string, quantity: int, price: real, renumberEverywhere: bool)
    requires QuantitiesPositive(l.investments)
    requires var r := SellWith(l, symbol, quantity, price, renumberEverywhere);
      r.1.Success? && r.1.value.removed
    ensures var r := SellWith(l, symbol, quantity, price, renumberEverywhere);
      var i := FindInvestment(l.investments, symbol);
      && 0 <= i < |l.investments|
      && quantity == l.investments[i].quantity
      && r.1.value.proceeds == quantity as real * price - SaleFee(l.investments[i].kind)
      && r.0.investments == l.investments[..i] + l.investments[i + 1..]
      && r.0.index == (if renumberEverywhere then RemoveFromKeywordIndexEverywhere(l.index, i)
                       else RemoveFromKeywordIndex(l.index, i))
  {
    var i := FindInvestment(l.investments, symbol);
    var sold := SoldEntry(l.investments[i], quantity, price);
    IndexOfSoldEqualsFound(l.investments, symbol, sold);
    var invs := l.investments[i := sold];
    assert invs[..i] + invs[i + 1..] == l.investments[..i] + l.investments[i + 1..];
  }

  /** A partial sale (or a negative quantity) keeps the entry in place with the
      new price, `quantity` fewer units and book value scaled to the remaining
      units; the index and every other entry are unchanged. */
  lemma SellingPartKeeps(l: Ledger, symbol: string, quantity: int, price: real, renumberEverywhere: bool)
    requires QuantitiesPositive(l.investments)
    requires var r := SellWith(l, symbol, quantity, price, renumberEverywhere);
      r.1.Success? && !r.1.value.removed
    ensures var r := SellWith(l, symbol, quantity, price, renumberEverywhere);
      var i := FindInvestment(l.investments, symbol);
      && 0 <= i < |l.investments|
      && var held := l.investments[i];
         && quantity < held.quantity
         && r.1.value.proceeds == quantity as real * price - SaleFee(held.kind)
         && r.0.index == l.index
         && r.0.investments == l.investments[i := r.0.investments[i]]
         && var now := r.0.investments[i];
            && now.(bookValue := held.bookValue) == held.(quantity := held.quantity - quantity, price := price)
            && now.bookValue * held.quantity as real == held.bookValue * (held.quantity - quantity) as real
  {
  }

  /** Deleting entry `i` together with an index repair that keeps the index
      the inversion of the remaining names keeps the ledger valid. */
  lemma DeletionKeepsValid(l: Ledger, i: int, index: Index)
    requires Valid(l) && 0 <= i < |l.investments|
    requires Inverts(index, Names(l.investments)[..i] + Names(l.investments)[i + 1..], NameWords)
    ensures Valid(Ledger(l.investments[..i] + l.investments[i + 1..], index))
  {
    DeletionKeepsEntries(l.investments, i);
    NamesOfDeletion(l.investments, i);
  }

  /** The entry a sale leaves behind keeps its symbol and name and, unless it
      is about to be deleted, a positive quantity and a non-negative book value. */
  lemma SoldEntryKeepsFields(held: Investment, quantity: int, price: real)
    requires held.quantity > 0 && held.bookValue >= 0.0 && held.quantity >= quantity
    ensures var sold := SoldEntry(held, quantity, price);
      && sold.symbol == held.symbol && sold.name == held.name
      && sold.quantity >= 0 && sold.bookValue >= 0.0
  {
  }

  /** A partial sale keeps the ledger valid, whichever index repair is chosen. */
  lemma SellingPartKeepsValid(l: Ledger, symbol: string, quantity: int, price: real, renumberEverywhere: bool)
    requires Valid(l)
    requires var r := SellWith(l, symbol, quantity, price, renumberEverywhere);
      r.1.Success? && !r.1.value.removed
    ensures Valid(SellWith(l, symbol, quantity, price, renumberEverywhere).0)
  {
    var r := SellWith(l, symbol, quantity, price, renumberEverywhere);
    var i := FindInvestment(l.investments, symbol);
    SellingPartKeeps(l, symbol, quantity, price, renumberEverywhere);
    SoldEntryKeepsFields(l.investments[i], quantity, price);
    assert r.0.investments[i] == SoldEntry(l.investments[i], quantity, price);
    ReplaceKeepsValid(l, i, r.0.investments[i]);
    assert r.0 == Ledger(l.investments[i := r.0.investments[i]], l.index);
  }

  /** `sell` keeps the ledger valid unless it deletes an entry that is not the
      last one; that case is refuted in `Counterexamples.StaleRenumbering`. */
  lemma SellPreservesValid(l: Ledger, symbol: string, quantity: int, price: real)
    requires Valid(l)
    requires var i := FindInvestment(l.investments, symbol);
      i == -1 || i == |l.investments| - 1 || quantity != l.investments[i].quantity
    ensures Valid(Sell(l, symbol, quantity, price).0)
  {
    var r := Sell(l, symbol, quantity, price);
    if r.1.Success? {
      if r.1.value.removed {
        var i := FindInvestment(l.investments, symbol);
        SellingAllDeletes(l, symbol, quantity, price, false);
        LastRemovalKeepsInverse(l.index, Names(l.investments), NameWords);
        assert Names(l.investments)[i + 1..] == [];
        DeletionKeepsValid(l, i, r.0.index);
      } else {
        SellingPartKeepsValid(l, symbol, quantity, price, false);
      }
    }
  }

  /** With every list renumbered, every sale keeps the ledger valid. */
  lemma SellRenumberedPreservesValid(l: Ledger, symbol: string, quantity: int, price: real)
    requires Valid(l)
    ensures Valid(SellRenumbered(l, symbol, quantity, price).0)
  {
    var r := SellRenumbered(l, symbol, quantity, price);
    if r.1.Success? {
      if r.1.value.removed {
        var i := FindInvestment(l.investments, symbol);
        SellingAllDeletes(l, symbol, quantity, price, true);
        RenumberingEverywhereKeepsInverse(l.index, Names(l.investments), NameWords, i);
        DeletionKeepsValid(l, i, r.0.index);
      } else {
        SellingPartKeepsValid(l, symbol, quantity, price, true);
      }
    }
  }

  // ---------------------------------------------------------------------------
  // update, gains, listing
  // ---------------------------------------------------------------------------

  /** `update(getInvestment(index), newPrice)`, as the window calls it: only the
      price of that entry changes. When `getInvestment` gives `null`, `update`
      throws on it and nothing changes. */
  function Update(l: Ledger, index: int, newPrice: real): (r: (Ledger, Result<Investment, LedgerError>))
    ensures r.1 == Failure(NoInvestment) <==> GetInvestment(l.investments, index) == None
    ensures r.1.Failure? ==> r.0 == l
    ensures r.1.Success? ==>
      var k := index % |l.investments|;
      && |l.investments| > 0
      && r.0.index == l.index
      && r.0.investments == l.investments[k := l.investments[k].(price := newPrice)]
      && r.1.value == r.0.investments[k]
  {
    match GetInvestment(l.investments, index)
    case None => (l, Failure(NoInvestment))
    case Some(inv) =>
      var k := index % |l.investments|;
      var updated := SetPrice(inv, newPrice);
      (l.(investments := l.investments[k := updated]), Success(updated))
  }

  lemma UpdatePreservesValid(l: Ledger, index: int, newPrice: real)
    requires Valid(l)
    ensures Valid(Update(l, index, newPrice).0)
  {
    var r := Update(l, index, newPrice);
    if r.1.Success? {
      var k := index % |l.investments|;
      ReplaceKeepsValid(l, k, r.0.investments[k]);
      assert r.0 == Ledger(l.investments[k := r.0.investments[k]], l.index);
    }
  }

  /** `getInvestListSize`: the number of entries held. */
  function GetInvestListSize(l: Ledger): nat
  {
    |l.investments|
  }

  /** How the trades move the list size: opening an entry adds one, selling
      every unit removes one, and a merge, a partial sale, an update or any
      refusal leaves it as it was. */
  lemma ListSizeFollowsTrades(l: Ledger, typeName: string, symbol: string, name: string,
                              quantity: int, price: real, index: int)
    requires QuantitiesPositive(l.investments)
    ensures var b := Buy(l, typeName, symbol, name, quantity, price);
      GetInvestListSize(b.0) == GetInvestListSize(l) + (if b.1.Success? && b.1.value.Opened? then 1 else 0)
    ensures var s := Sell(l, symbol, quantity, price);
      GetInvestListSize(s.0) == GetInvestListSize(l) - (if s.1.Success? && s.1.value.removed then 1 else 0)
    ensures GetInvestListSize(Update(l, index, price).0) == GetInvestListSize(l)
  {
    BuySize(l, typeName, symbol, name, quantity, price);
    SellSize(l, symbol, quantity, price);
  }

  /** Only a purchase that opens an entry changes the list size, by one. */
  lemma BuySize(l: Ledger, typeName: string, symbol: string, name: string, quantity: int, price: real)
    ensures var b := Buy(l, typeName, symbol, name, quantity, price);
      |b.0.investments| == |l.investments| + (if b.1.Success? && b.1.value.Opened? then 1 else 0)
  {
    var b := Buy(l, typeName, symbol, name, quantity, price);
    if b.1.Success? {
      if FindInvestment(l.investments, symbol) == -1 {
        BuyOpensNewEntry(l, typeName, symbol, name, quantity, price);
      } else {
        BuyMergesIntoHeld(l, typeName, symbol, name, quantity, price);
      }
    }
  }

  /** Only a sale that deletes an entry changes the list size, by one. */
  lemma SellSize(l: Ledger, symbol: string, quantity: int, price: real)
    requires QuantitiesPositive(l.investments)
    ensures var s := Sell(l, symbol, quantity, price);
      |s.0.investments| == |l.investments| - (if s.1.Success? && s.1.value.removed then 1 else 0)
  {
    var s := Sell(l, symbol, quantity, price);
    if s.1.Success? {
      if s.1.value.removed {
        SellingAllDeletes(l, symbol, quantity, price, false);
      } else {
        SellingPartKeeps(l, symbol, quantity, price, false);
      }
    }
  }

  /** `getGain`: the gains of all entries added up, in list order. */
  function GetGain(invs: seq<Investment>): real
  {
    if |invs| == 0 then 0.0 else Gain(invs[0]) + GetGain(invs[1..])
  }

  /** The total gain has the sign every entry's gain shares, and is 0 for an
      empty list. */
  lemma {:induction false} GetGainSign(invs: seq<Investment>)
    ensures invs == [] ==> GetGain(invs) == 0.0
    ensures (forall i :: 0 <= i < |invs| ==> Gain(invs[i]) >= 0.0) ==> GetGain(invs) >= 0.0
    ensures (forall i :: 0 <= i < |invs| ==> Gain(invs[i]) <= 0.0) ==> GetGain(invs) <= 0.0
    decreases |invs|
  {
    if |invs| > 0 {
      GetGainSign(invs[1..]);
      assert forall i :: 1 <= i < |invs| ==> invs[1..][i - 1] == invs[i];
    }
  }

  lemma {:induction false} GetGainSplits(a: seq<Investment>, b: seq<Investment>)
    ensures GetGain(a + b) == GetGain(a) + GetGain(b)
  {
    if |a| > 0 {
      assert (a + b)[1..] == a[1..] + b;
      GetGainSplits(a[1..], b);
    } else {
      assert a + b == b;
    }
  }

  /** Replacing one entry moves the total gain by the change in that entry's gain. */
  lemma GainOfReplaced(invs: seq<Investment>, k: int, x: Investment)
    requires 0 <= k < |invs|
    ensures GetGain(invs[k := x]) == GetGain(invs) - Gain(invs[k]) + Gain(x)
  {
    var before := invs[..k];
    var after := invs[k + 1..];
    assert invs == before + [invs[k]] + after;
    assert invs[k := x] == before + [x] + after;
    GetGainSplits(before + [invs[k]], after);
    GetGainSplits(before, [invs[k]]);
    GetGainSplits(before + [x], after);
    GetGainSplits(before, [x]);
  }

  /** Repricing one entry moves the total gain by its quantity times the price change. */
  lemma UpdateMovesTotalGain(l: Ledger, index: int, newPrice: real)
    requires Update(l, index, newPrice).1.Success?
    ensures var k := index % |l.investments|;
      GetGain(Update(l, index, newPrice).0.investments)
        == GetGain(l.investments) + l.investments[k].quantity as real * (newPrice - l.investments[k].price)
  {
    var k := index % |l.investments|;
    GainOfReplaced(l.investments, k, SetPrice(l.investments[k], newPrice));
    GainUnderRepricing(l.investments[k], newPrice);
  }

  /** `getSingleGain` without its text layout: one (symbol, gain) pair per entry, in list order. */
  function GetSingleGain(invs: seq<Investment>): (r: seq<(string, real)>)
    ensures |r| == |invs|
    ensures forall i :: 0 <= i < |invs| ==> r[i].0 == invs[i].symbol
  {
    seq(|invs|, i requires 0 <= i < |invs| => (invs[i].symbol, Gain(invs[i])))
  }

  function SumOfGains(pairs: seq<(string, real)>): real
  {
    if |pairs| == 0 then 0.0 else pairs[0].1 + SumOfGains(pairs[1..])
  }

  /** The per-entry gains add up to the total gain; both are 0 for an empty ledger. */
  lemma {:induction false} SingleGainsAddUpToTotal(invs: seq<Investment>)
    ensures SumOfGains(GetSingleGain(invs)) == GetGain(invs)
  {
    if |invs| > 0 {
      SingleGainsAddUpToTotal(invs[1..]);
      assert GetSingleGain(invs)[1..] == GetSingleGain(invs[1..]);
    }
  }

  function OfKind(invs: seq<Investment>, kind: Kind): (r: seq<Investment>)
    ensures forall x :: x in r ==> x.kind == kind
  {
    if |invs| == 0 then []
    else (if invs[0].kind == kind then [invs[0]] else []) + OfKind(invs[1..], kind)
  }

  /** `a` is `b` with some elements left out, the rest kept in order. */
  predicate IsSubsequence<T(==)>(a: seq<T>, b: seq<T>)
    decreases |b|
  {
    if a == [] then true
    else if b == [] then false
    else (a[0] == b[0] && IsSubsequence(a[1..], b[1..])) || IsSubsequence(a, b[1..])
  }

  /** Filtering by kind keeps the list order. */
  lemma {:induction false} OfKindInOrder(invs: seq<Investment>, kind: Kind)
    ensures IsSubsequence(OfKind(invs, kind), invs)
  {
    if |invs| > 0 {
      OfKindInOrder(invs[1..], kind);
      if invs[0].kind == kind {
        assert OfKind(invs, kind) == [invs[0]] + OfKind(invs[1..], kind);
      } else {
        assert OfKind(invs, kind) == OfKind(invs[1..], kind);
      }
    }
  }

  /** `r` lists stocks before position `k` and funds from it on, each part
      in the order of `invs`. */
  predicate StocksThenFunds(r: seq<Investment>, invs: seq<Investment>, k: int)
  {
    && 0 <= k <= |r|
    && (forall i :: 0 <= i < k ==> r[i].kind == Stock)
    && (forall i :: k <= i < |r| ==> r[i].kind == MutualFund)
    && IsSubsequence(r[..k], invs) && IsSubsequence(r[k..], invs)
  }

  /** `printInvestments` without its text layout: the stocks, then the funds,
      each in list order. */
  function PrintInvestments(invs: seq<Investment>): (r: seq<Investment>)
    ensures multiset(r) == multiset(invs)
    ensures exists k :: StocksThenFunds(r, invs, k)
  {
    KindsPartition(invs);
    StocksBeforeFunds(invs);
    var r := OfKind(invs, Stock) + OfKind(invs, MutualFund);
    assert StocksThenFunds(r, invs, |OfKind(invs, Stock)|);
    r
  }

  lemma StocksBeforeFunds(invs: seq<Investment>)
    ensures var stocks := OfKind(invs, Stock); var r := stocks + OfKind(invs, MutualFund);
      && IsSubsequence(r[..|stocks|], invs) && IsSubsequence(r[|stocks|..], invs)
      && (forall i :: 0 <= i < |stocks| ==> r[i].kind == Stock)
      && (forall i :: |stocks| <= i < |r| ==> r[i].kind == MutualFund)
  {
    var stocks, funds := OfKind(invs, Stock), OfKind(invs, MutualFund);
    assert (stocks + funds)[..|stocks|] == stocks && (stocks + funds)[|stocks|..] == funds;
    OfKindInOrder(invs, Stock);
    OfKindInOrder(invs, MutualFund);
    KindBlocks(stocks, funds);
  }

  /** Stocks followed by funds: every position before the join holds a stock,
      every position from it on a fund. */
  lemma KindBlocks(stocks: seq<Investment>, funds: seq<Investment>)
    requires forall x :: x in stocks ==> x.kind == Stock
    requires forall x :: x in funds ==> x.kind == MutualFund
    ensures forall i :: 0 <= i < |stocks| ==> (stocks + funds)[i].kind == Stock
    ensures forall i :: |stocks| <= i < |stocks + funds| ==> (stocks + funds)[i].kind == MutualFund
  {
    var r := stocks + funds;
    assert forall i :: 0 <= i < |stocks| ==> r[i] == stocks[i] && stocks[i] in stocks;
    assert forall i :: |stocks| <= i < |r| ==> r[i] == funds[i - |stocks|] && funds[i - |stocks|] in funds;
  }

  lemma {:induction false} KindsPartition(invs: seq<Investment>)
    ensures multiset(OfKind(invs, Stock)) + multiset(OfKind(invs, MutualFund)) == multiset(invs)
  {
    if |invs| > 0 {
      KindsPartition(invs[1..]);
      assert invs == [invs[0]] + invs[1..];
    }
  }

  // ---------------------------------------------------------------------------
  // Input checks used by the window before parsing
  // ---------------------------------------------------------------------------

  /** `checkifString`. */
  predicate CheckIfString(s: string, required: bool)
  {
    !(s == "" && required)
  }

  /** `checkifInt`: an empty optional field passes; anything else must parse. */
  predicate CheckIfInt(s: string, required: bool)
  {
    (s == "" && !required) || ParseInt(s).Some?
  }

  /** `checkIfDouble`, over the abstract `Double.parseDouble`. */
  predicate CheckIfDouble(s: string, required: bool, parseDouble: string -> Option<real>)
  {
    (s == "" && !required) || parseDouble(s).Some?
  }

  /** What the checks accept: a string fails `checkifString` exactly when it is
      empty and required; an empty field passes the numeric checks exactly when
      optional, since neither parser accepts ""; every printed 32-bit integer
      passes `checkifInt`; an unsigned, non-digit start always fails it. */
  lemma InputChecks(s: string, required: bool, n: int, parseDouble: string -> Option<real>)
    requires parseDouble("") == None
    ensures !CheckIfString(s, required) <==> s == "" && required
    ensures CheckIfInt("", required) <==> !required
    ensures CheckIfDouble("", required, parseDouble) <==> !required
    ensures INT_MIN <= n <= INT_MAX ==> CheckIfInt(FormatInt(n), required)
    ensures s != "" && !IsDigit(s[0]) && s[0] != '-' && s[0] != '+' ==> !CheckIfInt(s, required)
  {
    if INT_MIN <= n <= INT_MAX {
      ParseFormatRoundTrip(n);
    }
  }
}

=== FILE: search.dfy ===
/** `search(symbol, keywordString, priceLow, priceHigh)`: the positions listed
    under every keyword, filtered by symbol and price. Java intersects the
    keywords in place inside the index's own list for the first keyword, so a
    search returns the index it leaves behind together with its answer. The
    answer is the list of matching investments; the text Java builds from
    their `toString` is not modelled. */
module Search {
  import opened Wrappers
  import opened Text
  import opened Numerals
  import opened Investments
  import opened KeywordIndex
  import opened Portfolio

  /** A lower bound of -1 means none: 0. */
  function LowBound(priceLow: real): real
  {
    if priceLow == -1.0 then 0.0 else priceLow
  }

  /** An upper bound of -1 means none: `Integer.MAX_VALUE`. */
  function HighBound(priceHigh: real): real
  {
    if priceHigh == -1.0 then INT_MAX as real else priceHigh
  }

  /** The test applied to each candidate: an empty symbol accepts any symbol,
      and the price must lie within the bounds. */
  predicate Matches(inv: Investment, symbol: string, low: real, high: real)
  {
    (symbol == "" || inv.symbol == symbol) && low <= inv.price <= high
  }

  /** The investments, in list order, that pass the symbol and price test. */
  function Filter(invs: seq<Investment>, symbol: string, low: real, high: real): (r: seq<Investment>)
    ensures forall inv :: inv in r <==> inv in invs && Matches(inv, symbol, low, high)
    ensures |r| <= |invs|
    ensures IsSubsequence(r, invs)
  {
    if invs == [] then []
    else
      var rest := Filter(invs[1..], symbol, low, high);
      assert forall inv :: inv in invs <==> inv == invs[0] || inv in invs[1..];
      if Matches(invs[0], symbol, low, high) then
        assert ([invs[0]] + rest)[1..] == rest;
        [invs[0]] + rest
      else rest
  }

  // ---------------------------------------------------------------------------
  // Intersecting the keyword lists
  // ---------------------------------------------------------------------------

  /** `list.retainAll(other)`: the members of `list` that `other` holds, in order. */
  function Retain(list: seq<int>, other: seq<int>): (r: seq<int>)
    ensures forall x :: x in r <==> x in list && x in other
    ensures |r| <= |list|
    ensures IsSubsequence(r, list)
    ensures NoDuplicates(list) ==> NoDuplicates(r)
    ensures Ascending(list) ==> Ascending(r)
  {
    if list == [] then []
    else
      var rest := Retain(list[1..], other);
      assert forall x :: x in list <==> x == list[0] || x in list[1..];
      if list[0] in other then
        assert NoDuplicates(list) ==> list[0] !in list[1..];
        assert ([list[0]] + rest)[1..] == rest;
        assert Ascending(list) ==> forall i :: 0 <= i < |rest| ==> list[0] < rest[i] by {
          if Ascending(list) {
            forall i | 0 <= i < |rest| ensures list[0] < rest[i] {
              assert rest[i] in list[1..];
            }
          }
        }
        [list[0]] + rest
      else rest
  }

  /** Every key is indexed and lists `x`. */
  ghost predicate ListedUnderAll(idx: Index, keys: seq<string>, x: int)
  {
    forall j :: 0 <= j < |keys| ==> keys[j] in idx && x in idx[keys[j]]
  }

  /** The loop over the keywords after the first: the list stored under
      `first` is narrowed in place to the positions every later key lists,
      and the first key missing from the index throws, keeping the narrowing
      done so far. No other list changes. */
  function Intersect(idx: Index, first: string, keys: seq<string>): (r: (Index, Result<seq<int>, string>))
    requires first in idx
    ensures r.0.Keys == idx.Keys
    ensures forall w :: w in idx && w != first ==> r.0[w] == idx[w]
    ensures forall x :: x in r.0[first] ==> x in idx[first]
    ensures r.1.Success? <==> forall j :: 0 <= j < |keys| ==> keys[j] in idx
    ensures r.1.Failure? ==> r.1.error in keys && r.1.error !in idx
    ensures r.1.Success? ==> r.1.value == r.0[first]
    ensures r.1.Success? ==> forall x :: x in r.1.value <==> x in idx[first] && ListedUnderAll(idx, keys, x)
    ensures Ascending(idx[first]) ==> Ascending(r.0[first])
    decreases |keys|
  {
    if keys == [] then (idx, Success(idx[first]))
    else if keys[0] !in idx then (idx, Failure(keys[0]))
    else
      var narrowed := idx[first := Retain(idx[first], idx[keys[0]])];
      var r := Intersect(narrowed, first, keys[1..]);
      assert forall j :: 1 <= j < |keys| ==> keys[j] == keys[1..][j - 1];
      assert forall x :: x in narrowed[first] && ListedUnderAll(narrowed, keys[1..], x)
                    <==> x in idx[first] && ListedUnderAll(idx, keys, x) by {
        forall x {
          ListedAfterNarrowing(idx, first, keys, x);
        }
      }
      r
  }

  /** One narrowing step neither adds nor loses a position that the whole
      sequence of keys lists. */
  lemma ListedAfterNarrowing(idx: Index, first: string, keys: seq<string>, x: int)
    requires first in idx && keys != [] && keys[0] in idx
    ensures var narrowed := idx[first := Retain(idx[first], idx[keys[0]])];
      x in narrowed[first] && ListedUnderAll(narrowed, keys[1..], x)
      <==> x in idx[first] && ListedUnderAll(idx, keys, x)
  {
    var narrowed := idx[first := Retain(idx[first], idx[keys[0]])];
    if x in idx[first] && ListedUnderAll(idx, keys, x) {
      forall j | 0 <= j < |keys[1..]|
        ensures keys[1..][j] in narrowed && x in narrowed[keys[1..][j]]
      {
        assert keys[1..][j] == keys[j + 1];
      }
    }
    if x in narrowed[first] && ListedUnderAll(narrowed, keys[1..], x) {
      forall j | 0 <= j < |keys|
        ensures keys[j] in idx && x in idx[keys[j]]
      {
        if j > 0 {
          assert keys[j] == keys[1..][j - 1];
        }
      }
    }
  }

  // ---------------------------------------------------------------------------
  // Reading the candidates
  // ---------------------------------------------------------------------------

  /** The loop over the candidate positions: each is read from the list, which
      throws for a position past the end, and kept when it passes the test. */
  function Collect(invs: seq<Investment>, positions: seq<int>, symbol: string, low: real, high: real)
    : (r: Result<seq<Investment>, LedgerError>)
    ensures r.Success? <==> forall j :: 0 <= j < |positions| ==> 0 <= positions[j] < |invs|
    ensures r.Failure? ==>
      && r.error.PositionOutOfRange?
      && r.error.position in positions
      && !(0 <= r.error.position < |invs|)
    ensures r.Success? ==> forall inv :: inv in r.value ==>
      Matches(inv, symbol, low, high) && exists p :: p in positions && 0 <= p < |invs| && invs[p] == inv
    ensures r.Success? ==> forall p ::
      p in positions && 0 <= p < |invs| && Matches(invs[p], symbol, low, high) ==> invs[p] in r.value
  {
    if positions == [] then Success([])
    else
      var p := positions[0];
      assert forall x :: x in positions <==> x == p || x in positions[1..];
      if !(0 <= p < |invs|) then Failure(PositionOutOfRange(p))
      else
        var rest := Collect(invs, positions[1..], symbol, low, high);
        assert forall j :: 1 <= j < |positions| ==> positions[j] == positions[1..][j - 1];
        if rest.Failure? then rest
        else if Matches(invs[p], symbol, low, high) then Success([invs[p]] + rest.value)
        else rest
  }

  /** Reading every position from `from` on, in order, is filtering the tail
      of the list. */
  lemma {:induction false} CollectRange(invs: seq<Investment>, from: nat, symbol: string, low: real, high: real)
    requires from <= |invs|
    ensures Collect(invs, seq(|invs| - from, i => from + i), symbol, low, high)
      == Success(Filter(invs[from..], symbol, low, high))
    decreases |invs| - from
  {
    if from < |invs| {
      var ps := seq(|invs| - from, i => from + i);
      assert ps != [] && ps[0] == from;
      assert ps[1..] == seq(|invs| - (from + 1), i => from + 1 + i);
      CollectRange(invs, from + 1, symbol, low, high);
      var tail := invs[from..];
      assert tail != [] && tail[0] == invs[from] && tail[1..] == invs[from + 1..];
    }
  }

  // ---------------------------------------------------------------------------
  // search
  // ---------------------------------------------------------------------------

  /** The lookup key of every keyword, in order. */
  function CleanAll(words: seq<string>): (r: seq<string>)
    ensures |r| == |words| && forall i :: 0 <= i < |words| ==> r[i] == CleanInput(words[i])
  {
    seq(|words|, i requires 0 <= i < |words| => CleanInput(words[i]))
  }

  /** `search`. An empty keyword string reads every position in order. Otherwise
      the string is split on single spaces: none left (only spaces) throws,
      a first key missing from the index throws, and the list stored under the
      first key is narrowed in place by every later key, a missing one
      throwing. The surviving positions are then read and filtered. Whatever
      happens, the narrowing done so far stays in the index. */
  function Search(l: Ledger, symbol: string, keywordString: string, priceLow: real, priceHigh: real)
    : (r: (Index, Result<seq<Investment>, LedgerError>))
    ensures keywordString == "" ==>
      && r.0 == l.index
      && r.1.Success?
      && forall inv :: inv in r.1.value <==> inv in l.investments && Matches(inv, symbol, LowBound(priceLow), HighBound(priceHigh))
    ensures r.1 == Failure(NoKeywords) <==> keywordString != "" && JavaSplit(keywordString, ' ') == []
    ensures r.1.Failure? && r.1.error.KeywordMissing? ==>
      r.1.error.keyword !in l.index && r.1.error.keyword in CleanAll(JavaSplit(keywordString, ' '))
    ensures r.1.Success? ==> forall inv :: inv in r.1.value ==>
      inv in l.investments && Matches(inv, symbol, LowBound(priceLow), HighBound(priceHigh))
    ensures r.0.Keys == l.index.Keys
    ensures forall w, x :: w in l.index && x in r.0[w] ==> x in l.index[w]
    ensures forall w :: w in l.index && r.0[w] != l.index[w] ==>
      keywordString != "" && JavaSplit(keywordString, ' ') != [] && w == CleanInput(JavaSplit(keywordString, ' ')[0])
  {
    var words := JavaSplit(keywordString, ' ');
    var low := LowBound(priceLow);
    var high := HighBound(priceHigh);
    if keywordString == "" then
      var all := Collect(l.investments, seq(|l.investments| - 0, i => 0 + i), symbol, low, high);
      assert all == Success(Filter(l.investments, symbol, low, high)) by {
        CollectRange(l.investments, 0, symbol, low, high);
        assert l.investments[0..] == l.investments;
      }
      (l.index, all)
    else if words == [] then (l.index, Failure(NoKeywords))
    else
      var keys := CleanAll(words);
      if keys[0] !in l.index then (l.index, Failure(KeywordMissing(keys[0])))
      else
        var narrowed := Intersect(l.index, keys[0], keys[1..]);
        assert forall j :: 0 <= j < |keys[1..]| ==> keys[1..][j] in keys;
        match narrowed.1
        case Failure(key) => (narrowed.0, Failure(KeywordMissing(key)))
        case Success(positions) => (narrowed.0, Collect(l.investments, positions, symbol, low, high))
  }

  /** With no keywords, `search` is the symbol-and-price filter of the whole
      list, in list order, and leaves the index alone. */
  lemma SearchWithoutKeywords(l: Ledger, symbol: string, priceLow: real, priceHigh: real)
    ensures Search(l, symbol, "", priceLow, priceHigh)
      == (l.index, Success(Filter(l.investments, symbol, LowBound(priceLow), HighBound(priceHigh))))
  {
    CollectRange(l.investments, 0, symbol, LowBound(priceLow), HighBound(priceHigh));
    assert l.investments[0..] == l.investments;
  }

  /** A keyword string made only of spaces splits into nothing, and `search`
      throws reading the first keyword. */
  lemma SearchOnlySpaces(l: Ledger, symbol: string, keywordString: string, priceLow: real, priceHigh: real)
    requires keywordString != "" && forall i :: 0 <= i < |keywordString| ==> keywordString[i] == ' '
    ensures Search(l, symbol, keywordString, priceLow, priceHigh) == (l.index, Failure(NoKeywords))
  {
    SplitOnlySeparators(keywordString, ' ');
  }

  /** The lookup keys of a keyword string: none for the empty string, else the
      cleaned words. */
  function Keys(keywordString: string): seq<string>
  {
    if keywordString == "" then [] else CleanAll(JavaSplit(keywordString, ' '))
  }

  /** Every key is one of the words the name is indexed under. */
  predicate HoldsAll(name: string, keys: seq<string>)
  {
    forall j :: 0 <= j < |keys| ==> keys[j] in NameWords(name)
  }

  /** In a valid ledger, a word lists a position exactly when the name there
      holds the word. */
  lemma ListedIffWord(l: Ledger, w: string, p: int)
    requires Valid(l) && 0 <= p < |l.investments|
    ensures (w in l.index && p in l.index[w]) <==> w in NameWords(l.investments[p].name)
  {
    var names := Names(l.investments);
    assert names[p] == l.investments[p].name;
    if w in NameWords(names[p]) {
      assert w in l.index && p in l.index[w];
    }
  }

  /** The answer a search should give: the investments, in ledger order, whose
      name holds every key and that pass the symbol and price test. */
  function Chosen(invs: seq<Investment>, keys: seq<string>, symbol: string, low: real, high: real): (r: seq<Investment>)
    ensures IsSubsequence(r, invs)
  {
    if invs == [] then []
    else
      var rest := Chosen(invs[1..], keys, symbol, low, high);
      if HoldsAll(invs[0].name, keys) && Matches(invs[0], symbol, low, high) then
        assert ([invs[0]] + rest)[1..] == rest;
        [invs[0]] + rest
      else rest
  }

  /** With no keys, the reference answer is the symbol-and-price filter. */
  lemma {:induction false} ChosenWithoutKeys(invs: seq<Investment>, symbol: string, low: real, high: real)
    ensures Chosen(invs, [], symbol, low, high) == Filter(invs, symbol, low, high)
  {
    if invs != [] {
      ChosenWithoutKeys(invs[1..], symbol, low, high);
    }
  }

  /** Reading ascending positions that are exactly the positions from `from`
      on whose name holds every key answers the reference answer for the
      tail of the list. */
  lemma {:induction false} CollectAscending(invs: seq<Investment>, positions: seq<int>, from: nat,
                                            keys: seq<string>, symbol: string, low: real, high: real)
    requires from <= |invs| && Ascending(positions)
    requires forall x :: x in positions <==> from <= x < |invs| && HoldsAll(invs[x].name, keys)
    ensures Collect(invs, positions, symbol, low, high) == Success(Chosen(invs[from..], keys, symbol, low, high))
    decreases |invs| - from
  {
    var tail := invs[from..];
    if from == |invs| {
      NonEmptyHasFirst(positions);
    } else {
      assert tail[0] == invs[from] && tail[1..] == invs[from + 1..];
      if HoldsAll(invs[from].name, keys) {
        LeastFirst(positions, from);
        CollectAscending(invs, positions[1..], from + 1, keys, symbol, low, high);
      } else {
        CollectAscending(invs, positions, from + 1, keys, symbol, low, high);
      }
    }
  }

  lemma NonEmptyHasFirst(s: seq<int>)
    ensures s == [] || s[0] in s
  {
  }

  /** In an ascending list holding `least` and nothing below it, `least`
      comes first and the rest are the others. */
  lemma LeastFirst(positions: seq<int>, least: int)
    requires Ascending(positions) && least in positions
    requires forall x :: x in positions ==> least <= x
    ensures positions[0] == least
    ensures forall x :: x in positions[1..] <==> x in positions && x != least
  {
    var k :| 0 <= k < |positions| && positions[k] == least;
    assert positions[0] in positions;
    assert positions[0] <= positions[k];
    forall x | x in positions[1..]
      ensures x != least
    {
      var j :| 0 <= j < |positions| - 1 && positions[1..][j] == x;
      assert positions[j + 1] == x && positions[0] < positions[j + 1];
    }
    assert positions == [positions[0]] + positions[1..];
  }

  /** On a valid ledger `search` reads no stale position, and it answers with
      exactly the investments whose name holds every keyword and that pass the
      symbol and price test, each once and in ledger order. It can still throw
      for a keyword no name holds. */
  lemma SearchSoundAndComplete(l: Ledger, symbol: string, keywordString: string, priceLow: real, priceHigh: real)
    requires Valid(l)
    ensures var r := Search(l, symbol, keywordString, priceLow, priceHigh);
      r.1.Failure? ==> r.1.error == NoKeywords || r.1.error.KeywordMissing?
    ensures var r := Search(l, symbol, keywordString, priceLow, priceHigh);
      r.1.Success? ==> forall p :: 0 <= p < |l.investments| ==>
        (l.investments[p] in r.1.value <==>
         HoldsAll(l.investments[p].name, Keys(keywordString))
         && Matches(l.investments[p], symbol, LowBound(priceLow), HighBound(priceHigh)))
    ensures var r := Search(l, symbol, keywordString, priceLow, priceHigh);
      r.1.Success? ==>
        r.1.value == Chosen(l.investments, Keys(keywordString), symbol, LowBound(priceLow), HighBound(priceHigh))
  {
    SearchInLedgerOrder(l, symbol, keywordString, priceLow, priceHigh);
    var invs := l.investments;
    var low, high := LowBound(priceLow), HighBound(priceHigh);
    var words := JavaSplit(keywordString, ' ');
    if keywordString == "" {
      SearchWithoutKeywords(l, symbol, priceLow, priceHigh);
    } else if words != [] {
      var keys := CleanAll(words);
      if keys[0] in l.index {
        var narrowed := Intersect(l.index, keys[0], keys[1..]);
        if narrowed.1.Success? {
          var positions := narrowed.1.value;
          forall x | x in positions
            ensures 0 <= x < |invs|
          {
            assert x in l.index[keys[0]];
          }
          var r := Collect(invs, positions, symbol, low, high);
          assert Search(l, symbol, keywordString, priceLow, priceHigh).1 == r;
          forall p | 0 <= p < |invs|
            ensures invs[p] in r.value <==> HoldsAll(invs[p].name, keys) && Matches(invs[p], symbol, low, high)
          {
            var name := invs[p].name;
            forall j | 0 <= j < |keys|
              ensures (keys[j] in l.index && p in l.index[keys[j]]) <==> keys[j] in NameWords(name)
            {
              ListedIffWord(l, keys[j], p);
            }
            PositionListedIffHolds(l.index, keys, positions, p, NameWords(name));
            if invs[p] in r.value {
              var q :| q in positions && 0 <= q < |invs| && invs[q] == invs[p];
              assert q == p;
            }
          }
        }
      }
    }
  }

  /** A successful search answers the reference answer. */
  lemma SearchInLedgerOrder(l: Ledger, symbol: string, keywordString: string, priceLow: real, priceHigh: real)
    requires Valid(l)
    ensures var r := Search(l, symbol, keywordString, priceLow, priceHigh);
      r.1.Success? ==>
        r.1.value == Chosen(l.investments, Keys(keywordString), symbol, LowBound(priceLow), HighBound(priceHigh))
  {
    var invs := l.investments;
    var low, high := LowBound(priceLow), HighBound(priceHigh);
    var words := JavaSplit(keywordString, ' ');
    if keywordString == "" {
      SearchWithoutKeywords(l, symbol, priceLow, priceHigh);
      ChosenWithoutKeys(invs, symbol, low, high);
    } else if words != [] {
      var keys := CleanAll(words);
      if keys[0] in l.index {
        var narrowed := Intersect(l.index, keys[0], keys[1..]);
        if narrowed.1.Success? {
          var positions := narrowed.1.value;
          assert Ascending(positions);
          forall x
            ensures x in positions <==> 0 <= x < |invs| && HoldsAll(invs[x].name, keys)
          {
            PositionHoldsAll(l, keys, positions, x);
          }
          CollectAscending(invs, positions, 0, keys, symbol, low, high);
          assert invs[0..] == invs;
        }
      }
    }
  }

  /** The intersection keeps exactly the positions whose name holds every key. */
  lemma PositionHoldsAll(l: Ledger, keys: seq<string>, positions: seq<int>, x: int)
    requires Valid(l) && keys != [] && keys[0] in l.index
    requires forall y :: y in positions <==> y in l.index[keys[0]] && ListedUnderAll(l.index, keys[1..], y)
    ensures x in positions <==> 0 <= x < |l.investments| && HoldsAll(l.investments[x].name, keys)
  {
    if x in positions {
      assert x in l.index[keys[0]];
    }
    if 0 <= x < |l.investments| {
      var name := l.investments[x].name;
      forall j | 0 <= j < |keys|
        ensures (keys[j] in l.index && x in l.index[keys[j]]) <==> keys[j] in NameWords(name)
      {
        ListedIffWord(l, keys[j], x);
      }
      PositionListedIffHolds(l.index, keys, positions, x, NameWords(name));
    }
  }

  /** A position survives the intersection exactly when every key is among
      `words`, given that each key lists the position exactly when it is one
      of `words`. */
  lemma PositionListedIffHolds(idx: Index, keys: seq<string>, positions: seq<int>, p: int, words: seq<string>)
    requires keys != [] && keys[0] in idx
    requires forall x :: x in positions <==> x in idx[keys[0]] && ListedUnderAll(idx, keys[1..], x)
    requires forall j :: 0 <= j < |keys| ==> ((keys[j] in idx && p in idx[keys[j]]) <==> keys[j] in words)
    ensures p in positions <==> forall j :: 0 <= j < |keys| ==> keys[j] in words
  {
    if p in positions {
      forall j | 0 <= j < |keys|
        ensures keys[j] in words
      {
        if j > 0 {
          assert keys[j] == keys[1..][j - 1];
        }
      }
    }
    if forall j :: 0 <= j < |keys| ==> keys[j] in words {
      assert ListedUnderAll(idx, keys[1..], p) by {
        forall j | 0 <= j < |keys[1..]|
          ensures keys[1..][j] in idx && p in idx[keys[1..][j]]
        {
          assert keys[1..][j] == keys[j + 1];
        }
      }
    }
  }

  // ---------------------------------------------------------------------------
  // search over a copy of the first list
  // ---------------------------------------------------------------------------

  /** The intersection computed on a private copy: `list` narrowed by every
      key's list, the first missing key failing. The index is only read. */
  function Narrow(list: seq<int>, idx: Index, keys: seq<string>): (r: Result<seq<int>, string>)
    ensures r.Failure? ==> r.error in keys && r.error !in idx
    ensures r.Success? ==> forall x :: x in r.value ==> x in list
    decreases |keys|
  {
    if keys == [] then Success(list)
    else if keys[0] !in idx then Failure(keys[0])
    else
      var r := Narrow(Retain(list, idx[keys[0]]), idx, keys[1..]);
      assert r.Failure? ==> r.error in keys[1..];
      r
  }

  /** `search` as evidently intended: the first keyword's list is copied
      before it is narrowed, so the index comes back untouched. */
  function SearchFixed(l: Ledger, symbol: string, keywordString: string, priceLow: real, priceHigh: real)
    : (r: (Index, Result<seq<Investment>, LedgerError>))
    ensures r.0 == l.index
  {
    var words := JavaSplit(keywordString, ' ');
    var low := LowBound(priceLow);
    var high := HighBound(priceHigh);
    if keywordString == "" then
      (l.index, Collect(l.investments, seq(|l.investments| - 0, i => 0 + i), symbol, low, high))
    else if words == [] then (l.index, Failure(NoKeywords))
    else
      var keys := CleanAll(words);
      if keys[0] !in l.index then (l.index, Failure(KeywordMissing(keys[0])))
      else
        match Narrow(l.index[keys[0]], l.index, keys[1..])
        case Failure(key) => (l.index, Failure(KeywordMissing(key)))
        case Success(positions) => (l.index, Collect(l.investments, positions, symbol, low, high))
  }

  /** A list that `other` holds entirely survives `retainAll` unchanged. */
  lemma {:induction false} RetainSubset(list: seq<int>, other: seq<int>)
    requires forall x :: x in list ==> x in other
    ensures Retain(list, other) == list
  {
    if list != [] {
      var x := list[0];
      assert x in list;
      assert x in other;
      RetainSubset(list[1..], other);
      assert Retain(list, other) == [x] + Retain(list[1..], other);
      assert list == [x] + list[1..];
    }
  }

  /** Narrowing in place, however far it has got, gives the same positions
      as narrowing a private copy. */
  lemma {:induction false} IntersectAgrees(orig: Index, idx: Index, first: string, keys: seq<string>)
    requires first in orig && idx.Keys == orig.Keys
    requires forall w :: w in orig && w != first ==> idx[w] == orig[w]
    requires forall x :: x in idx[first] ==> x in orig[first]
    ensures Intersect(idx, first, keys).1 == Narrow(idx[first], orig, keys)
    decreases |keys|
  {
    if keys != [] && keys[0] in orig {
      var k := keys[0];
      if k == first {
        RetainSubset(idx[first], idx[first]);
        RetainSubset(idx[first], orig[first]);
      }
      var narrowed := idx[first := Retain(idx[first], idx[k])];
      assert Retain(idx[first], idx[k]) == Retain(idx[first], orig[k]);
      IntersectAgrees(orig, narrowed, first, keys[1..]);
    }
  }

  /** The fix changes nothing but the index: both versions answer alike, and
      on a valid ledger the fixed one keeps it valid, so its answers stay
      sound and complete search after search. */
  lemma SearchFixedAgrees(l: Ledger, symbol: string, keywordString: string, priceLow: real, priceHigh: real)
    ensures SearchFixed(l, symbol, keywordString, priceLow, priceHigh).1
      == Search(l, symbol, keywordString, priceLow, priceHigh).1
    ensures Valid(l) ==> Valid(Ledger(l.investments, SearchFixed(l, symbol, keywordString, priceLow, priceHigh).0))
  {
    var words := JavaSplit(keywordString, ' ');
    if keywordString != "" && words != [] {
      var keys := CleanAll(words);
      if keys[0] in l.index {
        IntersectAgrees(l.index, l.index, keys[0], keys[1..]);
      }
    }
  }
}

=== FILE: text.dfy ===
/** The `java.lang.String` operations the ledger relies on: ASCII case mapping,
    `trim`, the regular-expression whitespace class `\s`, `replace` of one
    character, and `split` on a one-character separator with Java's rule of
    dropping trailing empty pieces. */
module Text {

  // ---------------------------------------------------------------------------
  // Characters
  // ---------------------------------------------------------------------------

  /** `Character.toLowerCase` on the ASCII letters; every other character is kept. */
  function LowerChar(c: char): char
  {
    if 'A' <= c <= 'Z' then (c as int + 32) as char else c
  }

  /** The regular-expression class `\s`: space, tab, line feed, vertical tab,
      form feed and carriage return. */
  predicate IsSpace(c: char)
  {
    c == ' ' || 9 <= c as int <= 13
  }

  // ---------------------------------------------------------------------------
  // Case
  // ---------------------------------------------------------------------------

  /** `String.toLowerCase`, restricted to ASCII letters. */
  function Lower(s: string): (r: string)
    ensures |r| == |s|
    ensures forall i :: 0 <= i < |s| ==> r[i] == LowerChar(s[i])
  {
    seq(|s|, i requires 0 <= i < |s| => LowerChar(s[i]))
  }

  /** Lower-casing a literal, checked one character at a time. */
  lemma LowerPointwise(w: string, lw: string)
    requires |w| == |lw| && forall i :: 0 <= i < |w| ==> LowerChar(w[i]) == lw[i]
    ensures Lower(w) == lw
  {
  }

  /** Lower-casing introduces no character other than a lower-case letter. */
  lemma LowerKeepsNonLetters(s: string, c: char)
    requires c in Lower(s) && !('a' <= c <= 'z')
    ensures c in s
  {
    var i :| 0 <= i < |s| && Lower(s)[i] == c;
    assert LowerChar(s[i]) == c;
  }

  /** `String.equalsIgnoreCase` on ASCII text. */
  predicate EqualsIgnoreCase(a: string, b: string)
  {
    Lower(a) == Lower(b)
  }

  // ---------------------------------------------------------------------------
  // trim
  // ---------------------------------------------------------------------------

  /** Drops the leading characters `String.trim` strips (code points up to U+0020). */
  function TrimLeft(s: string): (r: string)
    ensures |r| <= |s| && r == s[|s| - |r|..]
    ensures forall i :: 0 <= i < |s| - |r| ==> s[i] <= ' '
    ensures r == [] || r[0] > ' '
    decreases |s|
  {
    if |s| > 0 && s[0] <= ' ' then TrimLeft(s[1..]) else s
  }

  /** Drops the trailing characters `String.trim` strips. */
  function TrimRight(s: string): (r: string)
    ensures |r| <= |s| && r == s[..|r|]
    ensures forall i :: |r| <= i < |s| ==> s[i] <= ' '
    ensures r == [] || r[|r| - 1] > ' '
    decreases |s|
  {
    if |s| > 0 && s[|s| - 1] <= ' ' then TrimRight(s[..|s| - 1]) else s
  }

  /** `String.trim`: the longest middle part that neither starts nor ends with a
      character up to U+0020. */
  function Trim(s: string): (r: string)
    ensures r == [] || (r[0] > ' ' && r[|r| - 1] > ' ')
    ensures |r| <= |s|
    ensures s == [] || (s[0] > ' ' && s[|s| - 1] > ' ') ==> r == s
  {
    TrimRight(TrimLeft(s))
  }

  /** `trim` removes only characters up to U+0020, and only from the two
      ends: the result is a slice of the input with such characters on both
      sides. With the contract of `Trim` this fixes the result. */
  lemma TrimIsSlice(s: string)
    ensures exists i :: TrimmedAt(s, i, Trim(s))
  {
    var l, r := TrimLeft(s), Trim(s);
    assert r == TrimRight(l);
    TrimSlices(s, |s| - |l|, l, r);
  }

  /** Dropping a blank prefix and then a blank suffix leaves a slice with
      blanks on both sides. */
  lemma TrimSlices(s: string, off: nat, l: string, r: string)
    requires off <= |s| && l == s[off..] && |r| <= |l| && r == l[..|r|]
    requires forall k :: 0 <= k < off ==> s[k] <= ' '
    requires forall k :: |r| <= k < |l| ==> l[k] <= ' '
    ensures exists i :: TrimmedAt(s, i, r)
  {
    forall k | off + |r| <= k < |s|
      ensures s[k] <= ' '
    {
      assert s[k] == l[k - off];
    }
    assert TrimmedAt(s, off, r);
  }

  /** `r` is the slice of `s` starting at `i`, and every character of `s`
      around it is one `trim` strips. */
  predicate TrimmedAt(s: string, i: int, r: string)
  {
    && 0 <= i <= |s| - |r|
    && r == s[i..i + |r|]
    && (forall k :: 0 <= k < i ==> s[k] <= ' ')
    && (forall k :: i + |r| <= k < |s| ==> s[k] <= ' ')
  }

  /** Trimming only drops characters. */
  lemma TrimKeepsChars(s: string)
    ensures forall c :: c in Trim(s) ==> c in s
  {
    var l := TrimLeft(s);
    assert forall c :: c in l ==> c in s;
    assert forall c :: c in TrimRight(l) ==> c in l;
  }

  lemma TrimRightPadded(s: string, c: char)
    requires c <= ' '
    ensures TrimRight(s + [c]) == TrimRight(s)
  {
    assert (s + [c])[..|s|] == s;
  }

  /** A word followed by one blank, as on the left of `Key = "value"`, trims to the word. */
  lemma TrimTrailingBlank(s: string)
    requires s != [] && s[0] > ' ' && s[|s| - 1] > ' '
    ensures Trim(s + " ") == s
  {
    assert TrimLeft(s + " ") == s + " ";
    TrimRightPadded(s, ' ');
  }

  /** A value preceded by one blank, as on the right of `Key = "value"`, trims to the value. */
  lemma TrimLeadingBlank(s: string)
    requires s != [] && s[0] > ' ' && s[|s| - 1] > ' '
    ensures Trim(" " + s) == s
  {
    assert (" " + s)[1..] == s;
    assert TrimLeft(" " + s) == s;
  }

  // ---------------------------------------------------------------------------
  // Regular-expression replacements
  // ---------------------------------------------------------------------------

  /** Drops a leading run of `\s` characters. */
  function DropSpaces(s: string): (r: string)
    ensures |r| <= |s|
    ensures r == [] || !IsSpace(r[0])
    decreases |s|
  {
    if |s| > 0 && IsSpace(s[0]) then DropSpaces(s[1..]) else s
  }

  /** `replaceAll("\\s+", " ")`: every maximal run of `\s` characters becomes one
      space. */
  function CollapseSpaces(s: string): (r: string)
    ensures |r| <= |s|
    ensures r != [] <==> s != []
    ensures s != [] ==> (r[0] == ' ' <==> IsSpace(s[0]))
    decreases |s|
  {
    if |s| == 0 then ""
    else if IsSpace(s[0]) then " " + CollapseSpaces(DropSpaces(s[1..]))
    else [s[0]] + CollapseSpaces(s[1..])
  }

  /** Collapsing keeps the other characters in order; the only whitespace left
      is the plain space, and no two spaces are adjacent. */
  lemma {:induction false} CollapsedShape(s: string)
    ensures var r := CollapseSpaces(s);
      && RemoveSpaces(r) == RemoveSpaces(s)
      && (forall i :: 0 <= i < |r| && IsSpace(r[i]) ==> r[i] == ' ')
      && (forall i :: 0 <= i < |r| - 1 ==> !(r[i] == ' ' && r[i + 1] == ' '))
    decreases |s|
  {
    if |s| > 0 {
      var r := CollapseSpaces(s);
      if IsSpace(s[0]) {
        var t := DropSpaces(s[1..]);
        CollapsedShape(t);
        DropSpacesKeepsText(s[1..]);
        assert r == " " + CollapseSpaces(t);
        assert r[1..] == CollapseSpaces(t);
      } else {
        CollapsedShape(s[1..]);
        assert r == [s[0]] + CollapseSpaces(s[1..]);
        assert r[1..] == CollapseSpaces(s[1..]);
      }
    }
  }

  /** Dropping leading whitespace keeps every other character. */
  lemma {:induction false} DropSpacesKeepsText(s: string)
    ensures RemoveSpaces(DropSpaces(s)) == RemoveSpaces(s)
    decreases |s|
  {
    if |s| > 0 && IsSpace(s[0]) {
      DropSpacesKeepsText(s[1..]);
    }
  }

  /** A run of whitespace is dropped whole: what follows it is kept. */
  lemma {:induction false} DropSpacesRun(w: string, b: string)
    requires forall i :: 0 <= i < |w| ==> IsSpace(w[i])
    requires b == [] || !IsSpace(b[0])
    ensures DropSpaces(w + b) == b
    decreases |w|
  {
    if |w| > 0 {
      assert (w + b)[1..] == w[1..] + b;
      DropSpacesRun(w[1..], b);
    } else {
      assert w + b == b;
    }
  }

  /** Text without whitespace is left as it is. */
  lemma {:induction false} CollapseSpaceFree(a: string)
    requires forall i :: 0 <= i < |a| ==> !IsSpace(a[i])
    ensures CollapseSpaces(a) == a
    decreases |a|
  {
    if |a| > 0 {
      CollapseSpaceFree(a[1..]);
      assert a == [a[0]] + a[1..];
    }
  }

  /** A maximal run of whitespace after a whitespace-free part becomes exactly
      one space. With `CollapseSpaceFree` this fixes the result on every text:
      split it at its first run and apply the lemma again to what follows. */
  lemma {:induction false} CollapseRun(a: string, w: string, b: string)
    requires forall i :: 0 <= i < |a| ==> !IsSpace(a[i])
    requires w != [] && forall i :: 0 <= i < |w| ==> IsSpace(w[i])
    requires b == [] || !IsSpace(b[0])
    ensures CollapseSpaces(a + w + b) == a + " " + CollapseSpaces(b)
    decreases |a|
  {
    if |a| == 0 {
      assert a + w + b == w + b;
      CollapseLeadingRun(w, b);
    } else {
      var s := a + w + b;
      assert CollapseSpaces(s) == [a[0]] + CollapseSpaces(a[1..] + w + b) by {
        assert s[0] == a[0] && s[1..] == a[1..] + w + b;
      }
      CollapseRun(a[1..], w, b);
      assert a == [a[0]] + a[1..];
    }
  }

  lemma CollapseLeadingRun(w: string, b: string)
    requires w != [] && forall i :: 0 <= i < |w| ==> IsSpace(w[i])
    requires b == [] || !IsSpace(b[0])
    ensures CollapseSpaces(w + b) == " " + CollapseSpaces(b)
  {
    var s := w + b;
    assert s[0] == w[0] && s[1..] == w[1..] + b;
    DropSpacesRun(w[1..], b);
  }

  /** `replaceAll("\\s", "")`: every `\s` character removed, the rest kept in
      order. `RemoveSpacesOne` and `RemoveSpacesConcat` together fix the result
      on every text. */
  function RemoveSpaces(s: string): (r: string)
    ensures forall c :: c in r <==> c in s && !IsSpace(c)
  {
    if |s| == 0 then ""
    else (if IsSpace(s[0]) then "" else [s[0]]) + RemoveSpaces(s[1..])
  }

  /** One character is dropped exactly when it is whitespace. */
  lemma RemoveSpacesOne(c: char)
    ensures RemoveSpaces([c]) == if IsSpace(c) then "" else [c]
  {
    assert [c][1..] == "";
  }

  /** Removing whitespace distributes over concatenation. */
  lemma {:induction false} RemoveSpacesConcat(a: string, b: string)
    ensures RemoveSpaces(a + b) == RemoveSpaces(a) + RemoveSpaces(b)
    decreases |a|
  {
    if |a| > 0 {
      var head, x, y := if IsSpace(a[0]) then "" else [a[0]], RemoveSpaces(a[1..]), RemoveSpaces(b);
      assert RemoveSpaces(a) == head + x by {
        assert a == [a[0]] + a[1..];
        RemoveSpacesCons(a[0], a[1..]);
      }
      assert RemoveSpaces(a + b) == head + (x + y) by {
        assert a + b == [a[0]] + (a[1..] + b);
        RemoveSpacesCons(a[0], a[1..] + b);
        RemoveSpacesConcat(a[1..], b);
      }
      assert head + (x + y) == (head + x) + y;
    } else {
      assert a + b == b;
    }
  }

  /** The first character survives exactly when it is not whitespace. */
  lemma RemoveSpacesCons(c: char, s: string)
    ensures RemoveSpaces([c] + s) == (if IsSpace(c) then "" else [c]) + RemoveSpaces(s)
  {
    assert ([c] + s)[0] == c && ([c] + s)[1..] == s;
  }

  /** `replace(x, "")` for a one-character target: every occurrence of `x` removed. */
  function RemoveChar(s: string, x: char): (r: string)
    ensures forall c :: c in r <==> c in s && c != x
    ensures |r| <= |s|
  {
    if |s| == 0 then ""
    else (if s[0] == x then "" else [s[0]]) + RemoveChar(s[1..], x)
  }

  lemma {:induction false} RemoveCharConcat(a: string, b: string, x: char)
    ensures RemoveChar(a + b, x) == RemoveChar(a, x) + RemoveChar(b, x)
  {
    if |a| > 0 {
      assert (a + b)[1..] == a[1..] + b;
      RemoveCharConcat(a[1..], b, x);
    } else {
      assert a + b == b;
    }
  }

  lemma {:induction false} RemoveCharAbsent(s: string, x: char)
    requires x !in s
    ensures RemoveChar(s, x) == s
  {
    if |s| > 0 {
      assert x !in s[1..];
      RemoveCharAbsent(s[1..], x);
      assert s == [s[0]] + s[1..];
    }
  }

  /** Stripping the quotes from `"v"` gives back `v` when `v` holds no quote. */
  lemma Unquote(v: string)
    requires '"' !in v
    ensures RemoveChar("\"" + v + "\"", '"') == v
  {
    RemoveCharConcat("\"" + v, "\"", '"');
    RemoveCharConcat("\"", v, '"');
    RemoveCharAbsent(v, '"');
    assert RemoveChar("\"", '"') == "";
  }

  // ---------------------------------------------------------------------------
  // split
  // ---------------------------------------------------------------------------

  /** Every piece of `s` between occurrences of `sep`, empty pieces included:
      one more piece than there are separators. */
  function Fields(s: string, sep: char): (r: seq<string>)
    ensures |r| >= 1
    ensures forall i :: 0 <= i < |r| ==> sep !in r[i]
    decreases |s|
  {
    if |s| == 0 then [""]
    else
      var rest := Fields(s[1..], sep);
      if s[0] == sep then [""] + rest
      else [[s[0]] + rest[0]] + rest[1..]
  }

  /** Glues pieces back together with `sep` between neighbours. */
  function Join(pieces: seq<string>, sep: char): string
    requires |pieces| >= 1
    decreases |pieces|
  {
    if |pieces| == 1 then pieces[0] else pieces[0] + [sep] + Join(pieces[1..], sep)
  }

  /** Splitting loses nothing: the pieces joined by the separator give the text back. */
  lemma {:induction false} JoinFields(s: string, sep: char)
    ensures Join(Fields(s, sep), sep) == s
    decreases |s|
  {
    if |s| > 0 {
      var rest := Fields(s[1..], sep);
      JoinFields(s[1..], sep);
      if s[0] == sep {
        assert Fields(s, sep)[1..] == rest;
      } else {
        var r := Fields(s, sep);
        assert r[0] == [s[0]] + rest[0];
        if |rest| == 1 {
          assert r == [[s[0]] + rest[0]];
        } else {
          assert r[1..] == rest[1..];
          assert Join(rest, sep) == rest[0] + [sep] + Join(rest[1..], sep);
        }
      }
      assert s == [s[0]] + s[1..];
    }
  }

  lemma {:induction false} FieldsWithoutSeparator(s: string, sep: char)
    requires sep !in s
    ensures Fields(s, sep) == [s]
    decreases |s|
  {
    if |s| > 0 {
      assert sep !in s[1..];
      FieldsWithoutSeparator(s[1..], sep);
      assert s == [s[0]] + s[1..];
    }
  }

  /** The first separator ends the first piece. */
  lemma {:induction false} FieldsAtSeparator(a: string, sep: char, b: string)
    requires sep !in a
    ensures Fields(a + [sep] + b, sep) == [a] + Fields(b, sep)
    decreases |a|
  {
    var s := a + [sep] + b;
    if |a| == 0 {
      assert s[1..] == b;
    } else {
      assert s[1..] == a[1..] + [sep] + b;
      assert sep !in a[1..];
      FieldsAtSeparator(a[1..], sep, b);
      assert a == [a[0]] + a[1..];
    }
  }

  /** Drops the empty pieces at the end, as `String.split` with limit 0 does. */
  function DropTrailingEmpty(pieces: seq<string>): (r: seq<string>)
    ensures |r| <= |pieces| && r == pieces[..|r|]
    ensures r == [] || r[|r| - 1] != ""
    ensures forall i :: |r| <= i < |pieces| ==> pieces[i] == ""
    decreases |pieces|
  {
    if |pieces| > 0 && pieces[|pieces| - 1] == "" then DropTrailingEmpty(pieces[..|pieces| - 1])
    else pieces
  }

  /** `String.split` on a one-character separator: the input alone when the
      separator does not occur, otherwise its pieces without the trailing empty ones. */
  function JavaSplit(s: string, sep: char): (r: seq<string>)
    ensures sep !in s ==> r == [s]
    ensures forall i :: 0 <= i < |r| ==> sep !in r[i]
    ensures sep in s ==> r == [] || r[|r| - 1] != ""
  {
    if sep !in s then
      FieldsWithoutSeparator(s, sep);
      [s]
    else DropTrailingEmpty(Fields(s, sep))
  }

  /** Splitting loses only the empty pieces at the end: the pieces, padded
      with as many empty ones, joined by the separator give the text back.
      With the contract of `JavaSplit` this fixes the pieces. */
  lemma SplitJoinsBack(s: string, sep: char)
    ensures var r := JavaSplit(s, sep);
      exists k: nat :: |r| + k >= 1 && Join(Padded(r, k), sep) == s
  {
    var r := JavaSplit(s, sep);
    if sep !in s {
      assert Padded(r, 0) == [s];
    } else {
      var fields := Fields(s, sep);
      JoinFields(s, sep);
      assert Padded(r, |fields| - |r|) == fields;
    }
  }

  /** The pieces followed by `k` empty ones: what `split` drops at the end. */
  function Padded(pieces: seq<string>, k: nat): (r: seq<string>)
    ensures |r| == |pieces| + k
  {
    pieces + seq(k, _ => "")
  }

  /** `"k=v"` with neither side holding the separator and a non-empty right side splits in two. */
  lemma SplitInTwo(a: string, sep: char, b: string)
    requires sep !in a && sep !in b && b != []
    ensures JavaSplit(a + [sep] + b, sep) == [a, b]
  {
    FieldsAtSeparator(a, sep, b);
    FieldsWithoutSeparator(b, sep);
    assert (a + [sep] + b)[|a|] == sep;
  }

  /** The last piece of a text that does not end with the separator is not empty. */
  lemma {:induction false} LastFieldNonEmpty(s: string, sep: char)
    requires s != [] && s[|s| - 1] != sep
    ensures Fields(s, sep)[|Fields(s, sep)| - 1] != ""
    decreases |s|
  {
    if |s| > 1 {
      assert s[1..][|s[1..]| - 1] == s[|s| - 1];
      LastFieldNonEmpty(s[1..], sep);
    } else {
      assert s[1..] == [];
    }
  }

  /** A text with two separators that does not end with one splits into the
      two pieces before them and the pieces after: at least three. */
  lemma SplitThreeWays(a: string, b: string, c: string, sep: char)
    requires sep !in a && sep !in b && c != [] && c[|c| - 1] != sep
    ensures JavaSplit(a + [sep] + b + [sep] + c, sep) == [a, b] + Fields(c, sep)
    ensures |JavaSplit(a + [sep] + b + [sep] + c, sep)| >= 3
  {
    var s := a + [sep] + b + [sep] + c;
    var rest := Fields(c, sep);
    var pieces := [a, b] + rest;
    assert s[|a|] == sep;
    assert DropTrailingEmpty(pieces) == pieces by {
      LastFieldNonEmpty(c, sep);
      LastOfConcat([a, b], rest);
      NothingTrailing(pieces);
    }
    FieldsOfTwo(a, b, c, sep);
    SplitKeepsPieces(s, sep, |a|, pieces);
  }

  /** Two leading separators cut off the two pieces before them. */
  lemma FieldsOfTwo(a: string, b: string, c: string, sep: char)
    requires sep !in a && sep !in b
    ensures Fields(a + [sep] + b + [sep] + c, sep) == [a, b] + Fields(c, sep)
  {
    assert a + [sep] + b + [sep] + c == a + [sep] + (b + [sep] + c);
    FieldsAtSeparator(a, sep, b + [sep] + c);
    FieldsAtSeparator(b, sep, c);
  }

  /** With the separator present and nothing empty at the end, `split` gives
      exactly the pieces. */
  lemma SplitKeepsPieces(s: string, sep: char, at: nat, pieces: seq<string>)
    requires at < |s| && s[at] == sep
    requires Fields(s, sep) == pieces && DropTrailingEmpty(pieces) == pieces
    ensures JavaSplit(s, sep) == pieces
  {
    assert sep in s;
  }

  /** Pieces whose last one is not empty lose nothing at the end. */
  lemma NothingTrailing(pieces: seq<string>)
    requires pieces != [] && pieces[|pieces| - 1] != ""
    ensures DropTrailingEmpty(pieces) == pieces
  {
  }

  lemma LastOfConcat(x: seq<string>, y: seq<string>)
    requires y != []
    ensures (x + y)[|x + y| - 1] == y[|y| - 1]
  {
  }

  lemma {:induction false} FieldsOfSeparators(s: string, sep: char)
    requires forall i :: 0 <= i < |s| ==> s[i] == sep
    ensures forall i :: 0 <= i < |Fields(s, sep)| ==> Fields(s, sep)[i] == ""
    decreases |s|
  {
    if |s| > 0 {
      FieldsOfSeparators(s[1..], sep);
    }
  }

  /** A non-empty text made only of separators splits into no pieces at all. */
  lemma SplitOnlySeparators(s: string, sep: char)
    requires s != [] && forall i :: 0 <= i < |s| ==> s[i] == sep
    ensures JavaSplit(s, sep) == []
  {
    assert s[0] == sep;
    FieldsOfSeparators(s, sep);
  }

  // ---------------------------------------------------------------------------
  // The two normalisations of the keyword index
  // ---------------------------------------------------------------------------

  /** A normalised key: no `\s` character and no upper-case ASCII letter. */
  predicate Normalised(w: string)
  {
    forall j :: 0 <= j < |w| ==> !IsSpace(w[j]) && LowerChar(w[j]) == w[j]
  }

  /** The words a name is indexed under: trimmed, `\s` runs collapsed to one
      space, lower-cased, split on spaces. Every word is normalised; a blank
      name yields the one empty word, as `"".split(" ")` does. */
  function NameWords(name: string): (r: seq<string>)
    ensures forall i :: 0 <= i < |r| ==> Normalised(r[i])
    ensures Trim(name) == "" ==> r == [""]
  {
    CollapsedShape(Trim(name));
    SplitWordsNormalised(CollapseSpaces(Trim(name)));
    JavaSplit(Lower(CollapseSpaces(Trim(name))), ' ')
  }

  /** When the only whitespace left is the plain space, lower-casing and
      splitting on it yields normalised words. */
  lemma SplitWordsNormalised(c: string)
    requires forall i :: 0 <= i < |c| && IsSpace(c[i]) ==> c[i] == ' '
    ensures var r := JavaSplit(Lower(c), ' '); forall i :: 0 <= i < |r| ==> Normalised(r[i])
  {
    var lowered := Lower(c);
    var r := JavaSplit(lowered, ' ');
    SplitPiecesFromText(lowered, ' ');
    forall i, j | 0 <= i < |r| && 0 <= j < |r[i]|
      ensures !IsSpace(r[i][j]) && LowerChar(r[i][j]) == r[i][j]
    {
      var x := r[i][j];
      assert x in lowered && x != ' ';
      var k :| 0 <= k < |lowered| && lowered[k] == x;
      assert x == LowerChar(c[k]);
    }
  }

  /** The lookup key of one search keyword: lower-cased with every `\s`
      removed. The key is normalised, and a normalised key is its own key. */
  function CleanInput(keyword: string): (r: string)
    ensures Normalised(r)
    ensures |r| <= |keyword|
    ensures Normalised(keyword) ==> r == keyword
  {
    RemovedSpacesNormalised(Lower(keyword));
    if Normalised(keyword) then
      LowerFixed(keyword);
      RemoveSpacesAbsent(keyword);
      RemoveSpaces(Lower(keyword))
    else RemoveSpaces(Lower(keyword))
  }

  /** An index word, looked up as a search keyword, is its own key. */
  lemma IndexWordIsOwnKey(name: string, i: int)
    requires 0 <= i < |NameWords(name)|
    ensures CleanInput(NameWords(name)[i]) == NameWords(name)[i]
  {
  }

  /** Removing `\s` from lower-cased text leaves a normalised key no longer than the text. */
  lemma {:induction false} RemovedSpacesNormalised(s: string)
    requires forall j :: 0 <= j < |s| ==> LowerChar(s[j]) == s[j]
    ensures Normalised(RemoveSpaces(s)) && |RemoveSpaces(s)| <= |s|
    decreases |s|
  {
    if |s| > 0 {
      RemovedSpacesNormalised(s[1..]);
      var rest := RemoveSpaces(s[1..]);
      if !IsSpace(s[0]) {
        assert RemoveSpaces(s) == [s[0]] + rest;
      }
    }
  }

  lemma {:induction false} RemoveSpacesAbsent(s: string)
    requires forall j :: 0 <= j < |s| ==> !IsSpace(s[j])
    ensures RemoveSpaces(s) == s
    decreases |s|
  {
    if |s| > 0 {
      RemoveSpacesAbsent(s[1..]);
      assert s == [s[0]] + s[1..];
    }
  }

  /** Every character of a piece of `split` comes from the text split. */
  lemma SplitPiecesFromText(s: string, sep: char)
    ensures forall i, j :: 0 <= i < |JavaSplit(s, sep)| && 0 <= j < |JavaSplit(s, sep)[i]| ==>
      JavaSplit(s, sep)[i][j] in s
  {
    if sep in s {
      FieldsFromText(s, sep);
      var fields := Fields(s, sep);
      assert JavaSplit(s, sep) == fields[..|JavaSplit(s, sep)|];
    }
  }

  lemma {:induction false} FieldsFromText(s: string, sep: char)
    ensures forall i, j :: 0 <= i < |Fields(s, sep)| && 0 <= j < |Fields(s, sep)[i]| ==> Fields(s, sep)[i][j] in s
    decreases |s|
  {
    if |s| > 0 {
      FieldsFromText(s[1..], sep);
      var rest := Fields(s[1..], sep);
      assert forall c :: c in s[1..] ==> c in s;
      if s[0] != sep {
        var r := Fields(s, sep);
        assert r == [[s[0]] + rest[0]] + rest[1..];
        forall i, j | 0 <= i < |r| && 0 <= j < |r[i]| ensures r[i][j] in s {
          if i == 0 && j > 0 {
            assert r[0][j] == rest[0][j - 1];
          } else if i > 0 {
            assert r[i] == rest[i];
          }
        }
      }
    }
  }

  /** A plain word: non-empty, lower-case, and free of anything up to U+0020. */
  predicate PlainWord(w: string)
  {
    w != [] && forall i :: 0 <= i < |w| ==> w[i] > ' ' && LowerChar(w[i]) == w[i]
  }

  lemma {:induction false} LowerFixed(w: string)
    requires forall i :: 0 <= i < |w| ==> LowerChar(w[i]) == w[i]
    ensures Lower(w) == w
  {
  }

  lemma {:induction false} RemoveSpacesFixed(w: string)
    requires forall i :: 0 <= i < |w| ==> w[i] > ' '
    ensures RemoveSpaces(w) == w
    decreases |w|
  {
    if |w| > 0 {
      RemoveSpacesFixed(w[1..]);
      assert w == [w[0]] + w[1..];
    }
  }

  /** A plain word is indexed under itself alone and is its own lookup key. */
  lemma PlainWordNormalises(w: string)
    requires PlainWord(w)
    ensures NameWords(w) == [w]
    ensures CleanInput(w) == w
  {
    CollapseSpaceFree(w);
    LowerFixed(w);
    RemoveSpacesFixed(w);
  }
}

=== FILE: wrappers.dfy ===
/** The two failure-carrying shapes the model uses in place of Java's null
    returns and thrown exceptions. */
module Wrappers {

  /** A value that may be missing: Java's `null` or an absent map key. */
  datatype Option<+T> = None | Some(value: T)

  /** Either a value or the error the Java code would have reported or thrown. */
  datatype Result<+R, +E> = Success(value: R) | Failure(error: E) {

    /** The value, or `None` for a failure: a caught exception turned into `null`. */
    function ToOption(): (r: Option<R>)
      ensures r.Some? <==> Success?
      ensures r.Some? ==> r.value == value
    {
      match this
      case Success(v) => Some(v)
      case Failure(_) => None
    }
  }
}
